=== FILE: README.md ===
# a-maze-ing in Dafny

A model of the maze core of the `mazegen` package, with proofs about it. The package does four things:

- **Generation.** `MazeGenerator.maze_gen` carves a maze on a fine grid of (2·height+1) × (2·width+1) integer cells. Logical cells sit at odd/odd coordinates, and the cells between them are walls or passages.
- **Hex export.** `convert_hex_maze` writes one hex digit per logical cell.
- **Marker reset.** `clear_all` and `clear_path` reset the solver's markers.
- **Solving.** Two solvers find a route from the start to the exit: a depth-first search (`DFS`, mazegen/dfs_path.py) and an A* search (`AStar`, mazegen/astar.py).

The stand-alone prototype of the depth-first search (root dfs_path.py) is modelled as well.

The model is purely functional:

- Grids are `seq<seq<int>>` holding the source's cell codes: WALL 0, EMPTY 1, FIND 3, PATH 4, the "42" obstacle 5, START 6, EXIT 7.
- Every operation that rewrites the maze in place returns the new grid instead.
- The `ValueError`s and `IndexError`s the source raises are the `Failure` values of a `Result`.
- Every call to `random` consumes one value of an oracle `draws: nat -> nat`:
  - `random.choice(xs)` is `xs[draw % |xs|]`;
  - `random.randint(0, 100)` is `draw % 101`.

The modules follow the program:

| module | file | models |
|---|---|---|
| `Results`, `Grids` | grid.dfy | failures, cell codes, positions, the coordinate swaps of the three classes, cell counting |
| `Walks` | walk.dfy | compass moves, the walks they trace, and walks confined to a closed region |
| `Stamp` | stamp.dfy | `set_fourty_two` |
| `Carver` | carve.dfy | the backtracker loop of `maze_gen` (`valid_pos`, `break_wall`, the stack), as written and corrected |
| `Braiding` | braid.dfy | the braid and cleanup passes of imperfect mode |
| `Generator` | generator.dfy | `start`/`end`, the checks and the success path of `maze_gen`, and the counterexample of the finding below |
| `HexCodec` | hex.dfy | `convert_hex_maze`, and a decoder for its digits used to state what the encoding keeps |
| `Markers` | markers.dfy | `clear_all`, `clear_path` |
| `DfsCore` | dfs_core.dfy | the depth-first search loop shared by both DFS classes (visited-at-push, LIFO stack, N/S/W/E order) |
| `DfsSolver` | dfs_solver.dfy | `DFS.__init__`, `find_path_dfs` with its recolouring, `solve` with its replay |
| `ProtoDfs` | proto_dfs.dfy | the prototype `DFS.solve` on a grid of glyphs |
| `AStarSearch` | astar_search.dfy | the A* loop: heap of (f, row, col), closed table, cell records, `is_valid`, `is_unblocked` |
| `AStarSolver` | astar.dfy | `AStar.__init__`, `trace_path`, `solve` |

Three behaviours of the code are easy to misread:

- **Hex bits.** `convert_hex_maze` sets a direction's bit when the neighbouring cell on that side is WALL (code 0). A set bit therefore means a closed side, not an open one.
- **Braid test.** The braid pass opens a door only when the logical cell two steps away is EMPTY, not when it is WALL. So it only joins rooms that are already open.
- **Solver start.** Both solvers stamp START before they validate the end. An end equal to the start therefore always fails the end test with "Invalid end coordinate". The `start == end` early returns are dead code.

## Model

| member | source | states |
|---|---|---|
| Generator.StartCell | mazegen/__init__.py:27-29 | the start pair (a, b) becomes the logical fine cell (2b+1, 2a+1); halving it back recovers a and b |
| Generator.EndCell | mazegen/__init__.py:31-33 | the same swap for the end pair |
| Grids.FineSwapped | mazegen/dfs_path.py:26-29 | the swapped conversion lands on a logical cell and is inverted by halving |
| Grids.FineDirect | mazegen/astar.py:13-15 | the unswapped conversion lands on a logical cell and is inverted by halving |
| Carver.BreakWall | mazegen/__init__.py:43-50 | exactly the two cells one and two steps away become EMPTY, every other cell is unchanged, and the returned position is the cell two steps away |
| Markers.ClearAll | mazegen/__init__.py:64-69 | no FIND or PATH cell is left, those cells become EMPTY, every other cell keeps its code |
| Markers.ClearPath | mazegen/__init__.py:71-76 | no PATH cell is left, PATH cells become EMPTY, every other cell (FIND included) keeps its code |
| Markers.ClearAllIdempotent | mazegen/__init__.py:64-69 | a second `clear_all` changes nothing |
| Markers.ClearPathIdempotent | mazegen/__init__.py:71-76 | a second `clear_path` changes nothing |
| Markers.ClearAllAbsorbsClearPath | mazegen/__init__.py:64-76 | `clear_path` followed or preceded by `clear_all` is just `clear_all` |
| Markers.ResetKeepsEncoding | mazegen/__init__.py:64-76 | neither reset changes the hex export of the maze |
| Stamp.PatternCells | mazegen/__init__.py:79-91 | the 11 × 15 pattern is OBSTACLE at eighteen listed cells, all at odd/odd positions off its border, and WALL everywhere else |
| Stamp.OffsetFits | mazegen/__init__.py:98-101 | when a side is longer than the pattern, the offset computed with true division and `int` truncation is even and the pattern fits between it and the far edge |
| Stamp.SetFortyTwo | mazegen/__init__.py:102-105 | a grid not wider than 15 or not taller than 11 is returned unchanged, and the shape is always kept |
| Stamp.Overlay | mazegen/__init__.py:106-108 | writing the pattern at a given offset gives each cell inside the pattern's window the pattern's value and leaves every other cell, and the shape, as they were |
| Stamp.StampedBlank | mazegen/__init__.py:78-109 | on the all-WALL grid, the stamp leaves only WALL and OBSTACLE cells; obstacles sit exactly at the shifted holes when the pattern fits, and each is a logical cell off the frame |
| Carver.Candidates | mazegen/__init__.py:225-240 | a direction is listed exactly when its cell two steps away passes the carver's one-coordinate bounds test and is WALL |
| Carver.Choose | mazegen/__init__.py:245 | `random.choice` returns one of the candidates |
| Carver.CarvableTarget | mazegen/__init__.py:226-245 | a candidate from a room leads over an interior WALL cell to an interior WALL logical cell |
| Carver.CarveStep | mazegen/__init__.py:243-245 | one carve keeps the loop invariant: doors only join rooms, cells only open, one room more than doors; it also strictly lowers the number of WALL logical cells and never makes a direction carvable |
| Carver.PopStep | mazegen/__init__.py:241-242 | one pop keeps the loop invariant |
| Carver.CarveAsWritten | mazegen/__init__.py:221-247 | the loop as written fails with a pop from an empty list exactly when the start has nothing to carve; otherwise it stops with a maze whose doors join rooms and that has one room more than doors |
| Carver.AsWrittenLinked | mazegen/__init__.py:221-247 | from any loop state whose rooms are reached from the start through open doors, the loop as written ends, when it does not fail, with every room still so reached |
| Carver.AsWrittenTree | mazegen/__init__.py:221-247 | run from the start, the loop as written leaves a tree rooted at the start: doors join rooms, every room is reached from the start through open doors, and there is one room more than doors |
| Carver.Complete | mazegen/__init__.py:224-247 | once no room has anything left to carve, every free two-step walk from the start ends on a room |
| Carver.Carve | mazegen/__init__.py:221-247 | the corrected loop builds a tree: cells only open, doors only join rooms, one room more than doors, every room reached from the start through open doors, and every cell a free walk from the start reaches carved |
| Generator.CornerCells | mazegen/__init__.py:78-109 | the stamped 13 × 17 grid of a 6 × 8 maze has its obstacles exactly at the pattern's holes |
| Generator.CornerStops | mazegen/__init__.py:241-247 | on that grid, with the first draw picking east from (3, 9), the loop as written carves (3, 11), pops back to the start and stops |
| Generator.StopsEarly | mazegen/__init__.py:241-247 | the loop as written stops with (3, 7) uncarved, although a free walk leads there from the start |
| Braiding.BraidStep | mazegen/__init__.py:256-265 | opening the door from a room in range towards an EMPTY cell two steps away is a braid |
| Braiding.Braid | mazegen/__init__.py:252-265 | the braid pass only opens interior cells between logical cells that bridge two EMPTY cells, never closes a cell, leaves every logical cell alone and only consumes draws |
| Braiding.CleanStep | mazegen/__init__.py:266-279 | opening one boxed-in WALL cell in range keeps the pass within what cleanup may write |
| Braiding.Cleanup | mazegen/__init__.py:266-279 | cleanup opens exactly the WALL cells in range that its input boxes in with four EMPTY neighbours, and changes nothing else; a cell it opens has no WALL neighbour, so opening it never boxes in a later cell |
| Generator.BraidOpens | mazegen/__init__.py:252-265 | on a carved maze, the braid pass only opens interior WALL cells |
| Generator.CleanupOpens | mazegen/__init__.py:266-279 | on a carved maze, cleanup only opens interior WALL cells |
| Generator.Loosen | mazegen/__init__.py:252-279 | the two imperfect-mode passes together only open interior WALL cells |
| Generator.ThroughKept | mazegen/__init__.py:252-286 | a walk through open doors stays open when cells are only opened or logical cells are re-marked |
| Generator.Layout | mazegen/__init__.py:221-279 | starting from the stamped grid, cells only open; every cell a free walk reaches is reached through open doors; in a perfect maze every door joins two rooms, every room is reached from the start through open doors, there is one room more than doors, and every free-walk destination is a room |
| Generator.MarkEnds | mazegen/__init__.py:284-286 | marking the start START and the end EXIT on a tree lowers the room count by the number of distinct endpoints and changes nothing else |
| Generator.MarkedCells | mazegen/__init__.py:284-286 | after the marking, the frame is still WALL and the obstacles are exactly those of the stamped grid |
| Generator.Validate | mazegen/__init__.py:207-220 | a failure is reported exactly when the end or the start is outside the grid or on an obstacle; the end's bounds come first, then the start's, then the start's obstacle, then the end's |
| Generator.MarkTree | mazegen/__init__.py:284-286 | marking the endpoints of a tree of rooms grown from the start keeps every door leading to an open logical cell and every open logical cell other than the exit reachable through open doors |
| Generator.Build | mazegen/__init__.py:221-287 | the success path gives a rectangle with EXIT at the end, START at a distinct start, a WALL frame, the stamp's obstacles and nothing else as obstacles, every free-walk destination reached through open doors; in a perfect maze every door leads to an open logical cell and every open logical cell other than the exit is reached from the start through open doors, and when the end is reachable the rooms plus the distinct endpoints are one more than the doors |
| Generator.MazeGen | mazegen/__init__.py:202-287 | `maze_gen`: the failure conditions and their order; on success, every property of the success path, including the perfect-mode tree grown from the start |
| HexCodec.DigitRoundTrip | mazegen/__init__.py:305 | `format(v, "X")` of a value below 16 reads back as v |
| HexCodec.CellCode | mazegen/__init__.py:296-304 | a cell's code is below 16 and has the bit of a side set exactly when that side's cell is WALL |
| HexCodec.EncodeRow | mazegen/__init__.py:293-306 | one output line has one uppercase hex digit per logical cell of its row, whose bits are exactly that cell's WALL sides |
| HexCodec.ConvertHexMaze | mazegen/__init__.py:289-307 | one line per logical row and one uppercase hex digit per logical cell; each digit's bits are exactly the WALL sides of its cell |
| HexCodec.SharedWalls | mazegen/__init__.py:293-304 | neighbouring digits agree on the wall they share: east against west, south against north |
| HexCodec.EncodingIffSameSides | mazegen/__init__.py:289-307 | two grids encode alike exactly when every logical cell has the same walls in both |
| HexCodec.SamePassagesSameEncoding | mazegen/__init__.py:289-307 | re-marking logical cells never changes the encoding |
| HexCodec.DecodeRoundTrip | mazegen/__init__.py:289-307 | decoding the encoding rebuilds every wall around every logical cell, and re-encoding gives the same lines |
| DfsCore.ExtendFrame | mazegen/dfs_path.py:93-101 | a frame extended onto an unvisited passable neighbour still traces a repetition-free passable walk to its cell |
| DfsCore.Push | mazegen/dfs_path.py:93-101 | pushing a neighbour keeps the stack invariant: good frames, distinct cells, all visited |
| DfsCore.TryPush | mazegen/dfs_path.py:88-101 | one neighbour test visits the neighbour if it is passable, and pushes exactly the cells it newly visits |
| DfsCore.Expand | mazegen/dfs_path.py:80-101 | after the four tests every passable neighbour of the popped cell is visited |
| DfsCore.Advance | mazegen/dfs_path.py:72-101 | one turn of the loop keeps the search invariant and either visits a new cell or shrinks the stack |
| DfsCore.Search | mazegen/dfs_path.py:69-106 | a non-empty result is a repetition-free walk over passable cells from the start to the end; an empty one from a start other than the end means no such walk exists |
| DfsCore.SamePassable | mazegen/dfs_path.py:83-99 | routes and unreachability depend only on which cells are passable, which the recolouring never changes |
| DfsSolver.NewDfs | mazegen/dfs_path.py:26-29 | the constructor's swap is inverted by halving, and both endpoints land on logical cells |
| DfsSolver.MarkOne | mazegen/dfs_path.py:84-91 | one neighbour test turns the cell into PATH exactly when it is EMPTY or FIND, and changes no other cell |
| DfsSolver.MarkNeighbours | mazegen/dfs_path.py:80-99 | expanding a cell turns each EMPTY or FIND neighbour into PATH and changes nothing else |
| DfsSolver.MarkAround | mazegen/dfs_path.py:72-101 | over the whole search, exactly the EMPTY or FIND neighbours of expanded cells become PATH |
| DfsSolver.MarkFound | mazegen/dfs_path.py:165-167 | exactly the PATH cells among the given cells become FIND |
| DfsSolver.FindPathDfs | mazegen/dfs_path.py:31-106 | `find_path_dfs`: the grid changes only by EMPTY or FIND cells becoming PATH; a returned route walks non-WALL cells without repeats to the end; an empty one means the end is out of reach |
| DfsSolver.Replay | mazegen/dfs_path.py:163-170 | the replay turns PATH into FIND exactly on the cells the route stands on before each move, and the route stays valid |
| DfsSolver.Solve | mazegen/dfs_path.py:108-175 | `solve` fails with "Invalid end coordinate" exactly when the end is outside the grid, equal to the start, or neither EMPTY nor EXIT, and then the maze differs from the input only by START at the start; the start ends START and a valid end EXIT; walls are kept; other cells change only to PATH or FIND; the result is a route or proves the end unreachable |
| ProtoDfs.Solve | dfs_path.py:1-29 | the prototype returns a repetition-free walk over open-glyph cells from the start to the end, or an empty list only when no such walk exists |
| AStarSearch.IsValid | mazegen/astar.py:28-30 | true exactly when the cell lies inside the grid |
| AStarSearch.IsUnblocked | mazegen/astar.py:32-39 | true exactly when the cell crossed and the cell moved from are both not WALL |
| AStarSearch.MinIndex | mazegen/astar.py:108 | `heappop` takes an entry that is least in tuple order (f, then row, then column) |
| AStarSearch.MoveOf | mazegen/astar.py:50-67 | the letter table names a move exactly when the two cells are one two-cell move apart, and then names that move |
| AStarSearch.Improve | mazegen/astar.py:131-140 | recording a new or strictly smaller f lowers the table's measure, so the search terminates |
| AStarSearch.LowerChain | mazegen/astar.py:112-140 | lowering the table over several neighbours composes |
| AStarSearch.Update | mazegen/astar.py:127-140 | relaxing a neighbour keeps the search invariant, and either changes nothing or lowers the table and pushes one entry |
| AStarSearch.Paint | mazegen/astar.py:120-122 | painting an accepted move writes PATH on the crossed cell and leaves the destination open; over the whole search every changed cell holds PATH, is neither the start nor the end, and was not a WALL between logical cells |
| AStarSearch.Open | mazegen/astar.py:115-140 | an accepted move paints PATH and either stops at the end, ready for `trace_path`, or relaxes the neighbour |
| AStarSearch.Skip | mazegen/astar.py:115-119 | a neighbour that fails the test is closed or out of reach |
| AStarSearch.Relax | mazegen/astar.py:112-140 | one neighbour of the popped cell keeps the invariant, or stops with the parent records ready for `trace_path` |
| AStarSearch.Expand | mazegen/astar.py:112-144 | after the four neighbours, every crossable move out of a closed cell leads to a closed cell or one with a finite record |
| AStarSearch.PopKeeps | mazegen/astar.py:107-111 | popping a least entry and closing its cell keeps the invariant |
| AStarSearch.Exhausted | mazegen/astar.py:107-145 | when the heap runs dry, no crossable walk from the start reaches the end |
| AStarSearch.Search | mazegen/astar.py:97-145 | the search either stops at the end with parent records that chain back to the start, or proves the end unreachable; it only ever paints PATH, never on the endpoints |
| AStarSolver.NewAStar | mazegen/astar.py:13-15 | the constructor keeps row and column order, is inverted by halving, and lands on logical cells |
| AStarSolver.ChainGrow | mazegen/astar.py:51-58 | following one more parent keeps the collected chain linked by crossable moves and falling in rank |
| AStarSolver.Collect | mazegen/astar.py:47-59 | the parent chain runs from the end to the start without repeats, each cell one crossable move after the next |
| AStarSolver.ReverseDistinct | mazegen/astar.py:60 | reversing the chain keeps it repetition-free |
| AStarSolver.MidpointOfMove | mazegen/astar.py:68-69 | `((x1 + x2) // 2, (y1 + y2) // 2)` is the cell a two-cell move crosses |
| AStarSolver.Letters | mazegen/astar.py:61-77 | the letters walk exactly the chain from the start, over crossable moves; afterwards every crossed cell is FIND, every chain cell after the first that held PATH is FIND, and every other cell is as the search left it |
| AStarSolver.MarkStep | mazegen/astar.py:68-72 | one letter extends the marking by FIND on the crossed cell, and on the reached cell exactly when it holds PATH, disturbing nothing else |
| AStarSolver.MarksRoute | mazegen/astar.py:61-72 | once every letter is written, every cell a crossable walk crosses is FIND |
| AStarSolver.TracePath | mazegen/astar.py:44-77 | `trace_path` returns a repetition-free crossable walk from the start to the end, and marks FIND exactly the cells it crosses and the cells it reaches that held PATH |
| AStarSolver.SameCrossings | mazegen/astar.py:33-39 | which two-cell walks are crossable depends only on the passages |
| AStarSolver.Solve | mazegen/astar.py:79-145 | `solve` fails exactly when the end is outside the grid, equal to the start, or neither EMPTY nor EXIT, and then the maze differs from the input only by START at the start; on success the passages are kept, START and EXIT are stamped, other cells change only to PATH or FIND, and the result is a repetition-free crossable walk to the end whose crossed cells are all FIND, or proves the end unreachable |
| Walks.TraceSteps | mazegen/astar.py:50 | each cell of a traced walk is one move from the one before it |
| Walks.WalkStaysInside | mazegen/dfs_path.py:72-106 | an allowed walk from inside a region closed under allowed moves never leaves it; this is the completeness argument of both searches and of the carver |
| Walks.TraceLogical | mazegen/astar.py:112-114 | two-cell moves from a logical cell only visit logical cells |

## Left out

- Drawing: `print_maze`, `setup_colors`, `change_color`, the `screen` argument, `time.sleep` and the refreshes are I/O, so they are left out.
- Randomness: the `draws` oracle replaces `random`. The seeding in `set_fourty_two` (`random.seed(self.seed)`) is left out, because the oracle already fixes every draw.
- `check_format` is a `requires` on `height` and `width` of at least 2. Its `not self.start` test never fires, because `start` is a non-empty tuple.
- The pydantic field defaults and the `solver_astar`/`solver_dfs` properties are left out. The properties only call the constructors, which are modelled as `NewAStar` and `NewDfs`.
- The A* heuristic is a parameter `heur: Pos -> nat` instead of the floating-point Euclidean distance, and `float("inf")` is the `Inf` cost. Floating point is not modelled.
- Python's negative indices are left out. The solvers require a start in bounds and an end with non-negative coordinates. Both solvers also require a rectangular grid: AStarSolver.Solve states it directly, and DfsSolver.Solve through its WALL frame. The depth-first solver also requires a WALL frame around an interior start, because `find_path_dfs` reads a neighbour before its bounds test. On grids from `maze_gen` this always holds.
- ProtoDfs.Solve: requires every row to be as long as the first. The bounds test reads only `len(maze_matrix[0])`, and a shorter row would raise `IndexError`.
- Carver.Candidates: states which directions are listed, not that they are listed in N, S, W, E order. The order only matters through the draw that picks from the list.
- Generator.MazeGen: requires height and width of at least 2, as the field validators do.
- Generator.MazeGen: in imperfect mode, it states only that the passes open cells and that walks stay open. Which doors a particular draw sequence opens is not stated.
- Generator.MazeGen, Generator.Build, Generator.Layout: use the corrected carve loop (see Findings). The loop as written is modelled separately by Carver.CarveAsWritten and Carver.AsWrittenTree.
- Generator.Layout: states the tree property for perfect mode only. Braiding deliberately adds loops.

## Findings

| source | as written | input that shows it | evidently intended | confidence | as-written member | corrected member |
|---|---|---|---|---|---|---|
| mazegen/__init__.py:241-247 | The carve loop sets `end = True` whenever `prev` is empty after a step. A pop back to the start therefore ends the loop even when the start still has WALL neighbours to carve. | height 6, width 8, start_pos (4, 1), i.e. fine start (3, 9). The "42" stamp blocks north, south and east of (3, 11) and north and south of (3, 9), and the first `random.choice` picks east. The loop carves (3, 11), pops back to (3, 9) and stops with (3, 7) uncarved. | Carve until the stack is empty and the current cell has nothing left to carve, so that every cell reachable from the start becomes part of the maze. | not executed | Generator.StopsEarly | Carver.Carve |

=== FILE: astar.dfy ===
/**
 The package's A* solver (class `AStar` of mazegen/astar.py): validation and
 stamping, the search of `AStarSearch`, and `trace_path`, which rebuilds the
 route from the parent records and marks it on the maze.
 */
module AStarSolver {
  import opened Results
  import opened Grids
  import opened Walks
  import opened AStarSearch

  /** A solver holds its endpoints in fine coordinates. */
  datatype AStar = AStar(start: Pos, end: Pos)

  /** The constructor: a logical (a, b) becomes the fine cell (2a+1, 2b+1),
      without the swap the generator and the DFS solver make. */
  function NewAStar(start: (int, int), end: (int, int)): (s: AStar)
    ensures (s.start.row - 1) / 2 == start.0 && (s.start.col - 1) / 2 == start.1
    ensures (s.end.row - 1) / 2 == end.0 && (s.end.col - 1) / 2 == end.1
    ensures IsLogical(s.start) && IsLogical(s.end)
  {
    AStar(FineDirect(start.0, start.1), FineDirect(end.0, end.1))
  }

  function Reverse<T>(xs: seq<T>): (r: seq<T>)
    ensures |r| == |xs|
    ensures forall i :: 0 <= i < |xs| ==> r[i] == xs[|xs| - 1 - i]
    decreases |xs|
  {
    if xs == [] then [] else Reverse(xs[1..]) + [xs[0]]
  }

  lemma ReverseDistinct(xs: seq<Pos>)
    requires Distinct(xs)
    ensures Distinct(Reverse(xs))
  {
    var r := Reverse(xs);
    forall i, j | 0 <= i < j < |r|
      ensures r[i] != r[j]
    {
      assert r[i] == xs[|xs| - 1 - i] && r[j] == xs[|xs| - 1 - j];
    }
  }

  /** `cs` is the parent chain `trace_path` collects: it starts at the end,
      each cell's parent is the next one and sits one crossable move before
      it, and the closed cells after the end come in strictly falling rank. */
  ghost predicate Chain(g0: Grid, end: Pos, s: State, rank: map<Pos, nat>, cs: seq<Pos>) {
    && rank.Keys == s.closed && end !in s.closed && Shaped(g0, s)
    && (forall i :: 0 <= i < |cs| ==> InBounds(g0, cs[i]))
    && cs != [] && cs[0] == end
    && (forall i :: 1 <= i < |cs| ==> cs[i] in s.closed)
    && (forall i :: 0 <= i < |cs| - 1 ==> At(s.recs, cs[i]).parent == cs[i + 1] && Edge(g0, cs[i + 1], cs[i]))
    && (forall i, j :: 1 <= i < j < |cs| ==> rank[cs[j]] < rank[cs[i]])
  }

  lemma ChainDistinct(g0: Grid, end: Pos, s: State, rank: map<Pos, nat>, cs: seq<Pos>)
    requires Chain(g0, end, s, rank, cs)
    ensures Distinct(cs)
  {
  }

  /** A chain grows by the parent of its last cell when that parent is closed,
      one crossable move before it and, past the end, of lower rank. */
  lemma ChainGrow(g0: Grid, end: Pos, s: State, rank: map<Pos, nat>, cs: seq<Pos>)
    requires Chain(g0, end, s, rank, cs)
    requires var p := At(s.recs, cs[|cs| - 1]).parent;
             && p in s.closed && InBounds(g0, p) && Edge(g0, p, cs[|cs| - 1])
             && (|cs| > 1 ==> rank[p] < rank[cs[|cs| - 1]])
    ensures Chain(g0, end, s, rank, cs + [At(s.recs, cs[|cs| - 1]).parent])
  {
    var n := |cs| - 1;
    var cur := cs[n];
    var p := At(s.recs, cur).parent;
    var cs' := cs + [p];
    forall i | 1 <= i < |cs'|
      ensures cs'[i] in s.closed
    {
      if i < |cs| {
        assert cs'[i] == cs[i];
      }
    }
    forall i | 0 <= i < |cs'| - 1
      ensures At(s.recs, cs'[i]).parent == cs'[i + 1] && Edge(g0, cs'[i + 1], cs'[i])
    {
      if i < n {
        assert cs'[i] == cs[i] && cs'[i + 1] == cs[i + 1];
      }
    }
    forall i, j | 1 <= i < j < |cs'|
      ensures rank[cs'[j]] < rank[cs'[i]]
    {
      if j < |cs| {
        assert cs'[j] == cs[j] && cs'[i] == cs[i];
      } else if i < n {
        assert rank[cs[n]] < rank[cs[i]];
      }
    }
  }

  /** From a logical cell, whether a move is crossable depends only on the
      passages, so grids with the same passages allow the same walks. */
  lemma SameCrossings(g: Grid, g': Grid, p: Pos, ds: seq<Dir>)
    requires SamePassages(g, g') && IsLogical(p)
    ensures Allowed(p, ds, 2, Crossable(g)) <==> Allowed(p, ds, 2, Crossable(g'))
  {
    TraceLogical(p, ds);
    forall k | 0 <= k < |ds|
      ensures Crossable(g)(Trace(p, ds, 2)[k], ds[k]) <==> Crossable(g')(Trace(p, ds, 2)[k], ds[k])
    {
      var x := Trace(p, ds, 2)[k];
      MoveParity(x, ds[k]);
      var m := Step(x, ds[k], 1);
      if InBounds(g, m) {
        assert !IsLogical(m);
      }
    }
  }

  /** What `trace_path` writes: FIND, either over a PATH cell or over a
      non-WALL cell between logical cells. */
  ghost predicate Marked(g: Grid, g': Grid) {
    && SameShape(g, g')
    && forall q :: InBounds(g, q) ==>
         || At(g', q) == At(g, q)
         || (At(g', q) == FIND && (At(g, q) == PATH || (!IsLogical(q) && At(g, q) != WALL)))
  }

  /** The cell `trace_path` computes as `((x1 + x2) // 2, (y1 + y2) // 2)`. */
  function Midpoint(a: Pos, b: Pos): Pos {
    Pos((a.row + b.row) / 2, (a.col + b.col) / 2)
  }

  lemma MidpointOfMove(a: Pos, d: Dir)
    ensures Midpoint(a, Step(a, d, 2)) == Step(a, d, 1)
  {
    match d
    case N => assert (a.row + a.row - 2) / 2 == a.row - 1;
    case S => assert (a.row + a.row + 2) / 2 == a.row + 1;
    case W => assert (a.col + a.col - 2) / 2 == a.col - 1;
    case E => assert (a.col + a.col + 2) / 2 == a.col + 1;
  }

  /** Writing FIND onto the cell a crossable move from a logical cell crosses
      keeps the marking within what `trace_path` may write. */
  lemma MarkCrossed(g0: Grid, start: Pos, end: Pos, g: Grid, maze: Grid, a: Pos, d: Dir)
    requires Painted(g0, g, start, end) && Marked(g, maze)
    requires IsLogical(a) && Crossable(g0)(a, d)
    ensures InBounds(maze, Step(a, d, 1))
    ensures Marked(g, Put(maze, Step(a, d, 1), FIND))
  {
    MoveParity(a, d);
    var mid := Step(a, d, 1);
    assert At(g, mid) != WALL by {
      assert At(g, mid) == At(g0, mid) || At(g, mid) == PATH;
    }
  }

  /** Turning a PATH cell into FIND keeps the marking within what `trace_path` may write. */
  lemma MarkReached(g: Grid, maze: Grid, b: Pos)
    requires Marked(g, maze) && InBounds(maze, b) && At(maze, b) == PATH
    ensures Marked(g, Put(maze, b, FIND))
  {
  }

  /** The cells between consecutive cells of a chain, in order. */
  function Crossings(cells: seq<Pos>): (r: seq<Pos>)
    ensures |r| == if |cells| < 2 then 0 else |cells| - 1
    ensures forall k :: 0 <= k < |r| ==> r[k] == Midpoint(cells[k], cells[k + 1])
  {
    if |cells| < 2 then []
    else seq(|cells| - 1, k requires 0 <= k < |cells| - 1 => Midpoint(cells[k], cells[k + 1]))
  }

  /** The maze after the first `i` letters of `trace_path` over `cells`: the
      cells those moves cross are FIND, so is every cell they reach that held
      PATH, and every other cell is as the search left it. */
  ghost predicate TraceMarks(g: Grid, maze: Grid, cells: seq<Pos>, i: nat)
    requires i < |cells|
  {
    && SameShape(g, maze)
    && forall q :: InBounds(g, q) ==>
         At(maze, q) == (if q in Crossings(cells)[..i] || (q in cells[1..i + 1] && At(g, q) == PATH) then FIND
                         else At(g, q))
  }

  /** One letter of `trace_path` extends the marking by the crossed cell and
      by the reached cell when it holds PATH. Crossed cells lie between
      logical cells and reached cells are logical, so neither write disturbs
      the other. */
  lemma MarkStep(g: Grid, maze: Grid, cells: seq<Pos>, i: nat)
    requires i < |cells| - 1 && TraceMarks(g, maze, cells, i)
    requires forall k :: 0 <= k < |cells| ==> IsLogical(cells[k])
    requires forall k :: 0 <= k < |Crossings(cells)| ==> !IsLogical(Crossings(cells)[k])
    requires InBounds(g, Midpoint(cells[i], cells[i + 1])) && InBounds(g, cells[i + 1])
    ensures var m1 := Put(maze, Midpoint(cells[i], cells[i + 1]), FIND);
            var m2 := if At(m1, cells[i + 1]) == PATH then Put(m1, cells[i + 1], FIND) else m1;
            TraceMarks(g, m2, cells, i + 1)
  {
    var cs := Crossings(cells);
    var mid, b := cs[i], cells[i + 1];
    var before, reached := cs[..i], cells[1..i + 1];
    TakeGrow(cs, i);
    DropGrow(cells, i);
    Apart(cs, i, b, false);
    Apart(cells[1..], i, mid, true);
    assert cells[1..][..i] == reached;
    MarkCells(g, maze, before, reached, mid, b);
    var m1 := Put(maze, mid, FIND);
    var m2 := if At(m1, b) == PATH then Put(m1, b, FIND) else m1;
    Rebase(g, m2, cells, i + 1, before + [mid], reached + [b]);
  }

  /** TraceMarks read off marks stated over the crossed and reached prefixes. */
  lemma Rebase(g: Grid, maze: Grid, cells: seq<Pos>, i: nat, crossed: seq<Pos>, reached: seq<Pos>)
    requires i < |cells| && crossed == Crossings(cells)[..i] && reached == cells[1..i + 1]
    requires SameShape(g, maze)
    requires forall q :: InBounds(g, q) ==>
               At(maze, q) == (if q in crossed || (q in reached && At(g, q) == PATH) then FIND else At(g, q))
    ensures TraceMarks(g, maze, cells, i)
  {
  }

  lemma TakeGrow(xs: seq<Pos>, i: nat)
    requires i < |xs|
    ensures xs[..i + 1] == xs[..i] + [xs[i]]
  {
  }

  lemma DropGrow(xs: seq<Pos>, i: nat)
    requires i + 1 < |xs|
    ensures xs[1..i + 2] == xs[1..i + 1] + [xs[i + 1]]
  {
  }

  /** A cell of the other parity is not among the first `n` cells of a
      sequence whose cells all have one parity. */
  lemma Apart(xs: seq<Pos>, n: nat, p: Pos, logical: bool)
    requires n <= |xs| && (forall k :: 0 <= k < |xs| ==> IsLogical(xs[k]) == logical)
    requires IsLogical(p) != logical
    ensures p !in xs[..n]
  {
  }

  /** MarkStep over the grids alone: the two writes of one letter add the
      crossed cell, and the reached cell when it held PATH, to the marks. */
  lemma MarkCells(g: Grid, maze: Grid, before: seq<Pos>, reached: seq<Pos>, mid: Pos, b: Pos)
    requires SameShape(g, maze) && InBounds(g, mid) && InBounds(g, b) && mid != b
    requires b !in before && mid !in reached
    requires forall q :: InBounds(g, q) ==>
               At(maze, q) == (if q in before || (q in reached && At(g, q) == PATH) then FIND else At(g, q))
    ensures var m1 := Put(maze, mid, FIND);
            var m2 := if At(m1, b) == PATH then Put(m1, b, FIND) else m1;
            && SameShape(g, m2)
            && forall q :: InBounds(g, q) ==>
                 At(m2, q) == (if q in before + [mid] || (q in reached + [b] && At(g, q) == PATH) then FIND
                               else At(g, q))
  {
    var m1 := Put(maze, mid, FIND);
    var m2 := if At(m1, b) == PATH then Put(m1, b, FIND) else m1;
    forall q | InBounds(g, q)
      ensures At(m2, q) == (if q in before + [mid] || (q in reached + [b] && At(g, q) == PATH) then FIND
                            else At(g, q))
    {
      assert q in before + [mid] <==> q in before || q == mid;
      assert q in reached + [b] <==> q in reached || q == b;
      MarkCell(At(g, q), At(maze, q), At(m2, q), q in before, q in reached, q == mid, q == b,
               At(m1, b) == PATH);
    }
  }

  /** One cell of MarkCells, stated over the facts about it alone. */
  lemma MarkCell(x: int, y: int, z: int, inBefore: bool, inReached: bool, isMid: bool, isB: bool, bPath: bool)
    requires !(isMid && isB) && !(isMid && inReached) && !(isB && inBefore)
    requires y == (if inBefore || (inReached && x == PATH) then FIND else x)
    requires isMid ==> z == FIND
    requires isB ==> z == (if bPath then FIND else y) && (bPath <==> y == PATH)
    requires !isMid && !isB ==> z == y
    ensures z == (if inBefore || isMid || ((inReached || isB) && x == PATH) then FIND else x)
  {
  }

  /** The first loop of `trace_path`: follow the parents from the end until a
      cell is its own parent. That cell is the start, and the chain collected
      is a repetition-free sequence of logical cells, each one crossable move
      after the next. */
  method Collect(g0: Grid, start: Pos, end: Pos, s: State, ghost rank: map<Pos, nat>)
    returns (path: seq<Pos>)
    requires Ready(g0, start, end, s, rank)
    ensures |path| >= 2 && path[0] == end && path[|path| - 1] == start
    ensures Distinct(path)
    ensures forall k :: 0 <= k < |path| ==> InBounds(g0, path[k]) && IsLogical(path[k])
    ensures forall k :: 0 <= k < |path| - 1 ==> Edge(g0, path[k + 1], path[k])
  {
    path := [];
    var cur := end;
    while At(s.recs, cur).parent != cur
      invariant Chain(g0, end, s, rank, path + [cur])
      invariant cur == end || cur in s.closed
      decreases (if cur == end then 1 else 0), (if cur in rank then rank[cur] else 0)
    {
      ghost var cs := path + [cur];
      assert cs[|cs| - 1] == cur;
      assert |cs| > 1 ==> cur in s.closed;
      ChainGrow(g0, end, s, rank, cs);
      path := path + [cur];
      cur := At(s.recs, cur).parent;
    }
    assert cur == start;
    path := path + [cur];
    ChainDistinct(g0, end, s, rank, path);
    forall k | 0 <= k < |path|
      ensures IsLogical(path[k])
    {
      if k > 0 {
        assert path[k] in s.closed;
      }
    }
  }

  /** The second loop of `trace_path`, over the chain in start-to-end order:
      each pair of cells gives a letter, the cell between them becomes FIND,
      and so does the second cell when it holds PATH. */
  method Letters(g0: Grid, start: Pos, end: Pos, g: Grid, cells: seq<Pos>)
    returns (maze: Grid, moves: seq<Dir>)
    requires Painted(g0, g, start, end)
    requires cells != [] && cells[0] == start
    requires forall k :: 0 <= k < |cells| ==> IsLogical(cells[k])
    requires forall k :: 0 <= k < |cells| - 1 ==> Edge(g0, cells[k], cells[k + 1])
    ensures Trace(start, moves, 2) == cells
    ensures Allowed(start, moves, 2, Crossable(g0))
    ensures Marked(g, maze)
    ensures TraceMarks(g, maze, cells, |cells| - 1)
  {
    forall k | 0 <= k < |Crossings(cells)|
      ensures !IsLogical(Crossings(cells)[k])
    {
      var d := MoveOf(cells[k], cells[k + 1]).value;
      MidpointOfMove(cells[k], d);
      MoveParity(cells[k], d);
    }
    moves, maze := [], g;
    var i := 0;
    while i < |cells| - 1
      invariant 0 <= i <= |cells| - 1
      invariant Trace(start, moves, 2) == cells[..i + 1]
      invariant Allowed(start, moves, 2, Crossable(g0))
      invariant Marked(g, maze)
      invariant TraceMarks(g, maze, cells, i)
    {
      var a, b := cells[i], cells[i + 1];
      var d := MoveOf(a, b).value;
      ExtendMoves(g0, start, cells, moves, i);
      MidpointOfMove(a, d);
      MarkCrossed(g0, start, end, g, maze, a, d);
      MoveParity(a, d);
      MarkStep(g, maze, cells, i);
      moves := moves + [d];
      maze := Put(maze, Midpoint(a, b), FIND);
      if At(maze, b) == PATH {
        MarkReached(g, maze, b);
        maze := Put(maze, b, FIND);
      }
      i := i + 1;
    }
    assert cells[..|cells|] == cells;
  }

  /** One more letter of `trace_path` extends the walk over the chain by one
      crossable move. */
  lemma ExtendMoves(g0: Grid, start: Pos, cells: seq<Pos>, moves: seq<Dir>, i: nat)
    requires i < |cells| - 1 && Edge(g0, cells[i], cells[i + 1])
    requires Trace(start, moves, 2) == cells[..i + 1]
    requires Allowed(start, moves, 2, Crossable(g0))
    ensures MoveOf(cells[i], cells[i + 1]).Some?
    ensures var d := MoveOf(cells[i], cells[i + 1]).value;
            && Trace(start, moves + [d], 2) == cells[..i + 2]
            && Allowed(start, moves + [d], 2, Crossable(g0))
  {
    var a, b := cells[i], cells[i + 1];
    var d := MoveOf(a, b).value;
    assert Dest(start, moves, 2) == a;
    AllowedAppend(start, moves, d, 2, Crossable(g0));
    TraceAppend(start, moves, d, 2);
    assert cells[..i + 2] == cells[..i + 1] + [b];
  }

  /** Every cell a walk crosses between two of its logical cells is FIND. */
  ghost predicate RouteMarked(maze: Grid, start: Pos, moves: seq<Dir>) {
    forall k :: 0 <= k < |moves| ==>
      && InBounds(maze, Step(Trace(start, moves, 2)[k], moves[k], 1))
      && At(maze, Step(Trace(start, moves, 2)[k], moves[k], 1)) == FIND
  }

  /** The full marking of a crossable walk marks every cell it crosses. */
  lemma MarksRoute(g0: Grid, g: Grid, maze: Grid, start: Pos, moves: seq<Dir>)
    requires SameShape(g0, g) && Allowed(start, moves, 2, Crossable(g0))
    requires TraceMarks(g, maze, Trace(start, moves, 2), |moves|)
    ensures RouteMarked(maze, start, moves)
  {
    var t := Trace(start, moves, 2);
    TraceSteps(start, moves, 2);
    forall k | 0 <= k < |moves|
      ensures InBounds(maze, Step(t[k], moves[k], 1)) && At(maze, Step(t[k], moves[k], 1)) == FIND
    {
      assert Crossable(g0)(t[k], moves[k]);
      MidpointOfMove(t[k], moves[k]);
      assert Crossings(t)[..|moves|][k] == Crossings(t)[k] == Step(t[k], moves[k], 1);
    }
  }

  /** `trace_path`: the parent chain from the end, reversed, turned into
      letters. The letters walk from the start to the end over crossable moves
      without repeating a cell, and the maze gets every crossed cell, and every
      reached cell that held PATH, marked FIND. */
  method TracePath(g0: Grid, start: Pos, end: Pos, s: State, ghost rank: map<Pos, nat>)
    returns (maze: Grid, moves: seq<Dir>)
    requires Ready(g0, start, end, s, rank)
    ensures Dest(start, moves, 2) == end
    ensures Allowed(start, moves, 2, Crossable(g0))
    ensures Distinct(Trace(start, moves, 2))
    ensures Marked(s.maze, maze)
    ensures TraceMarks(s.maze, maze, Trace(start, moves, 2), |moves|)
    ensures RouteMarked(maze, start, moves)
  {
    var path := Collect(g0, start, end, s, rank);
    var rev := Reverse(path);
    forall k | 0 <= k < |rev| - 1
      ensures Edge(g0, rev[k], rev[k + 1])
    {
      assert rev[k] == path[|path| - 1 - k] && rev[k + 1] == path[|path| - 2 - k];
    }
    ReverseDistinct(path);
    maze, moves := Letters(g0, start, end, s.maze, rev);
    MarksRoute(g0, s.maze, maze, start, moves);
  }

  /** The search's PATH painting followed by the trace's FIND marking, on a
      grid that differs from `g` only at the two logical endpoints: the
      passages of `g` survive, the endpoints keep their stamps, and every other
      cell keeps its code or becomes PATH or FIND. */
  lemma Recoloured(g: Grid, g0: Grid, sm: Grid, maze: Grid, start: Pos, end: Pos)
    requires Setup(g0, start, end) && SameShape(g, g0)
    requires forall q :: InBounds(g, q) && q != start && q != end ==> At(g0, q) == At(g, q)
    requires Painted(g0, sm, start, end) && Marked(sm, maze)
    ensures SamePassages(g, maze)
    ensures At(maze, start) == START && At(maze, end) == EXIT
    ensures forall q :: InBounds(g, q) && q != start && q != end ==>
              || At(maze, q) == At(g, q)
              || ((At(maze, q) == PATH || At(maze, q) == FIND) && (IsLogical(q) || At(g, q) != WALL))
  {
  }

  /** The search and the trace on the stamped grid `g0`, stated against the
      grid `g` it was stamped from. */
  method SearchAndTrace(g: Grid, g0: Grid, start: Pos, end: Pos, heur: Pos -> nat)
    returns (g': Grid, moves: seq<Dir>)
    requires Setup(g0, start, end) && SameShape(g, g0)
    requires forall q :: InBounds(g, q) && q != start && q != end ==> At(g0, q) == At(g, q)
    ensures SamePassages(g, g')
    ensures At(g', start) == START && At(g', end) == EXIT
    ensures forall q :: InBounds(g, q) && q != start && q != end ==>
              || At(g', q) == At(g, q)
              || ((At(g', q) == PATH || At(g', q) == FIND) && (IsLogical(q) || At(g, q) != WALL))
    ensures moves != [] ==>
              && Dest(start, moves, 2) == end
              && Allowed(start, moves, 2, Crossable(g))
              && Distinct(Trace(start, moves, 2))
              && RouteMarked(g', start, moves)
    ensures moves == [] ==>
              forall ds :: Allowed(start, ds, 2, Crossable(g)) ==> Dest(start, ds, 2) != end
  {
    assert SamePassages(g, g0);
    var s, found, rank := Search(g0, start, end, heur);
    if found {
      g', moves := TracePath(g0, start, end, s, rank);
    } else {
      g', moves := s.maze, [];
      assert Marked(s.maze, g');
    }
    Recoloured(g, g0, s.maze, g', start, end);
    forall ds
      ensures Allowed(start, ds, 2, Crossable(g)) <==> Allowed(start, ds, 2, Crossable(g0))
    {
      SameCrossings(g, g0, start, ds);
    }
  }

  /** `solve`: stamp the start START, validate the end (the same test as the
      depth-first solver's, which also turns away an end equal to the start),
      stamp it EXIT, search, and trace the route when the end is reached. */
  method Solve(a: AStar, g: Grid, heur: Pos -> nat) returns (g': Grid, r: Result<seq<Dir>>)
    requires |g| >= 1 && IsRect(g, |g|, |g[0]|) && InBounds(g, a.start)
    requires IsLogical(a.start) && IsLogical(a.end) && a.end.row >= 0 && a.end.col >= 0
    ensures r.Err? <==> (|| a.end.row >= |g| || a.end.col >= |g[0]|
                         || a.end == a.start
                         || (At(g, a.end) != EMPTY && At(g, a.end) != EXIT))
    ensures r.Err? ==> r.failure == InvalidEndCoordinate
    ensures r.Err? ==> g' == Put(g, a.start, START)
    ensures SameShape(g, g') && At(g', a.start) == START
    ensures r.Ok? ==> At(g', a.end) == EXIT && SamePassages(g, g')
    ensures forall q :: InBounds(g, q) && q != a.start && q != a.end ==>
              || At(g', q) == At(g, q)
              || ((At(g', q) == PATH || At(g', q) == FIND) && (IsLogical(q) || At(g, q) != WALL))
    ensures r.Ok? && r.value != [] ==>
              && Dest(a.start, r.value, 2) == a.end
              && Allowed(a.start, r.value, 2, Crossable(g))
              && Distinct(Trace(a.start, r.value, 2))
              && RouteMarked(g', a.start, r.value)
    ensures r.Ok? && r.value == [] ==>
              forall ds :: Allowed(a.start, ds, 2, Crossable(g)) ==> Dest(a.start, ds, 2) != a.end
  {
    var g1 := Put(g, a.start, START);
    if a.end.row >= |g1| || a.end.col >= |g1[0]| {
      return g1, Err(InvalidEndCoordinate);
    }
    if At(g1, a.end) != EMPTY && At(g1, a.end) != EXIT {
      return g1, Err(InvalidEndCoordinate);
    }
    var g0 := Put(g1, a.end, EXIT);
    var moves;
    g', moves := SearchAndTrace(g, g0, a.start, a.end, heur);
    r := Ok(moves);
  }
}

=== FILE: astar_search.dfy ===
/**
 The search loop of the package's A* solver (mazegen/astar.py): a binary heap
 of (f, row, col) entries, a closed table and a table of cell records, moving
 two fine cells at a time between logical cells. The Euclidean heuristic of the
 source is replaced by an arbitrary non-negative integer function `heur`, and
 the floating-point infinity by the `Inf` cost.
 */
module AStarSearch {
  import opened Results
  import opened Grids
  import opened Walks

  datatype Cost = Inf | Fin(v: nat)

  /** One record of the cell table (`AStar.Cells`). */
  datatype Rec = Rec(parent: Pos, f: Cost, g: Cost, h: nat)

  /** A fresh record: parent (-1, -1), both costs infinite, heuristic 0. */
  const Blank: Rec := Rec(Pos(-1, -1), Inf, Inf, 0)

  type Table = seq<seq<Rec>>

  /** A heap entry `(f, row, col)`. */
  datatype Entry = Entry(f: nat, row: int, col: int)

  function Cell(e: Entry): Pos {
    Pos(e.row, e.col)
  }

  /** Python's tuple order on entries: by f, then row, then column. */
  predicate Before(a: Entry, b: Entry) {
    || a.f < b.f
    || (a.f == b.f && (a.row < b.row || (a.row == b.row && a.col <= b.col)))
  }

  /** Where `heappop` takes its entry from: a least entry of the heap. */
  function MinIndex(heap: seq<Entry>): (k: nat)
    requires heap != []
    ensures k < |heap|
    ensures forall i :: 0 <= i < |heap| ==> Before(heap[k], heap[i])
    decreases |heap|
  {
    if |heap| == 1 then 0
    else
      var k := MinIndex(heap[1..]);
      if Before(heap[0], heap[1..][k]) then 0 else k + 1
  }

  function HeapCells(heap: seq<Entry>): set<Pos> {
    set i | 0 <= i < |heap| :: Cell(heap[i])
  }

  /** `is_valid`: the cell lies inside a grid of the given size. */
  function IsValid(row: int, col: int, size: (int, int)): (b: bool)
    ensures b <==> 0 <= row < size.0 && 0 <= col < size.1
  {
    (row >= 0) && (row < size.0) && (col >= 0) && (col < size.1)
  }

  /** `is_unblocked` for a move in direction `d` that lands on `next`: the wall
      cell crossed and the cell moved from are both not WALL. The cell moved
      to is not looked at. */
  function IsUnblocked(g: Grid, next: Pos, d: Dir): (b: bool)
    requires InBounds(g, Step(next, Opposite(d), 1)) && InBounds(g, Step(next, Opposite(d), 2))
    ensures b <==> At(g, Step(next, Opposite(d), 1)) != WALL && At(g, Step(next, Opposite(d), 2)) != WALL
  {
    At(g, Step(next, Opposite(d), 1)) != 0 && At(g, Step(next, Opposite(d), 2)) != WALL
  }

  /** A move of two cells from `p` in direction `d` stays in the grid and
      crosses a cell that is not WALL. */
  function Crossable(g: Grid): (Pos, Dir) -> bool {
    (p: Pos, d: Dir) =>
      InBounds(g, Step(p, d, 2)) && InBounds(g, Step(p, d, 1)) && At(g, Step(p, d, 1)) != WALL
  }

  /** The letter table of `trace_path`: a difference of two cells in one
      coordinate names a move; anything else names none. */
  function MoveOf(a: Pos, b: Pos): (r: Option<Dir>)
    ensures r.Some? ==> b == Step(a, r.value, 2)
    ensures forall d :: b == Step(a, d, 2) ==> r == Some(d)
  {
    var dr, dc := b.row - a.row, b.col - a.col;
    if dr == -2 && dc == 0 then Some(N)
    else if dr == 2 && dc == 0 then Some(S)
    else if dr == 0 && dc == -2 then Some(W)
    else if dr == 0 && dc == 2 then Some(E)
    else None
  }

  /** `b` is one crossable move away from `a`. */
  ghost predicate Edge(g: Grid, a: Pos, b: Pos) {
    MoveOf(a, b).Some? && Crossable(g)(a, MoveOf(a, b).value)
  }

  /** The mutable state of the search: the maze, the cell table, the open heap
      and the closed table (a set standing for the boolean grid). */
  datatype State = State(maze: Grid, recs: Table, heap: seq<Entry>, closed: set<Pos>)

  /** The grid `solve` searches, after stamping START and EXIT. */
  ghost predicate Setup(g0: Grid, start: Pos, end: Pos) {
    && |g0| >= 1 && IsRect(g0, |g0|, |g0[0]|)
    && InBounds(g0, start) && InBounds(g0, end)
    && IsLogical(start) && IsLogical(end) && start != end
    && At(g0, start) == START && At(g0, end) == EXIT
  }

  /** The search only ever writes PATH, never onto the start or the end, and
      never onto a WALL cell between logical cells. */
  ghost predicate Painted(g0: Grid, g: Grid, start: Pos, end: Pos) {
    && SameShape(g0, g)
    && forall q :: InBounds(g0, q) ==>
         || At(g, q) == At(g0, q)
         || (At(g, q) == PATH && q != start && q != end && (IsLogical(q) || At(g0, q) != WALL))
  }

  ghost predicate Shaped(g0: Grid, s: State) {
    SameShape(g0, s.maze) && SameShape(g0, s.recs)
  }

  /** Every entry on the heap names a logical, in-bounds, non-WALL cell other
      than the end, whose record has finite costs; closed cells are not WALL either. */
  ghost predicate HeapOk(g0: Grid, end: Pos, s: State) {
    && Shaped(g0, s)
    && (forall x :: x in s.closed ==> InBounds(g0, x) && At(s.maze, x) != WALL)
    && forall i :: 0 <= i < |s.heap| ==>
         && InBounds(g0, Cell(s.heap[i])) && IsLogical(Cell(s.heap[i])) && Cell(s.heap[i]) != end
         && At(s.maze, Cell(s.heap[i])) != WALL && At(s.recs, Cell(s.heap[i])).f.Fin?
  }

  /** A record with a finite f belongs to a logical cell that is closed or on
      the heap; its parent is the start for the start, and otherwise a closed
      cell one crossable move away. */
  ghost predicate RecsOk(g0: Grid, start: Pos, s: State) {
    && Shaped(g0, s)
    && InBounds(g0, start)
    && At(s.recs, start).f.Fin? && At(s.recs, start).parent == start
    && forall c :: InBounds(g0, c) && At(s.recs, c).f.Fin? ==>
         && At(s.recs, c).g.Fin? && IsLogical(c)
         && (c in s.closed || c in HeapCells(s.heap))
         && (c != start ==> At(s.recs, c).parent in s.closed && Edge(g0, At(s.recs, c).parent, c))
  }

  /** Closed cells are in bounds with finite records; the end is never closed;
      `rank` numbers the closed cells in the order they were first closed, each
      after its parent; and the start is the first cell closed. */
  ghost predicate ClosedOk(g0: Grid, start: Pos, end: Pos, s: State, rank: map<Pos, nat>, t: nat) {
    && Shaped(g0, s)
    && end !in s.closed
    && rank.Keys == s.closed
    && (s.closed != {} ==> start in s.closed)
    && (s.closed == {} ==> forall i :: 0 <= i < |s.heap| ==> Cell(s.heap[i]) == start)
    && forall c :: c in s.closed ==>
         && InBounds(g0, c) && At(s.recs, c).f.Fin? && rank[c] < t
         && (c != start ==> At(s.recs, c).parent in rank && rank[At(s.recs, c).parent] < rank[c])
  }

  /** Every crossable move out of a closed cell, except the moves of `c` not in
      `done`, lands on a closed cell or one with a finite record. */
  ghost predicate ExpandedBut(g0: Grid, s: State, c: Pos, done: set<Dir>) {
    && Shaped(g0, s)
    && forall x, d :: x in s.closed && (x != c || d in done) && Crossable(g0)(x, d) ==>
         Step(x, d, 2) in s.closed || At(s.recs, Step(x, d, 2)).f.Fin?
  }

  /** The loop invariant of `solve` between two pops. */
  ghost predicate Inv(g0: Grid, start: Pos, end: Pos, s: State, rank: map<Pos, nat>, t: nat) {
    && Setup(g0, start, end)
    && Painted(g0, s.maze, start, end)
    && HeapOk(g0, end, s)
    && RecsOk(g0, start, s)
    && ClosedOk(g0, start, end, s, rank, t)
  }

  // ---------------------------------------------------------------------------
  // Termination: each push makes a record finite or lowers its f.

  function InfWeight(r: int, c: int, x: Rec): nat {
    if x.f.Inf? then 1 else 0
  }

  function FinWeight(r: int, c: int, x: Rec): nat {
    if x.f.Fin? then x.f.v else 0
  }

  function InfCount(recs: Table): nat {
    GridSum(recs, InfWeight)
  }

  function FinSum(recs: Table): nat {
    GridSum(recs, FinWeight)
  }

  /** `a` is strictly closer to having every record finite and minimal. */
  predicate Lower(a: Table, b: Table) {
    InfCount(a) < InfCount(b) || (InfCount(a) == InfCount(b) && FinSum(a) < FinSum(b))
  }

  /** Two steps that each keep the table or lower it keep it or lower it. */
  lemma LowerChain(s0: State, s1: State, s2: State)
    requires (s1.recs == s0.recs && s1.heap == s0.heap) || Lower(s1.recs, s0.recs)
    requires (s2.recs == s1.recs && s2.heap == s1.heap) || Lower(s2.recs, s1.recs)
    ensures (s2.recs == s0.recs && s2.heap == s0.heap) || Lower(s2.recs, s0.recs)
  {
  }

  /** Overwriting one record with a finite f that is new or strictly smaller lowers the table. */
  lemma Improve(recs: Table, p: Pos, x: Rec)
    requires InBounds(recs, p) && x.f.Fin?
    requires At(recs, p).f.Inf? || At(recs, p).f.v > x.f.v
    ensures Lower(Put(recs, p, x), recs)
  {
    GridSumUpdate(recs, p, x, InfWeight);
    GridSumUpdate(recs, p, x, FinWeight);
  }

  // ---------------------------------------------------------------------------
  // One neighbour of a popped cell.

  /** What `trace_path` relies on once the end has been reached: every closed
      cell other than the start has a closed parent of lower rank one crossable
      move away, the start is its own parent, and so is the end's parent. */
  ghost predicate Ready(g0: Grid, start: Pos, end: Pos, s: State, rank: map<Pos, nat>) {
    && Setup(g0, start, end) && Shaped(g0, s) && Painted(g0, s.maze, start, end)
    && start in s.closed && end !in s.closed && rank.Keys == s.closed
    && At(s.recs, start).parent == start
    && At(s.recs, end).parent in s.closed && Edge(g0, At(s.recs, end).parent, end)
    && forall x :: x in s.closed ==>
         && InBounds(g0, x) && IsLogical(x)
         && (x != start ==> && At(s.recs, x).parent in s.closed
                            && rank[At(s.recs, x).parent] < rank[x]
                            && Edge(g0, At(s.recs, x).parent, x))
  }

  /** Writing PATH onto a cell the search may paint keeps the grid painted. */
  lemma PaintPath(g0: Grid, g: Grid, start: Pos, end: Pos, q: Pos)
    requires Painted(g0, g, start, end) && InBounds(g0, q)
    requires q != start && q != end && (IsLogical(q) || At(g0, q) != WALL)
    ensures Painted(g0, Put(g, q, PATH), start, end)
  {
  }

  /** The cell crossed by a move lies between two in-bounds cells of a rectangle. */
  lemma MidInBounds(g: Grid, c: Pos, d: Dir)
    requires |g| >= 1 && IsRect(g, |g|, |g[0]|)
    requires InBounds(g, c) && InBounds(g, Step(c, d, 2))
    ensures InBounds(g, Step(c, d, 1))
    ensures Step(Step(c, d, 2), Opposite(d), 1) == Step(c, d, 1)
    ensures Step(Step(c, d, 2), Opposite(d), 2) == c
  {
  }

  /** Repainting cells with non-WALL codes keeps the invariant. */
  lemma Repaint(g0: Grid, start: Pos, end: Pos, s: State, maze: Grid, rank: map<Pos, nat>, t: nat, c: Pos, done: set<Dir>)
    requires Inv(g0, start, end, s, rank, t) && ExpandedBut(g0, s, c, done)
    requires Painted(g0, maze, start, end)
    requires forall q :: InBounds(g0, q) && At(s.maze, q) != WALL ==> At(maze, q) != WALL
    ensures Inv(g0, start, end, s.(maze := maze), rank, t) && ExpandedBut(g0, s.(maze := maze), c, done)
  {
    var s' := s.(maze := maze);
    forall i | 0 <= i < |s'.heap|
      ensures At(s'.maze, Cell(s'.heap[i])) != WALL
    {
      assert InBounds(g0, Cell(s.heap[i]));
    }
    forall x | x in s'.closed
      ensures At(s'.maze, x) != WALL
    {
      assert InBounds(g0, x);
    }
  }

  /** When the move is crossable and leads to an open cell, the source's test passes. */
  lemma GuardHolds(g0: Grid, start: Pos, end: Pos, s: State, rank: map<Pos, nat>, t: nat, c: Pos, d: Dir)
    requires Inv(g0, start, end, s, rank, t) && c in s.closed && At(s.maze, c) != WALL
    requires Crossable(g0)(c, d)
    ensures IsValid(Step(c, d, 2).row, Step(c, d, 2).col, (|s.maze|, |s.maze[0]|))
    ensures InBounds(s.maze, Step(c, d, 1)) && InBounds(s.maze, Step(c, d, 2))
    ensures (MidInBounds(s.maze, c, d); IsUnblocked(s.maze, Step(c, d, 2), d))
  {
    MidInBounds(s.maze, c, d);
    assert InBounds(g0, Step(c, d, 1));
    assert InBounds(g0, c);
  }

  /** The crossed cell of a move that passed `is_unblocked` is not WALL in `g0` either. */
  lemma UnblockedCrossable(g0: Grid, g: Grid, start: Pos, end: Pos, c: Pos, d: Dir)
    requires Painted(g0, g, start, end) && InBounds(g0, c) && IsLogical(c)
    requires InBounds(g, Step(c, d, 2)) && InBounds(g, Step(c, d, 1))
    requires At(g, Step(c, d, 1)) != WALL
    ensures Crossable(g0)(c, d) && Edge(g0, c, Step(c, d, 2)) && IsLogical(Step(c, d, 2))
  {
    MoveParity(c, d);
    var m := Step(c, d, 1);
    assert InBounds(g0, m);
    assert At(g, m) == At(g0, m) || At(g0, m) != WALL;
    assert MoveOf(c, Step(c, d, 2)) == Some(d);
  }

  lemma HeapCellsPush(heap: seq<Entry>, e: Entry)
    ensures HeapCells(heap + [e]) == HeapCells(heap) + {Cell(e)}
  {
    var h' := heap + [e];
    assert h'[|heap|] == e;
    forall q | q in HeapCells(heap)
      ensures q in HeapCells(h')
    {
      var i :| 0 <= i < |heap| && Cell(heap[i]) == q;
      assert Cell(h'[i]) == q;
    }
  }

  lemma PushHeapOk(g0: Grid, end: Pos, s: State, x: Rec, e: Entry)
    requires HeapOk(g0, end, s)
    requires InBounds(g0, Cell(e)) && IsLogical(Cell(e)) && Cell(e) != end && At(s.maze, Cell(e)) != WALL && x.f.Fin?
    ensures HeapOk(g0, end, s.(recs := Put(s.recs, Cell(e), x), heap := s.heap + [e]))
  {
    var s' := s.(recs := Put(s.recs, Cell(e), x), heap := s.heap + [e]);
    forall i | 0 <= i < |s'.heap|
      ensures At(s'.recs, Cell(s'.heap[i])).f.Fin?
    {
      if i < |s.heap| {
        assert s'.heap[i] == s.heap[i];
      }
    }
  }

  lemma PushRecsOk(g0: Grid, start: Pos, s: State, c: Pos, x: Rec, e: Entry)
    requires RecsOk(g0, start, s)
    requires InBounds(g0, Cell(e)) && IsLogical(Cell(e)) && Cell(e) != start
    requires x.parent == c && c in s.closed && Edge(g0, c, Cell(e)) && x.f.Fin? && x.g.Fin?
    ensures RecsOk(g0, start, s.(recs := Put(s.recs, Cell(e), x), heap := s.heap + [e]))
  {
    HeapCellsPush(s.heap, e);
  }

  lemma PushClosedOk(g0: Grid, start: Pos, end: Pos, s: State, rank: map<Pos, nat>, t: nat, x: Rec, e: Entry)
    requires ClosedOk(g0, start, end, s, rank, t)
    requires InBounds(g0, Cell(e)) && Cell(e) !in s.closed && s.closed != {}
    ensures ClosedOk(g0, start, end, s.(recs := Put(s.recs, Cell(e), x), heap := s.heap + [e]), rank, t)
  {
  }

  lemma PushExpanded(g0: Grid, s: State, c: Pos, d: Dir, done: set<Dir>, x: Rec, e: Entry)
    requires ExpandedBut(g0, s, c, done)
    requires InBounds(g0, Cell(e)) && Cell(e) == Step(c, d, 2) && x.f.Fin?
    requires At(s.recs, Cell(e)).f.Fin? ==> x.f.Fin?
    ensures ExpandedBut(g0, s.(recs := Put(s.recs, Cell(e), x), heap := s.heap + [e]), c, done + {d})
  {
  }

  /** Recording a better route to `next` through the closed cell `c` and pushing it. */
  lemma PushKeeps(g0: Grid, start: Pos, end: Pos, s: State, rank: map<Pos, nat>, t: nat, c: Pos, d: Dir,
                  done: set<Dir>, x: Rec, e: Entry)
    requires Inv(g0, start, end, s, rank, t) && ExpandedBut(g0, s, c, done)
    requires c in s.closed && Edge(g0, c, Step(c, d, 2))
    requires Cell(e) == Step(c, d, 2) && Cell(e) !in s.closed && Cell(e) != end && Cell(e) != start
    requires InBounds(g0, Cell(e)) && IsLogical(Cell(e)) && At(s.maze, Cell(e)) != WALL
    requires x.parent == c && x.f.Fin? && x.g.Fin?
    ensures var s' := s.(recs := Put(s.recs, Cell(e), x), heap := s.heap + [e]);
            Inv(g0, start, end, s', rank, t) && ExpandedBut(g0, s', c, done + {d})
  {
    PushHeapOk(g0, end, s, x, e);
    PushRecsOk(g0, start, s, c, x, e);
    PushClosedOk(g0, start, end, s, rank, t, x, e);
    PushExpanded(g0, s, c, d, done, x, e);
  }

  /** Setting the end's parent to the closed cell `c` leaves everything ready for `trace_path`. */
  lemma FoundReady(g0: Grid, start: Pos, end: Pos, s: State, rank: map<Pos, nat>, t: nat, c: Pos, d: Dir)
    requires Inv(g0, start, end, s, rank, t) && c in s.closed
    requires Step(c, d, 2) == end && Edge(g0, c, end)
    ensures Ready(g0, start, end, s.(recs := Put(s.recs, end, At(s.recs, end).(parent := c))), rank)
  {
    var s' := s.(recs := Put(s.recs, end, At(s.recs, end).(parent := c)));
    forall x | x in s'.closed
      ensures InBounds(g0, x) && IsLogical(x)
      ensures x != start ==> && At(s'.recs, x).parent in s'.closed
                             && rank[At(s'.recs, x).parent] < rank[x]
                             && Edge(g0, At(s'.recs, x).parent, x)
    {
      assert At(s'.recs, x) == At(s.recs, x);
    }
  }

  /** One iteration of `for vis in direc` for the popped cell `c`. */
  method Relax(g0: Grid, start: Pos, end: Pos, heur: Pos -> nat, s: State, c: Pos, d: Dir,
               ghost rank: map<Pos, nat>, ghost t: nat, ghost done: set<Dir>)
    returns (s': State, found: bool)
    requires Inv(g0, start, end, s, rank, t)
    requires c in s.closed && At(s.maze, c) != WALL
    requires ExpandedBut(g0, s, c, done)
    ensures s'.closed == s.closed
    ensures !found ==> Inv(g0, start, end, s', rank, t) && ExpandedBut(g0, s', c, done + {d})
    ensures !found ==> || (s'.recs == s.recs && s'.heap == s.heap)
                       || (Lower(s'.recs, s.recs) && |s'.heap| == |s.heap| + 1)
    ensures found ==> Step(c, d, 2) == end && Ready(g0, start, end, s', rank)
  {
    var height, width := |s.maze|, |s.maze[0]|;
    var next := Step(c, d, 2);
    assert InBounds(s.maze, c) by {
      assert InBounds(g0, c);
    }
    if IsValid(next.row, next.col, (height, width)) && (MidInBounds(s.maze, c, d); IsUnblocked(s.maze, next, d)) && next !in s.closed {
      s', found := Open(g0, start, end, heur, s, c, d, rank, t, done);
    } else {
      s', found := s, false;
      Skip(g0, start, end, s, rank, t, c, d, done);
    }
  }

  /** A neighbour that fails the test of `solve` is closed or out of reach,
      so skipping it leaves the popped cell expanded in direction `d` too. */
  lemma Skip(g0: Grid, start: Pos, end: Pos, s: State, rank: map<Pos, nat>, t: nat, c: Pos, d: Dir, done: set<Dir>)
    requires Inv(g0, start, end, s, rank, t) && c in s.closed && At(s.maze, c) != WALL
    requires ExpandedBut(g0, s, c, done)
    requires InBounds(s.maze, c)
    requires var next := Step(c, d, 2);
             !(&& IsValid(next.row, next.col, (|s.maze|, |s.maze[0]|))
               && (MidInBounds(s.maze, c, d); IsUnblocked(s.maze, next, d))
               && next !in s.closed)
    ensures ExpandedBut(g0, s, c, done + {d})
  {
    if Crossable(g0)(c, d) {
      GuardHolds(g0, start, end, s, rank, t, c, d);
    }
  }

  /** The body of the test in `solve` once a neighbour has passed it: paint,
      then either stop at the end or relax the neighbour. */
  method Open(g0: Grid, start: Pos, end: Pos, heur: Pos -> nat, s: State, c: Pos, d: Dir,
              ghost rank: map<Pos, nat>, ghost t: nat, ghost done: set<Dir>)
    returns (s': State, found: bool)
    requires Inv(g0, start, end, s, rank, t)
    requires c in s.closed && At(s.maze, c) != WALL
    requires ExpandedBut(g0, s, c, done)
    requires InBounds(s.maze, Step(c, d, 2)) && InBounds(s.maze, Step(c, d, 1))
    requires At(s.maze, Step(c, d, 1)) != WALL && Step(c, d, 2) !in s.closed
    ensures s'.closed == s.closed
    ensures !found ==> Inv(g0, start, end, s', rank, t) && ExpandedBut(g0, s', c, done + {d})
    ensures !found ==> || (s'.recs == s.recs && s'.heap == s.heap)
                       || (Lower(s'.recs, s.recs) && |s'.heap| == |s.heap| + 1)
    ensures found ==> Step(c, d, 2) == end && Ready(g0, start, end, s', rank)
  {
    var next := Step(c, d, 2);
    var mid := Step(c, d, 1);
    assert InBounds(g0, c) && start in s.closed;
    UnblockedCrossable(g0, s.maze, start, end, c, d);
    MoveParity(c, d);
    assert IsLogical(start) && IsLogical(end) && !IsLogical(mid);
    assert mid != start && mid != end && next != start;
    assert At(g0, mid) != WALL && InBounds(g0, end) && At(g0, end) == EXIT;
    var maze := Paint(g0, start, end, s.maze, mid, next);
    Repaint(g0, start, end, s, maze, rank, t, c, done);
    var s1 := s.(maze := maze);
    if next == end {
      FoundReady(g0, start, end, s1, rank, t, c, d);
      var recs := Put(s.recs, next, At(s.recs, next).(parent := c));
      s', found := State(maze, recs, s.heap, s.closed), true;
      return;
    }
    found := false;
    s' := Update(g0, start, end, heur, s1, c, d, rank, t, done);
  }

  /** The relaxation of a neighbour that is not the end: a new or strictly
      smaller f is recorded with `c` as parent and pushed; otherwise nothing changes. */
  method Update(g0: Grid, start: Pos, end: Pos, heur: Pos -> nat, s: State, c: Pos, d: Dir,
                ghost rank: map<Pos, nat>, ghost t: nat, ghost done: set<Dir>)
    returns (s': State)
    requires Inv(g0, start, end, s, rank, t) && ExpandedBut(g0, s, c, done) && c in s.closed
    requires Edge(g0, c, Step(c, d, 2)) && InBounds(g0, Step(c, d, 2)) && IsLogical(Step(c, d, 2))
    requires Step(c, d, 2) !in s.closed && Step(c, d, 2) != end && Step(c, d, 2) != start
    requires At(s.maze, Step(c, d, 2)) != WALL
    ensures s'.closed == s.closed && s'.maze == s.maze
    ensures Inv(g0, start, end, s', rank, t) && ExpandedBut(g0, s', c, done + {d})
    ensures || (s'.recs == s.recs && s'.heap == s.heap)
            || (Lower(s'.recs, s.recs) && |s'.heap| == |s.heap| + 1)
  {
    var next := Step(c, d, 2);
    assert InBounds(g0, c);
    var gNew := At(s.recs, c).g.v + 1;
    var fNew := gNew + heur(next);
    var rec := At(s.recs, next);
    if rec.f.Inf? || rec.f.v > fNew {
      var x := Rec(c, Fin(fNew), Fin(gNew), heur(next));
      var e := Entry(fNew, next.row, next.col);
      Improve(s.recs, next, x);
      PushKeeps(g0, start, end, s, rank, t, c, d, done, x, e);
      s' := s.(recs := Put(s.recs, next, x), heap := s.heap + [e]);
    } else {
      s' := s;
    }
  }

  /** The two writes of an accepted move: PATH on the crossed cell, and PATH on
      the cell moved to unless it holds EXIT. */
  function Paint(g0: Grid, start: Pos, end: Pos, g: Grid, mid: Pos, next: Pos): (r: Grid)
    requires Painted(g0, g, start, end) && InBounds(g0, mid) && InBounds(g0, next)
    requires mid != start && mid != end && At(g0, mid) != WALL && InBounds(g0, end) && At(g0, end) == EXIT
    requires next != start && IsLogical(next)
    ensures Painted(g0, r, start, end)
    ensures At(r, mid) == PATH && At(r, next) != WALL
    ensures forall q :: InBounds(g0, q) && At(g, q) != WALL ==> At(r, q) != WALL
  {
    var g1 := Put(g, mid, PATH);
    PaintPath(g0, g, start, end, mid);
    if At(g1, next) != EXIT then
      PaintPath(g0, g1, start, end, next);
      Put(g1, next, PATH)
    else g1
  }

  // ---------------------------------------------------------------------------
  // The loop of `solve`.

  const AllDirs: set<Dir> := {N, S, W, E}

  function Done(k: nat): set<Dir>
    requires k <= |Order|
  {
    set i | 0 <= i < k :: Order[i]
  }

  lemma DoneStep(k: nat)
    requires k < |Order|
    ensures Done(k + 1) == Done(k) + {Order[k]}
  {
  }

  lemma DoneAll()
    ensures Done(|Order|) == AllDirs
  {
    assert Order[0] == N && Order[1] == S && Order[2] == W && Order[3] == E;
  }

  /** Every crossable move out of a closed cell lands on a closed cell or one with a finite record. */
  ghost predicate Expanded(g0: Grid, s: State) {
    && Shaped(g0, s)
    && forall x, d :: x in s.closed && Crossable(g0)(x, d) ==>
         Step(x, d, 2) in s.closed || At(s.recs, Step(x, d, 2)).f.Fin?
  }

  lemma ExpandedAll(g0: Grid, s: State, c: Pos)
    requires ExpandedBut(g0, s, c, AllDirs)
    ensures Expanded(g0, s)
  {
    forall x, d | x in s.closed && Crossable(g0)(x, d)
      ensures Step(x, d, 2) in s.closed || At(s.recs, Step(x, d, 2)).f.Fin?
    {
      assert d in AllDirs by {
        OrderListsEveryDir(d);
      }
    }
  }

  /** The four neighbours of the popped cell `c`, north, south, west, east. */
  method Expand(g0: Grid, start: Pos, end: Pos, heur: Pos -> nat, s: State, c: Pos,
                ghost rank: map<Pos, nat>, ghost t: nat)
    returns (s': State, found: bool)
    requires Inv(g0, start, end, s, rank, t) && c in s.closed && ExpandedBut(g0, s, c, {})
    ensures s'.closed == s.closed
    ensures !found ==> Inv(g0, start, end, s', rank, t) && Expanded(g0, s')
    ensures !found ==> (s'.recs == s.recs && s'.heap == s.heap) || Lower(s'.recs, s.recs)
    ensures found ==> Ready(g0, start, end, s', rank)
  {
    s', found := s, false;
    var k := 0;
    while k < |Order|
      invariant 0 <= k <= |Order|
      invariant s'.closed == s.closed
      invariant Inv(g0, start, end, s', rank, t) && ExpandedBut(g0, s', c, Done(k))
      invariant (s'.recs == s.recs && s'.heap == s.heap) || Lower(s'.recs, s.recs)
    {
      DoneStep(k);
      ghost var before := s';
      s', found := Relax(g0, start, end, heur, s', c, Order[k], rank, t, Done(k));
      if found {
        return;
      }
      LowerChain(s, before, s');
      k := k + 1;
    }
    DoneAll();
    ExpandedAll(g0, s', c);
  }

  lemma HeapCellsRemove(heap: seq<Entry>, k: nat)
    requires k < |heap|
    ensures HeapCells(heap) <= HeapCells(heap[..k] + heap[k + 1..]) + {Cell(heap[k])}
    ensures HeapCells(heap[..k] + heap[k + 1..]) <= HeapCells(heap)
  {
    var rest := heap[..k] + heap[k + 1..];
    forall q | q in HeapCells(heap)
      ensures q in HeapCells(rest) + {Cell(heap[k])}
    {
      var i :| 0 <= i < |heap| && Cell(heap[i]) == q;
      if i < k {
        assert rest[i] == heap[i];
      } else if i > k {
        assert rest[i - 1] == heap[i];
      }
    }
    forall q | q in HeapCells(rest)
      ensures q in HeapCells(heap)
    {
      var i :| 0 <= i < |rest| && Cell(rest[i]) == q;
      if i < k {
        assert rest[i] == heap[i];
      } else {
        assert rest[i] == heap[i + 1];
      }
    }
  }

  function PopState(s: State, k: nat): State
    requires k < |s.heap|
  {
    State(s.maze, s.recs, s.heap[..k] + s.heap[k + 1..], s.closed + {Cell(s.heap[k])})
  }

  lemma PopHeapOk(g0: Grid, end: Pos, s: State, k: nat)
    requires HeapOk(g0, end, s) && k < |s.heap|
    ensures HeapOk(g0, end, PopState(s, k))
  {
    var s' := PopState(s, k);
    forall i | 0 <= i < |s'.heap|
      ensures s'.heap[i] == s.heap[if i < k then i else i + 1]
    {
    }
  }

  lemma PopRecsOk(g0: Grid, start: Pos, s: State, k: nat)
    requires RecsOk(g0, start, s) && k < |s.heap|
    ensures RecsOk(g0, start, PopState(s, k))
  {
    HeapCellsRemove(s.heap, k);
  }

  lemma PopClosedOk(g0: Grid, start: Pos, end: Pos, s: State, rank: map<Pos, nat>, t: nat, k: nat)
    requires ClosedOk(g0, start, end, s, rank, t) && k < |s.heap|
    requires var c := Cell(s.heap[k]);
             && InBounds(g0, c) && c != end && At(s.recs, c).f.Fin?
             && (c != start ==> At(s.recs, c).parent in s.closed)
    ensures var c := Cell(s.heap[k]);
            ClosedOk(g0, start, end, PopState(s, k), if c in s.closed then rank else rank[c := t], t + 1)
  {
    var c := Cell(s.heap[k]);
    if c !in s.closed {
      var s', rank' := PopState(s, k), rank[c := t];
      forall x | x in s'.closed
        ensures && InBounds(g0, x) && At(s'.recs, x).f.Fin? && rank'[x] < t + 1
                && (x != start ==> At(s'.recs, x).parent in rank' && rank'[At(s'.recs, x).parent] < rank'[x])
      {
        if x != c {
          assert x in s.closed;
        }
      }
    }
  }

  /** Popping entry `k` and closing its cell keeps the invariant; only the
      popped cell is left to expand. */
  lemma PopKeeps(g0: Grid, start: Pos, end: Pos, s: State, rank: map<Pos, nat>, t: nat, k: nat)
    requires Inv(g0, start, end, s, rank, t) && Expanded(g0, s) && k < |s.heap|
    ensures var c := Cell(s.heap[k]);
            && Inv(g0, start, end, PopState(s, k), if c in s.closed then rank else rank[c := t], t + 1)
            && ExpandedBut(g0, PopState(s, k), c, {})
  {
    PopHeapOk(g0, end, s, k);
    PopRecsOk(g0, start, s, k);
    assert InBounds(g0, Cell(s.heap[k])) && At(s.recs, Cell(s.heap[k])).f.Fin?;
    PopClosedOk(g0, start, end, s, rank, t, k);
  }

  /** When the heap runs dry, the closed cells are closed under crossable moves,
      contain the start and miss the end: no walk reaches the end. */
  lemma Exhausted(g0: Grid, start: Pos, end: Pos, s: State, rank: map<Pos, nat>, t: nat)
    requires Inv(g0, start, end, s, rank, t) && Expanded(g0, s) && s.heap == []
    ensures forall ds :: Allowed(start, ds, 2, Crossable(g0)) ==> Dest(start, ds, 2) != end
  {
    assert HeapCells(s.heap) == {};
    assert start in s.closed;
    assert Closed(s.closed, 2, Crossable(g0)) by {
      forall x, d | x in s.closed && Crossable(g0)(x, d)
        ensures Step(x, d, 2) in s.closed
      {
      }
    }
    forall ds | Allowed(start, ds, 2, Crossable(g0))
      ensures Dest(start, ds, 2) != end
    {
      WalkStaysInside(s.closed, start, ds, 2, Crossable(g0));
    }
  }

  /** The search of `solve` from the heap holding only the start. It stops
      either at the first accepted move onto the end, ready for `trace_path`,
      or when the heap is empty, in which case no crossable walk reaches the end. */
  method Search(g0: Grid, start: Pos, end: Pos, heur: Pos -> nat)
    returns (s: State, found: bool, ghost rank: map<Pos, nat>)
    requires Setup(g0, start, end)
    ensures Painted(g0, s.maze, start, end)
    ensures found ==> Ready(g0, start, end, s, rank)
    ensures !found ==> forall ds :: Allowed(start, ds, 2, Crossable(g0)) ==> Dest(start, ds, 2) != end
  {
    var height, width := |g0|, |g0[0]|;
    var recs := Put(Filled(height, width, Blank), start, Rec(start, Fin(0), Fin(0), 0));
    s := State(g0, recs, [Entry(0, start.row, start.col)], {});
    rank := map[];
    ghost var t := 0;
    found := false;
    Start(g0, start, end, s);
    while s.heap != []
      invariant Inv(g0, start, end, s, rank, t) && Expanded(g0, s)
      decreases InfCount(s.recs), FinSum(s.recs), |s.heap|
    {
      var k := MinIndex(s.heap);
      var c := Cell(s.heap[k]);
      PopKeeps(g0, start, end, s, rank, t, k);
      rank := if c in s.closed then rank else rank[c := t];
      t := t + 1;
      s := PopState(s, k);
      s, found := Expand(g0, start, end, heur, s, c, rank, t);
      if found {
        return;
      }
    }
    Exhausted(g0, start, end, s, rank, t);
  }

  /** The state before the first pop satisfies the invariant. */
  lemma Start(g0: Grid, start: Pos, end: Pos, s: State)
    requires Setup(g0, start, end)
    requires s == State(g0, Put(Filled(|g0|, |g0[0]|, Blank), start, Rec(start, Fin(0), Fin(0), 0)),
                        [Entry(0, start.row, start.col)], {})
    ensures Inv(g0, start, end, s, map[], 0) && Expanded(g0, s)
  {
    assert HeapCells(s.heap) == {start} by {
      assert Cell(s.heap[0]) == start;
    }
    forall c | InBounds(g0, c) && At(s.recs, c).f.Fin?
      ensures c == start
    {
    }
  }
}

=== FILE: braid.dfy ===
/**
 The two passes of imperfect mode in `maze_gen` (mazegen/__init__.py): the
 braid pass, which opens a random extra door next to some rooms, and the
 cleanup pass, which removes WALL cells boxed in by four EMPTY cells.
 */
module Braiding {
  import opened Grids
  import opened Walks

  /** The cell `q` sits between two EMPTY cells: left and right of it on an
      odd row, above and below it on an even row. */
  predicate Bridges(g: Grid, q: Pos) {
    if q.row % 2 == 1 then
      && InBounds(g, Pos(q.row, q.col - 1)) && InBounds(g, Pos(q.row, q.col + 1))
      && At(g, Pos(q.row, q.col - 1)) == EMPTY && At(g, Pos(q.row, q.col + 1)) == EMPTY
    else
      && InBounds(g, Pos(q.row - 1, q.col)) && InBounds(g, Pos(q.row + 1, q.col))
      && At(g, Pos(q.row - 1, q.col)) == EMPTY && At(g, Pos(q.row + 1, q.col)) == EMPTY
  }

  /** What the braid pass may do to `g`: write EMPTY onto interior cells off
      the logical cells that bridge two EMPTY cells of `g`. */
  ghost predicate Braided(g: Grid, g': Grid) {
    && SameShape(g, g')
    && forall q :: InBounds(g, q) ==>
         At(g', q) == At(g, q) || (At(g', q) == EMPTY && !IsLogical(q) && Interior(g, q) && Bridges(g, q))
  }

  /** Opening the door from an EMPTY room in the braid range towards an EMPTY
      cell two steps away is a braid. */
  lemma BraidStep(g: Grid, g': Grid, c: Pos, d: Dir)
    requires |g| >= 1 && IsRect(g, |g|, |g[0]|) && Braided(g, g')
    requires IsLogical(c) && 1 < c.row < |g| - 2 && 1 < c.col < |g[0]| - 2
    requires At(g, c) == EMPTY && At(g', Step(c, d, 2)) == EMPTY
    ensures InBounds(g', Step(c, d, 1))
    ensures Braided(g, Put(g', Step(c, d, 1), EMPTY))
  {
    var t, m := Step(c, d, 2), Step(c, d, 1);
    assert IsLogical(t) && !IsLogical(m);
    assert At(g, t) == EMPTY;
  }

  /** The braid pass: for each EMPTY room strictly inside rows and columns 1
      and the far edge less two, a draw below 16 out of 101 picks a direction
      and a second draw opens its door when the cell two steps away is EMPTY.
      It only ever opens. */
  method Braid(g: Grid, draws: nat -> nat, k0: nat) returns (g': Grid, k: nat)
    requires |g| >= 1 && IsRect(g, |g|, |g[0]|)
    ensures Braided(g, g')
    ensures forall q :: InBounds(g, q) && At(g, q) != WALL ==> At(g', q) != WALL
    ensures forall q :: InBounds(g, q) && IsLogical(q) ==> At(g', q) == At(g, q)
    ensures k >= k0
  {
    g', k := g, k0;
    var i := 1;
    while i < |g|
      invariant i % 2 == 1
      invariant Braided(g, g') && k >= k0
    {
      var j := 1;
      while j < |g[i]|
        invariant j % 2 == 1
        invariant Braided(g, g') && k >= k0
      {
        var c := Pos(i, j);
        if At(g', c) == EMPTY {
          if |g| - 2 > i > 1 && 1 < j < |g[0]| - 2 && draws(k) % 101 <= 15 {
            var d := Order[draws(k + 1) % 4];
            k := k + 2;
            var t := Step(c, d, 2);
            if At(g', t) == EMPTY {
              assert At(g, c) == EMPTY;
              BraidStep(g, g', c, d);
              g' := Put(g', Step(c, d, 1), EMPTY);
            }
          } else if |g| - 2 > i > 1 && 1 < j < |g[0]| - 2 {
            k := k + 1;
          }
        }
        j := j + 2;
      }
      i := i + 2;
    }
  }

  /** The four orthogonal neighbours of `q` are in the grid and EMPTY. */
  predicate Boxed(g: Grid, q: Pos) {
    && InBounds(g, Pos(q.row - 1, q.col)) && At(g, Pos(q.row - 1, q.col)) == EMPTY
    && InBounds(g, Pos(q.row + 1, q.col)) && At(g, Pos(q.row + 1, q.col)) == EMPTY
    && InBounds(g, Pos(q.row, q.col - 1)) && At(g, Pos(q.row, q.col - 1)) == EMPTY
    && InBounds(g, Pos(q.row, q.col + 1)) && At(g, Pos(q.row, q.col + 1)) == EMPTY
  }

  /** The cleanup range: strictly between rows 1 and the far edge less two,
      and the same for columns. */
  predicate InRange(g: Grid, q: Pos)
    requires |g| >= 1
  {
    1 < q.row < |g| - 2 && 1 < q.col < |g[0]| - 2
  }

  /** What the cleanup may do: turn WALL cells in range that end up boxed in into EMPTY. */
  ghost predicate Cleaned(g: Grid, g': Grid) {
    && |g| >= 1 && SameShape(g, g')
    && forall q :: InBounds(g, q) ==>
         At(g', q) == At(g, q) || (At(g, q) == WALL && At(g', q) == EMPTY && InRange(g, q) && Boxed(g', q))
  }

  /** Cells before (`i`, `j`) in row-major order. */
  predicate Before(q: Pos, i: int, j: int) {
    q.row < i || (q.row == i && q.col < j)
  }

  /** Every WALL cell in range boxed in by `g` and already visited is EMPTY in `g'`. */
  ghost predicate Swept(g: Grid, g': Grid, i: int, j: int) {
    && |g| >= 1 && SameShape(g, g')
    && forall q :: InBounds(g, q) && Before(q, i, j) && InRange(g, q) && At(g, q) == WALL && Boxed(g, q) ==>
         At(g', q) == EMPTY
  }

  /** Opening a boxed-in WALL cell keeps the cleanup invariant. */
  lemma CleanStep(g: Grid, g': Grid, q: Pos, i: int, j: int)
    requires |g| >= 1 && IsRect(g, |g|, |g[0]|) && Cleaned(g, g') && Swept(g, g', i, j)
    requires InBounds(g, q) && InRange(g, q) && At(g', q) == WALL && Boxed(g', q)
    ensures Cleaned(g, Put(g', q, EMPTY)) && Swept(g, Put(g', q, EMPTY), i, j)
  {
    var g2 := Put(g', q, EMPTY);
    forall p | InBounds(g, p) && At(g2, p) != At(g, p)
      ensures At(g, p) == WALL && At(g2, p) == EMPTY && InRange(g, p) && Boxed(g2, p)
    {
      if p != q {
        assert Boxed(g', p);
      }
    }
  }

  /** A visited cell left alone keeps the sweep complete one cell further. */
  lemma SweepStep(g: Grid, g': Grid, q: Pos)
    requires |g| >= 1 && IsRect(g, |g|, |g[0]|) && Cleaned(g, g') && Swept(g, g', q.row, q.col)
    requires InBounds(g, q)
    requires InRange(g, q) && At(g', q) == WALL ==> !Boxed(g', q)
    ensures Swept(g, g', q.row, q.col + 1)
  {
    if InRange(g, q) && At(g, q) == WALL && Boxed(g, q) {
      assert Boxed(g', q);
    }
  }

  /** The cleanup pass, in row-major order over the live grid: a WALL cell in
      range whose four neighbours are EMPTY becomes EMPTY. A cell it opens has
      no WALL neighbour, so opening it boxes in no WALL cell visited later:
      the pass opens exactly the WALL cells in range boxed in by its input. */
  method Cleanup(g: Grid) returns (g': Grid)
    requires |g| >= 1 && IsRect(g, |g|, |g[0]|)
    ensures Cleaned(g, g')
    ensures forall q :: InBounds(g, q) && At(g', q) != At(g, q) ==> Boxed(g, q)
    ensures forall q :: InBounds(g, q) && InRange(g, q) && At(g, q) == WALL && Boxed(g, q) ==> At(g', q) == EMPTY
  {
    g' := g;
    var i := 0;
    while i < |g|
      invariant 0 <= i <= |g|
      invariant Cleaned(g, g') && Swept(g, g', i, 0)
      invariant forall q :: InBounds(g, q) && At(g', q) != At(g, q) ==> Boxed(g, q)
    {
      var j := 0;
      while j < |g[i]|
        invariant 0 <= j <= |g[i]|
        invariant Cleaned(g, g') && Swept(g, g', i, j)
        invariant forall q :: InBounds(g, q) && At(g', q) != At(g, q) ==> Boxed(g, q)
      {
        var q := Pos(i, j);
        if |g| - 2 > i > 1 && 1 < j < |g[0]| - 2 {
          if At(g', q) == WALL && At(g', Pos(i - 1, j)) == EMPTY && At(g', Pos(i + 1, j)) == EMPTY
             && At(g', Pos(i, j - 1)) == EMPTY && At(g', Pos(i, j + 1)) == EMPTY {
            CleanStep(g, g', q, i, j);
            assert Boxed(g, q) by { assert At(g, q) == WALL; }
            g' := Put(g', q, EMPTY);
          }
        }
        SweepStep(g, g', q);
        j := j + 1;
      }
      assert Swept(g, g', i + 1, 0);
      i := i + 1;
    }
  }
}

=== FILE: carve.dfy ===
/**
 The iterative backtracker of `maze_gen` (mazegen/__init__.py): from the
 start, break through to a random WALL logical cell two steps away, or step
 back along the stack of cells carved from. Random choices come from an
 oracle `draws`, one draw per choice.
 */
module Carver {
  import opened Results
  import opened Grids
  import opened Walks

  /** The carver's test for direction `d` at `c`: the cell two steps away is
      past index 0, before the far edge, and WALL. Only the coordinate that
      moves is bounds-checked. */
  predicate Carvable(g: Grid, c: Pos, d: Dir)
    requires |g| >= 1 && IsRect(g, |g|, |g[0]|) && InBounds(g, c)
  {
    var t := Step(c, d, 2);
    if d == N || d == S then 0 < t.row < |g| && At(g, Pos(t.row, c.col)) == WALL
    else 0 < t.col < |g[0]| && At(g, Pos(c.row, t.col)) == WALL
  }

  /** `[d]` when `d` is carvable at `c`, otherwise nothing. */
  function Keep(g: Grid, c: Pos, d: Dir): seq<Dir>
    requires |g| >= 1 && IsRect(g, |g|, |g[0]|) && InBounds(g, c)
  {
    if Carvable(g, c, d) then [d] else []
  }

  /** `valid_pos`: the carvable directions, each once, in scan order. */
  function Candidates(g: Grid, c: Pos): (r: seq<Dir>)
    requires |g| >= 1 && IsRect(g, |g|, |g[0]|) && InBounds(g, c)
    ensures forall d :: d in r <==> Carvable(g, c, d)
  {
    Keep(g, c, N) + Keep(g, c, S) + Keep(g, c, W) + Keep(g, c, E)
  }

  /** `random.choice`: the entry the draw selects. */
  function Choose(ds: seq<Dir>, draw: nat): (d: Dir)
    requires ds != []
    ensures d in ds
  {
    ds[draw % |ds|]
  }

  /** `break_wall`: two steps in direction `d`, each writing EMPTY, ending on
      the cell two steps away. */
  function BreakWall(g: Grid, c: Pos, d: Dir): (r: (Grid, Pos))
    requires InBounds(g, Step(c, d, 1)) && InBounds(g, Step(c, d, 2))
    ensures r.1 == Step(c, d, 2)
    ensures SameShape(g, r.0)
    ensures forall q :: InBounds(g, q) ==>
              At(r.0, q) == (if q == Step(c, d, 1) || q == Step(c, d, 2) then EMPTY else At(g, q))
  {
    var m := Step(c, d, 1);
    var g1 := Put(g, m, EMPTY);
    var t := Step(m, d, 1);
    (Put(g1, t, EMPTY), t)
  }

  // ---------------------------------------------------------------------------
  // Counting rooms (open logical cells), doors (open cells between them) and
  // WALL logical cells.

  function RoomWeight(r: int, c: int, x: int): nat {
    if r % 2 == 1 && c % 2 == 1 && x == EMPTY then 1 else 0
  }

  function DoorWeight(r: int, c: int, x: int): nat {
    if !(r % 2 == 1 && c % 2 == 1) && x == EMPTY then 1 else 0
  }

  function WallWeight(r: int, c: int, x: int): nat {
    if r % 2 == 1 && c % 2 == 1 && x == WALL then 1 else 0
  }

  function Rooms(g: Grid): nat {
    GridSum(g, RoomWeight)
  }

  function Doors(g: Grid): nat {
    GridSum(g, DoorWeight)
  }

  function Walls(g: Grid): nat {
    GridSum(g, WallWeight)
  }

  predicate Room(g: Grid, q: Pos) {
    InBounds(g, q) && IsLogical(q) && At(g, q) == EMPTY
  }

  function RoomSet(g: Grid): (s: set<Pos>)
    ensures forall q :: q in s <==> Room(g, q)
  {
    set r, c | 0 <= r < |g| && 0 <= c < |g[r]| && r % 2 == 1 && c % 2 == 1 && g[r][c] == EMPTY :: Pos(r, c)
  }

  // ---------------------------------------------------------------------------
  // The grid the carver starts from and what carving keeps.

  /** The grid `maze_gen` hands to the carve loop: odd sides of at least three
      cells, the start an EMPTY logical cell, every other cell WALL or a
      logical OBSTACLE. */
  ghost predicate Base(g0: Grid, start: Pos) {
    && |g0| >= 3 && |g0| % 2 == 1 && IsRect(g0, |g0|, |g0[0]|) && |g0[0]| >= 3 && |g0[0]| % 2 == 1
    && InBounds(g0, start) && IsLogical(start) && At(g0, start) == EMPTY
    && forall q :: InBounds(g0, q) && q != start ==> At(g0, q) == WALL || (At(g0, q) == OBSTACLE && IsLogical(q))
  }

  /** `g` differs from `g0` only by interior WALL cells turned EMPTY. */
  ghost predicate Opened(g0: Grid, g: Grid) {
    && SameShape(g0, g)
    && forall q :: InBounds(g0, q) ==>
         At(g, q) == At(g0, q) || (At(g0, q) == WALL && At(g, q) == EMPTY && Interior(g0, q))
  }

  /** Every open cell between two logical cells joins two open logical cells. */
  ghost predicate Joined(g: Grid) {
    forall c, d ::
      (&& IsLogical(c) && InBounds(g, c) && InBounds(g, Step(c, d, 1)) && InBounds(g, Step(c, d, 2))
       && At(g, Step(c, d, 1)) == EMPTY)
      ==> At(g, Step(c, d, 2)) == EMPTY
  }

  datatype Carving = Carving(maze: Grid, curr: Pos, prev: seq<Pos>)

  /** The carve loop's invariant: the maze is `g0` with some cells opened,
      doors only join rooms, the current cell and the stack are rooms, and
      there is one room more than doors. */
  ghost predicate Inv(g0: Grid, start: Pos, st: Carving) {
    && Base(g0, start)
    && Opened(g0, st.maze)
    && Joined(st.maze)
    && Room(st.maze, st.curr)
    && (forall i :: 0 <= i < |st.prev| ==> Room(st.maze, st.prev[i]))
    && Rooms(st.maze) == Doors(st.maze) + 1
  }

  /** Two logical cells that share the cell one step away are the same cell
      moving the same way, or the two ends of one two-step move. */
  lemma SharedMidpoint(c: Pos, d: Dir, c': Pos, d': Dir)
    requires IsLogical(c) && IsLogical(c') && Step(c', d', 1) == Step(c, d, 1)
    ensures (c' == c && d' == d) || (c' == Step(c, d, 2) && Step(c', d', 2) == c)
  {
  }

  /** Before the first step, the start is the only room and there are no doors. */
  lemma Initial(g0: Grid, start: Pos)
    requires Base(g0, start)
    ensures Inv(g0, start, Carving(g0, start, []))
  {
    var gz := Put(g0, start, WALL);
    forall q | InBounds(gz, q)
      ensures RoomWeight(q.row, q.col, At(gz, q)) == 0 && DoorWeight(q.row, q.col, At(gz, q)) == 0
    {
      assert InBounds(g0, q);
    }
    GridSumZero(gz, RoomWeight);
    GridSumZero(gz, DoorWeight);
    GridSumUpdate(g0, start, WALL, RoomWeight);
    GridSumUpdate(g0, start, WALL, DoorWeight);
    forall c, d | IsLogical(c) && InBounds(g0, c) && InBounds(g0, Step(c, d, 1))
      ensures At(g0, Step(c, d, 1)) != EMPTY
    {
      MoveParity(c, d);
    }
  }

  /** A carvable direction from a room leads to an interior WALL logical cell
      across an interior WALL cell. */
  lemma CarvableTarget(g0: Grid, start: Pos, g: Grid, c: Pos, d: Dir)
    requires Base(g0, start) && Opened(g0, g) && Joined(g) && Room(g, c) && Carvable(g, c, d)
    ensures InBounds(g0, Step(c, d, 1)) && InBounds(g0, Step(c, d, 2))
    ensures Interior(g0, Step(c, d, 1)) && Interior(g0, Step(c, d, 2))
    ensures At(g, Step(c, d, 2)) == WALL && At(g0, Step(c, d, 2)) == WALL
    ensures At(g, Step(c, d, 1)) == WALL && At(g0, Step(c, d, 1)) == WALL
    ensures IsLogical(Step(c, d, 2)) && !IsLogical(Step(c, d, 1))
  {
    CarvableInside(g, c, d);
    var t, m := Step(c, d, 2), Step(c, d, 1);
    assert At(g, m) != EMPTY;
    assert At(g0, t) == WALL;
  }

  /** On a rectangle of odd sides, a carvable direction from a logical cell
      crosses an interior cell onto an interior WALL logical cell. */
  lemma CarvableInside(g: Grid, c: Pos, d: Dir)
    requires |g| >= 1 && |g| % 2 == 1 && IsRect(g, |g|, |g[0]|) && |g[0]| % 2 == 1
    requires InBounds(g, c) && IsLogical(c) && Carvable(g, c, d)
    ensures InBounds(g, Step(c, d, 1)) && InBounds(g, Step(c, d, 2))
    ensures Interior(g, Step(c, d, 1)) && Interior(g, Step(c, d, 2))
    ensures At(g, Step(c, d, 2)) == WALL
    ensures IsLogical(Step(c, d, 2)) && !IsLogical(Step(c, d, 1))
  {
    MoveParity(c, d);
    var t := Step(c, d, 2);
    assert t == (if d == N || d == S then Pos(t.row, c.col) else Pos(c.row, t.col));
    OddBelow(c.row, |g|);
    OddBelow(c.col, |g[0]|);
    if d == N || d == S {
      OddBelow(t.row, |g|);
    } else {
      OddBelow(t.col, |g[0]|);
    }
  }

  /** An odd index below an odd length stops short of the last index. */
  lemma OddBelow(x: int, n: int)
    requires x % 2 == 1 && n % 2 == 1 && x < n
    ensures x < n - 1
  {
  }

  /** Opening a WALL door and the WALL room behind it adds one room and
      one door and removes one WALL logical cell. */
  lemma CarveCounts(g: Grid, m: Pos, t: Pos)
    requires InBounds(g, m) && InBounds(g, t) && !IsLogical(m) && IsLogical(t)
    requires At(g, m) == WALL && At(g, t) == WALL
    ensures var g2 := Put(Put(g, m, EMPTY), t, EMPTY);
            && Rooms(g2) == Rooms(g) + 1 && Doors(g2) == Doors(g) + 1 && Walls(g2) + 1 == Walls(g)
  {
    var g1 := Put(g, m, EMPTY);
    GridSumUpdate(g, m, EMPTY, RoomWeight);
    GridSumUpdate(g, m, EMPTY, DoorWeight);
    GridSumUpdate(g, m, EMPTY, WallWeight);
    GridSumUpdate(g1, t, EMPTY, RoomWeight);
    GridSumUpdate(g1, t, EMPTY, DoorWeight);
    GridSumUpdate(g1, t, EMPTY, WallWeight);
  }

  /** Opening the door between two logical cells and the second of them keeps
      doors joining rooms when the first is already a room. */
  lemma CarveJoined(g: Grid, c: Pos, d: Dir)
    requires Joined(g) && Room(g, c) && InBounds(g, Step(c, d, 1)) && InBounds(g, Step(c, d, 2))
    ensures Joined(BreakWall(g, c, d).0)
  {
    var g2 := BreakWall(g, c, d).0;
    var m := Step(c, d, 1);
    forall c', d' | IsLogical(c') && InBounds(g2, c') && InBounds(g2, Step(c', d', 1)) && InBounds(g2, Step(c', d', 2))
                    && At(g2, Step(c', d', 1)) == EMPTY
      ensures At(g2, Step(c', d', 2)) == EMPTY
    {
      MoveParity(c', d');
      MoveParity(c, d);
      if Step(c', d', 1) == m {
        SharedMidpoint(c, d, c', d');
      } else {
        assert At(g, Step(c', d', 1)) == EMPTY;
      }
    }
  }

  /** Carving only ever makes a direction uncarvable. */
  lemma CarveMonotone(g: Grid, c: Pos, d: Dir)
    requires |g| >= 1 && IsRect(g, |g|, |g[0]|)
    requires InBounds(g, Step(c, d, 1)) && InBounds(g, Step(c, d, 2))
    ensures forall q, d' :: InBounds(g, q) && Carvable(BreakWall(g, c, d).0, q, d') ==> Carvable(g, q, d')
  {
  }

  /** One carve: the invariant survives with the old cell pushed and the new
      one current, the WALL logical cells drop by one, and no direction
      becomes carvable anywhere. */
  lemma CarveStep(g0: Grid, start: Pos, st: Carving, d: Dir)
    requires Inv(g0, start, st) && Carvable(st.maze, st.curr, d)
    ensures InBounds(st.maze, Step(st.curr, d, 1)) && InBounds(st.maze, Step(st.curr, d, 2))
    ensures var r := BreakWall(st.maze, st.curr, d);
            && Inv(g0, start, Carving(r.0, r.1, st.prev + [st.curr]))
            && Walls(r.0) < Walls(st.maze)
            && forall q, d' :: InBounds(st.maze, q) && Carvable(r.0, q, d') ==> Carvable(st.maze, q, d')
  {
    CarvableTarget(g0, start, st.maze, st.curr, d);
    var c, g := st.curr, st.maze;
    var m, t := Step(c, d, 1), Step(c, d, 2);
    var g2 := BreakWall(g, c, d).0;
    assert g2 == Put(Put(g, m, EMPTY), t, EMPTY);
    CarveCounts(g, m, t);
    CarveJoined(g, c, d);
    CarveMonotone(g, c, d);
    var st' := Carving(g2, t, st.prev + [c]);
    forall i | 0 <= i < |st'.prev|
      ensures Room(g2, st'.prev[i])
    {
      if i < |st.prev| {
        assert st'.prev[i] == st.prev[i];
      }
    }
  }

  /** One pop keeps the invariant. */
  lemma PopStep(g0: Grid, start: Pos, st: Carving)
    requires Inv(g0, start, st) && st.prev != []
    ensures Inv(g0, start, Carving(st.maze, st.prev[|st.prev| - 1], st.prev[..|st.prev| - 1]))
  {
  }

  /** The loop as the generator writes it: a step, then stop once the stack
      is empty. A first step with nothing to carve pops the empty stack. */
  function CarveAsWritten(g0: Grid, start: Pos, st: Carving, draws: nat -> nat, k: nat): (r: Result<(Grid, nat)>)
    requires Inv(g0, start, st)
    ensures r.Err? <==> st.prev == [] && Candidates(st.maze, st.curr) == []
    ensures r.Err? ==> r.failure == PopFromEmptyList
    ensures r.Ok? ==> && Opened(g0, r.value.0) && Joined(r.value.0)
                      && Rooms(r.value.0) == Doors(r.value.0) + 1 && r.value.1 >= k
    decreases Walls(st.maze), |st.prev|
  {
    var ds := Candidates(st.maze, st.curr);
    if ds == [] then
      if st.prev == [] then Err(PopFromEmptyList)
      else
        var n := |st.prev| - 1;
        PopStep(g0, start, st);
        var st' := Carving(st.maze, st.prev[n], st.prev[..n]);
        if st'.prev == [] then Ok((st'.maze, k))
        else
          var r := CarveAsWritten(g0, start, st', draws, k);
          assert r.Ok?;
          r
    else
      var d := Choose(ds, draws(k));
      CarveStep(g0, start, st, d);
      var b := BreakWall(st.maze, st.curr, d);
      var r := CarveAsWritten(g0, start, Carving(b.0, b.1, st.prev + [st.curr]), draws, k + 1);
      assert r.Ok?;
      r
  }

  /** Every room other than the current one and those on the stack has
      nothing left to carve. */
  ghost predicate Finished(st: Carving) {
    && |st.maze| >= 1 && IsRect(st.maze, |st.maze|, |st.maze[0]|)
    && forall q, d :: Room(st.maze, q) && q != st.curr && q !in st.prev ==> !Carvable(st.maze, q, d)
  }

  /** A two-step move onto a cell in the grid that is not an obstacle: the
      moves the carver could make if every cell were still WALL. */
  function Free(g0: Grid): (Pos, Dir) -> bool {
    (p: Pos, d: Dir) =>
      var t := Step(p, d, 2);
      0 < t.row && 0 < t.col && InBounds(g0, t) && At(g0, t) != OBSTACLE
  }

  /** A two-step move through an open door. */
  function Through(g: Grid): (Pos, Dir) -> bool {
    (p: Pos, d: Dir) =>
      InBounds(g, Step(p, d, 1)) && InBounds(g, Step(p, d, 2)) && At(g, Step(p, d, 1)) == EMPTY
  }

  /** Each room is reached from the start through open doors by the walk `paths` records. */
  ghost predicate Linked(start: Pos, g: Grid, paths: map<Pos, seq<Dir>>) {
    forall q :: Room(g, q) ==> q in paths && Allowed(start, paths[q], 2, Through(g)) && Dest(start, paths[q], 2) == q
  }

  /** Opening cells keeps every door-to-door walk open. */
  lemma ThroughGrows(g: Grid, c: Pos, d: Dir)
    requires InBounds(g, Step(c, d, 1)) && InBounds(g, Step(c, d, 2))
    ensures forall p, e :: Through(g)(p, e) ==> Through(BreakWall(g, c, d).0)(p, e)
  {
  }

  /** After a carve from `c`, the new room is reached by the walk to `c` and one more move. */
  lemma LinkedNew(start: Pos, g: Grid, c: Pos, d: Dir, ds: seq<Dir>)
    requires InBounds(g, Step(c, d, 1)) && InBounds(g, Step(c, d, 2))
    requires Allowed(start, ds, 2, Through(g)) && Dest(start, ds, 2) == c
    ensures var b := BreakWall(g, c, d);
            Allowed(start, ds + [d], 2, Through(b.0)) && Dest(start, ds + [d], 2) == b.1
  {
    var b := BreakWall(g, c, d);
    ThroughGrows(g, c, d);
    AllowedWeaken(start, ds, 2, Through(g), Through(b.0));
    AllowedAppend(start, ds, d, 2, Through(b.0));
    TraceAppend(start, ds, d, 2);
  }

  lemma LinkedCarve(start: Pos, g: Grid, c: Pos, d: Dir, paths: map<Pos, seq<Dir>>)
    requires Linked(start, g, paths) && Room(g, c)
    requires InBounds(g, Step(c, d, 1)) && InBounds(g, Step(c, d, 2))
    ensures var b := BreakWall(g, c, d);
            Linked(start, b.0, paths[b.1 := paths[c] + [d]])
  {
    var b := BreakWall(g, c, d);
    var paths' := paths[b.1 := paths[c] + [d]];
    LinkedNew(start, g, c, d, paths[c]);
    ThroughGrows(g, c, d);
    MoveParity(c, d);
    forall q | Room(b.0, q) && q != b.1
      ensures Allowed(start, paths'[q], 2, Through(b.0))
    {
      assert Room(g, q);
      AllowedWeaken(start, paths[q], 2, Through(g), Through(b.0));
    }
  }

  /** A carve keeps every room but the new current one finished. */
  lemma FinishedCarve(g0: Grid, start: Pos, st: Carving, d: Dir)
    requires Inv(g0, start, st) && Finished(st) && Carvable(st.maze, st.curr, d)
    requires InBounds(st.maze, Step(st.curr, d, 1)) && InBounds(st.maze, Step(st.curr, d, 2))
    requires forall q, d' :: InBounds(st.maze, q) && Carvable(BreakWall(st.maze, st.curr, d).0, q, d') ==> Carvable(st.maze, q, d')
    ensures var b := BreakWall(st.maze, st.curr, d);
            Finished(Carving(b.0, b.1, st.prev + [st.curr]))
  {
    var b := BreakWall(st.maze, st.curr, d);
    MoveParity(st.curr, d);
    forall q, d' | Room(b.0, q) && q != b.1 && q !in st.prev + [st.curr]
      ensures !Carvable(b.0, q, d')
    {
      assert Room(st.maze, q);
    }
  }

  /** A pop of a current cell with nothing to carve keeps the rooms off the stack finished. */
  lemma FinishedPop(st: Carving)
    requires Finished(st) && st.prev != [] && InBounds(st.maze, st.curr)
    requires forall d :: !Carvable(st.maze, st.curr, d)
    ensures Finished(Carving(st.maze, st.prev[|st.prev| - 1], st.prev[..|st.prev| - 1]))
  {
    var n := |st.prev| - 1;
    forall q, d | Room(st.maze, q) && q != st.prev[n] && q !in st.prev[..n]
      ensures !Carvable(st.maze, q, d)
    {
      assert st.prev == st.prev[..n] + [st.prev[n]];
    }
  }

  /** Rooms recorded by `paths` are reached from the start through open doors. */
  lemma LinkedReached(start: Pos, g: Grid, paths: map<Pos, seq<Dir>>)
    requires Linked(start, g, paths)
    ensures forall q :: q in RoomSet(g) ==>
              exists ds :: Allowed(start, ds, 2, Through(g)) && Dest(start, ds, 2) == q
  {
    forall q | q in RoomSet(g)
      ensures exists ds :: Allowed(start, ds, 2, Through(g)) && Dest(start, ds, 2) == q
    {
      assert Allowed(start, paths[q], 2, Through(g)) && Dest(start, paths[q], 2) == q;
    }
  }

  /** The loop as written keeps every room reached from the start through open
      doors: each carve extends the walk to the current room by one move. */
  lemma {:induction false} AsWrittenLinked(g0: Grid, start: Pos, st: Carving, paths: map<Pos, seq<Dir>>, draws: nat -> nat, k: nat)
    requires Inv(g0, start, st) && Linked(start, st.maze, paths)
    ensures var r := CarveAsWritten(g0, start, st, draws, k);
            r.Ok? ==> forall q :: q in RoomSet(r.value.0) ==>
                        exists ds :: Allowed(start, ds, 2, Through(r.value.0)) && Dest(start, ds, 2) == q
    decreases Walls(st.maze), |st.prev|
  {
    var ds := Candidates(st.maze, st.curr);
    if ds == [] {
      if st.prev != [] {
        var n := |st.prev| - 1;
        PopStep(g0, start, st);
        var st' := Carving(st.maze, st.prev[n], st.prev[..n]);
        if st'.prev == [] {
          LinkedReached(start, st.maze, paths);
        } else {
          AsWrittenLinked(g0, start, st', paths, draws, k);
        }
      }
    } else {
      var d := Choose(ds, draws(k));
      CarveStep(g0, start, st, d);
      LinkedCarve(start, st.maze, st.curr, d, paths);
      var b := BreakWall(st.maze, st.curr, d);
      AsWrittenLinked(g0, start, Carving(b.0, b.1, st.prev + [st.curr]), paths[b.1 := paths[st.curr] + [d]], draws, k + 1);
    }
  }

  /** Run from the start, the loop as written leaves a tree rooted at the
      start: every door joins two rooms, every room is reached from the start
      through open doors, and there is one room more than doors. */
  lemma AsWrittenTree(g0: Grid, start: Pos, draws: nat -> nat, k: nat)
    requires Base(g0, start)
    ensures Inv(g0, start, Carving(g0, start, []))
    ensures var r := CarveAsWritten(g0, start, Carving(g0, start, []), draws, k);
            r.Ok? ==> && Opened(g0, r.value.0) && Joined(r.value.0) && Rooms(r.value.0) == Doors(r.value.0) + 1
                      && forall q :: q in RoomSet(r.value.0) ==>
                           exists ds :: Allowed(start, ds, 2, Through(r.value.0)) && Dest(start, ds, 2) == q
  {
    Initial(g0, start);
    AsWrittenLinked(g0, start, Carving(g0, start, []), map[start := []], draws, k);
  }

  /** One forward turn of the loop: choose, break through, push. */
  method Forward(g0: Grid, start: Pos, st: Carving, ghost paths: map<Pos, seq<Dir>>, draws: nat -> nat, k: nat)
    returns (st': Carving, ghost paths': map<Pos, seq<Dir>>)
    requires Inv(g0, start, st) && Finished(st) && Linked(start, st.maze, paths)
    requires Candidates(st.maze, st.curr) != []
    ensures Inv(g0, start, st') && Finished(st') && Linked(start, st'.maze, paths')
    ensures Walls(st'.maze) < Walls(st.maze)
  {
    var d := Choose(Candidates(st.maze, st.curr), draws(k));
    CarveStep(g0, start, st, d);
    LinkedCarve(start, st.maze, st.curr, d, paths);
    FinishedCarve(g0, start, st, d);
    var b := BreakWall(st.maze, st.curr, d);
    paths' := paths[b.1 := paths[st.curr] + [d]];
    st' := Carving(b.0, b.1, st.prev + [st.curr]);
  }

  /** Once no room has anything left to carve, the rooms are closed under
      free moves, so every free walk from the start stays on rooms. */
  lemma Complete(g0: Grid, start: Pos, g: Grid)
    requires Base(g0, start) && Opened(g0, g) && Room(g, start)
    requires forall q, d :: Room(g, q) ==> !Carvable(g, q, d)
    ensures forall ds :: Allowed(start, ds, 2, Free(g0)) ==> Dest(start, ds, 2) in RoomSet(g)
  {
    assert Closed(RoomSet(g), 2, Free(g0)) by {
      forall p, d | p in RoomSet(g) && Free(g0)(p, d)
        ensures Step(p, d, 2) in RoomSet(g)
      {
        MoveParity(p, d);
        assert !Carvable(g, p, d);
      }
    }
    forall ds | Allowed(start, ds, 2, Free(g0))
      ensures Dest(start, ds, 2) in RoomSet(g)
    {
      WalkStaysInside(RoomSet(g), start, ds, 2, Free(g0));
    }
  }

  /** The backtracker run until the current cell has nothing to carve and the
      stack is empty. The carved rooms and doors form a tree: every room is
      reached from the start through open doors and there is one room more
      than doors. Every cell a free walk from the start reaches is a room. */
  method Carve(g0: Grid, start: Pos, draws: nat -> nat, k0: nat) returns (g: Grid, k: nat)
    requires Base(g0, start)
    ensures Opened(g0, g) && Joined(g)
    ensures Rooms(g) == Doors(g) + 1
    ensures forall q :: q in RoomSet(g) ==>
              exists ds :: Allowed(start, ds, 2, Through(g)) && Dest(start, ds, 2) == q
    ensures forall ds :: Allowed(start, ds, 2, Free(g0)) ==> Dest(start, ds, 2) in RoomSet(g)
    ensures k >= k0
  {
    Initial(g0, start);
    var st := Carving(g0, start, []);
    ghost var paths: map<Pos, seq<Dir>> := map[start := []];
    k := k0;
    while true
      invariant Inv(g0, start, st) && Finished(st) && Linked(start, st.maze, paths) && k >= k0
      decreases Walls(st.maze), |st.prev|
    {
      var ds := Candidates(st.maze, st.curr);
      if ds != [] {
        st, paths := Forward(g0, start, st, paths, draws, k);
        k := k + 1;
      } else if st.prev != [] {
        var n := |st.prev| - 1;
        PopStep(g0, start, st);
        FinishedPop(st);
        st := Carving(st.maze, st.prev[n], st.prev[..n]);
      } else {
        break;
      }
    }
    g := st.maze;
    Complete(g0, start, g);
    forall q | q in RoomSet(g)
      ensures exists ds :: Allowed(start, ds, 2, Through(g)) && Dest(start, ds, 2) == q
    {
      assert Allowed(start, paths[q], 2, Through(g)) && Dest(start, paths[q], 2) == q;
    }
  }
}

=== FILE: dfs_core.dfy ===
/**
 The depth-first search both DFS solvers share: an explicit LIFO stack of
 (cell, moves so far) frames, neighbours tried north, south, west, east, and a
 cell marked visited when it is pushed, so that it enters the stack at most
 once. Which cells are passable is a parameter: the package's solver passes
 every in-bounds non-WALL cell, the prototype every in-bounds floor cell.
 */
module DfsCore {
  import opened Grids
  import opened Walks

  datatype Frame = Frame(node: Pos, path: seq<Dir>)

  /** A unit step is allowed when it lands on a passable cell. */
  function Onto(passable: Pos -> bool): (Pos, Dir) -> bool {
    (p: Pos, d: Dir) => passable(Step(p, d, 1))
  }

  /** The walk a route of unit moves traces from `start` lands on passable cells
      only, never stands on one cell twice and ends at `end`. */
  ghost predicate Route(start: Pos, end: Pos, path: seq<Dir>, passable: Pos -> bool) {
    && Dest(start, path, 1) == end
    && Allowed(start, path, 1, Onto(passable))
    && Distinct(Trace(start, path, 1))
  }

  /** No walk over passable cells leads from `start` to `end`. */
  ghost predicate Unreachable(start: Pos, end: Pos, passable: Pos -> bool) {
    forall ds :: Allowed(start, ds, 1, Onto(passable)) ==> Dest(start, ds, 1) != end
  }

  function Nodes(stack: seq<Frame>): set<Pos> {
    set i | 0 <= i < |stack| :: stack[i].node
  }

  lemma NodesAppend(stack: seq<Frame>, f: Frame)
    ensures Nodes(stack + [f]) == Nodes(stack) + {f.node}
  {
    var s := stack + [f];
    assert s[|stack|].node == f.node;
    forall p | p in Nodes(stack)
      ensures p in Nodes(s)
    {
      var i :| 0 <= i < |stack| && stack[i].node == p;
      assert s[i].node == p;
    }
  }

  lemma {:induction false} SubsetCard<T>(a: set<T>, b: set<T>)
    requires a <= b
    ensures |a| <= |b|
    decreases a
  {
    if a != {} {
      var y :| y in a;
      SubsetCard(a - {y}, b - {y});
    }
  }

  lemma SubsetSmaller<T>(a: set<T>, b: set<T>)
    requires a < b
    ensures |a| < |b|
  {
    var x :| x in b && x !in a;
    SubsetCard(a, b - {x});
  }

  ghost predicate GoodFrame(start: Pos, f: Frame, passable: Pos -> bool, visited: set<Pos>) {
    && Dest(start, f.path, 1) == f.node
    && Allowed(start, f.path, 1, Onto(passable))
    && Distinct(Trace(start, f.path, 1))
    && forall k :: 0 <= k <= |f.path| ==> Trace(start, f.path, 1)[k] in visited
  }

  /** Every passable neighbour of `p` has been visited. */
  ghost predicate Expanded(p: Pos, visited: set<Pos>, passable: Pos -> bool) {
    forall d :: passable(Step(p, d, 1)) ==> Step(p, d, 1) in visited
  }

  /** A frame extended by a step onto an unvisited passable cell is a good frame. */
  lemma ExtendFrame(start: Pos, f: Frame, d: Dir, passable: Pos -> bool, visited: set<Pos>)
    requires GoodFrame(start, f, passable, visited)
    requires passable(Step(f.node, d, 1)) && Step(f.node, d, 1) !in visited
    ensures GoodFrame(start, Frame(Step(f.node, d, 1), f.path + [d]), passable, visited + {Step(f.node, d, 1)})
  {
    var q := Step(f.node, d, 1);
    var ps := f.path + [d];
    TraceAppend(start, f.path, d, 1);
    var t := Trace(start, f.path, 1);
    var t' := Trace(start, ps, 1);
    assert t' == t + [q];
    forall k | 0 <= k < |ps|
      ensures Onto(passable)(t'[k], ps[k])
    {
      if k < |f.path| {
        assert t'[k] == t[k];
      }
    }
  }

  /** The stack holds good frames of distinct visited cells, and every visited
      cell is passable or the start. */
  ghost predicate StackInv(start: Pos, passable: Pos -> bool, bound: set<Pos>, stack: seq<Frame>, visited: set<Pos>) {
    && start in visited && visited <= bound + {start}
    && (forall i :: 0 <= i < |stack| ==> GoodFrame(start, stack[i], passable, visited))
    && (forall i, j :: 0 <= i < j < |stack| ==> stack[i].node != stack[j].node)
    && Nodes(stack) <= visited
  }

  lemma GoodFrameGrows(start: Pos, f: Frame, passable: Pos -> bool, visited: set<Pos>, more: set<Pos>)
    requires GoodFrame(start, f, passable, visited) && visited <= more
    ensures GoodFrame(start, f, passable, more)
  {
  }

  /** Pushing a step onto an unvisited passable cell keeps the stack invariant. */
  lemma Push(start: Pos, passable: Pos -> bool, bound: set<Pos>, stack: seq<Frame>, visited: set<Pos>, f: Frame, d: Dir)
    requires forall p :: passable(p) ==> p in bound
    requires StackInv(start, passable, bound, stack, visited)
    requires GoodFrame(start, f, passable, visited)
    requires passable(Step(f.node, d, 1)) && Step(f.node, d, 1) !in visited
    ensures var q := Step(f.node, d, 1);
            && StackInv(start, passable, bound, stack + [Frame(q, f.path + [d])], visited + {q})
            && GoodFrame(start, f, passable, visited + {q})
            && Nodes(stack + [Frame(q, f.path + [d])]) == Nodes(stack) + {q}
  {
    var q := Step(f.node, d, 1);
    var s' := stack + [Frame(q, f.path + [d])];
    ExtendFrame(start, f, d, passable, visited);
    NodesAppend(stack, Frame(q, f.path + [d]));
    GoodFrameGrows(start, f, passable, visited, visited + {q});
    forall i | 0 <= i < |s'|
      ensures GoodFrame(start, s'[i], passable, visited + {q})
    {
      if i < |stack| {
        GoodFrameGrows(start, stack[i], passable, visited, visited + {q});
      }
    }
    forall i, j | 0 <= i < j < |s'|
      ensures s'[i].node != s'[j].node
    {
      if j == |stack| {
        assert s'[i].node in Nodes(stack);
      }
    }
  }

  /** One neighbour test: push the step onto `d` when its cell is passable and unvisited. */
  method TryPush(start: Pos, passable: Pos -> bool, ghost bound: set<Pos>, f: Frame, d: Dir, stack: seq<Frame>, visited: set<Pos>)
    returns (stack': seq<Frame>, visited': set<Pos>)
    requires forall p :: passable(p) ==> p in bound
    requires StackInv(start, passable, bound, stack, visited)
    requires GoodFrame(start, f, passable, visited)
    ensures StackInv(start, passable, bound, stack', visited')
    ensures GoodFrame(start, f, passable, visited')
    ensures visited <= visited' && Nodes(stack) <= Nodes(stack')
    ensures visited' - visited <= Nodes(stack')
    ensures |stack'| - |stack| == |visited'| - |visited|
    ensures visited' == visited ==> stack' == stack
    ensures passable(Step(f.node, d, 1)) ==> Step(f.node, d, 1) in visited'
  {
    var q := Step(f.node, d, 1);
    if passable(q) && q !in visited {
      Push(start, passable, bound, stack, visited, f, d);
      visited' := visited + {q};
      stack' := stack + [Frame(q, f.path + [d])];
    } else {
      stack', visited' := stack, visited;
    }
  }

  /** Push every passable, unvisited neighbour of the popped frame's cell, in
      the order north, south, west, east, marking each visited as it is pushed. */
  method Expand(start: Pos, passable: Pos -> bool, ghost bound: set<Pos>, f: Frame, stack: seq<Frame>, visited: set<Pos>)
    returns (stack': seq<Frame>, visited': set<Pos>)
    requires forall p :: passable(p) ==> p in bound
    requires StackInv(start, passable, bound, stack, visited)
    requires GoodFrame(start, f, passable, visited)
    ensures StackInv(start, passable, bound, stack', visited')
    ensures visited <= visited' && Nodes(stack) <= Nodes(stack')
    ensures visited' - visited <= Nodes(stack')
    ensures |stack'| - |stack| == |visited'| - |visited|
    ensures visited' == visited ==> stack' == stack
    ensures Expanded(f.node, visited', passable)
  {
    stack', visited' := stack, visited;
    var k := 0;
    while k < 4
      invariant 0 <= k <= 4
      invariant StackInv(start, passable, bound, stack', visited')
      invariant GoodFrame(start, f, passable, visited')
      invariant visited <= visited' && Nodes(stack) <= Nodes(stack')
      invariant visited' - visited <= Nodes(stack')
      invariant |stack'| - |stack| == |visited'| - |visited|
      invariant visited' == visited ==> stack' == stack
      invariant forall j :: 0 <= j < k ==> passable(Step(f.node, Order[j], 1)) ==> Step(f.node, Order[j], 1) in visited'
    {
      stack', visited' := TryPush(start, passable, bound, f, Order[k], stack', visited');
      k := k + 1;
    }
    forall d
      ensures passable(Step(f.node, d, 1)) ==> Step(f.node, d, 1) in visited'
    {
      OrderListsEveryDir(d);
    }
  }

  /** Popping the top frame keeps the stack invariant for the rest. */
  lemma Pop(start: Pos, passable: Pos -> bool, bound: set<Pos>, stack: seq<Frame>, visited: set<Pos>)
    requires StackInv(start, passable, bound, stack, visited) && stack != []
    ensures var f := stack[|stack| - 1];
            var rest := stack[..|stack| - 1];
            && StackInv(start, passable, bound, rest, visited)
            && GoodFrame(start, f, passable, visited)
            && f.node !in Nodes(rest)
            && Nodes(stack) == Nodes(rest) + {f.node}
  {
    var f := stack[|stack| - 1];
    var rest := stack[..|stack| - 1];
    assert stack == rest + [f];
    NodesAppend(rest, f);
  }

  /** After the popped cell is expanded, every visited cell is on the stack or expanded. */
  lemma Covered(passable: Pos -> bool, c: Pos, rest: seq<Frame>, stack': seq<Frame>, visited: set<Pos>, visited': set<Pos>)
    requires forall p :: p in visited ==> p in Nodes(rest + [Frame(c, [])]) || Expanded(p, visited, passable)
    requires Nodes(rest + [Frame(c, [])]) == Nodes(rest) + {c}
    requires visited <= visited' && Nodes(rest) <= Nodes(stack') && visited' - visited <= Nodes(stack')
    requires Expanded(c, visited', passable)
    ensures forall p :: p in visited' ==> p in Nodes(stack') || Expanded(p, visited', passable)
  {
    forall p | p in visited'
      ensures p in Nodes(stack') || Expanded(p, visited', passable)
    {
      if p in visited && p != c && p !in Nodes(rest) {
        assert Expanded(p, visited, passable);
      }
    }
  }

  /** What the search loop keeps: a good stack, every visited cell either still
      on the stack or expanded, the end never left the stack once visited, and
      each visited cell pushed exactly once. */
  ghost predicate SearchInv(start: Pos, end: Pos, passable: Pos -> bool, bound: set<Pos>,
                            stack: seq<Frame>, visited: set<Pos>, expanded: seq<Pos>) {
    && StackInv(start, passable, bound, stack, visited)
    && (forall p :: p in visited ==> p in Nodes(stack) || Expanded(p, visited, passable))
    && (end in visited ==> end in Nodes(stack))
    && (start == end ==> expanded == [] && stack == [Frame(start, [])])
    && |expanded| + |stack| == |visited|
    && (forall i :: 0 <= i < |expanded| ==> expanded[i] == start || passable(expanded[i]))
  }

  /** The cell of a good frame is the start or a passable cell. */
  lemma FrameCell(start: Pos, f: Frame, passable: Pos -> bool, visited: set<Pos>)
    requires GoodFrame(start, f, passable, visited)
    ensures f.node == start || passable(f.node)
  {
    if f.path != [] {
      TraceSteps(start, f.path, 1);
      assert Onto(passable)(Trace(start, f.path, 1)[|f.path| - 1], f.path[|f.path| - 1]);
    }
  }

  /** One turn of the search loop whose popped cell is not the end: expand it. */
  method Advance(start: Pos, end: Pos, passable: Pos -> bool, ghost bound: set<Pos>,
                 stack: seq<Frame>, visited: set<Pos>, expanded: seq<Pos>)
    returns (stack': seq<Frame>, visited': set<Pos>, expanded': seq<Pos>)
    requires forall p :: passable(p) ==> p in bound
    requires SearchInv(start, end, passable, bound, stack, visited, expanded)
    requires stack != [] && stack[|stack| - 1].node != end
    ensures SearchInv(start, end, passable, bound, stack', visited', expanded')
    ensures expanded' == expanded + [stack[|stack| - 1].node]
    ensures visited <= visited'
    ensures visited' == visited ==> |stack'| < |stack|
  {
    Pop(start, passable, bound, stack, visited);
    var f := stack[|stack| - 1];
    var rest := stack[..|stack| - 1];
    FrameCell(start, f, passable, visited);
    stack', visited' := Expand(start, passable, bound, f, rest, visited);
    assert Nodes(rest + [Frame(f.node, [])]) == Nodes(rest) + {f.node} by {
      NodesAppend(rest, Frame(f.node, []));
    }
    Covered(passable, f.node, rest, stack', visited, visited');
    expanded' := expanded + [f.node];
  }

  method Search(start: Pos, end: Pos, passable: Pos -> bool, ghost bound: set<Pos>)
    returns (path: seq<Dir>, expanded: seq<Pos>)
    requires forall p :: passable(p) ==> p in bound
    ensures start == end ==> path == [] && expanded == []
    ensures path != [] ==> Route(start, end, path, passable)
    ensures path == [] && start != end ==> Unreachable(start, end, passable)
    ensures forall i :: 0 <= i < |expanded| ==> expanded[i] == start || passable(expanded[i])
    ensures |expanded| <= |bound + {start}|
  {
    var stack := [Frame(start, [])];
    var visited := {start};
    expanded := [];
    assert Nodes(stack) == {start} by {
      assert stack[0].node == start;
    }
    while stack != []
      invariant SearchInv(start, end, passable, bound, stack, visited, expanded)
      decreases |bound + {start} - visited|, |stack|
    {
      var f := stack[|stack| - 1];
      if f.node == end {
        Pop(start, passable, bound, stack, visited);
        SubsetCard(visited, bound + {start});
        path := f.path;
        return;
      }
      ghost var visited0 := visited;
      stack, visited, expanded := Advance(start, end, passable, bound, stack, visited, expanded);
      if visited != visited0 {
        SubsetSmaller(bound + {start} - visited, bound + {start} - visited0);
      }
    }
    SubsetCard(visited, bound + {start});
    assert Closed(visited, 1, Onto(passable));
    forall ds | Allowed(start, ds, 1, Onto(passable))
      ensures Dest(start, ds, 1) != end
    {
      WalkStaysInside(visited, start, ds, 1, Onto(passable));
    }
    path := [];
  }

  /** Routes and unreachability depend on the passable cells only. */
  lemma SamePassable(start: Pos, end: Pos, path: seq<Dir>, p1: Pos -> bool, p2: Pos -> bool)
    requires forall x :: p1(x) <==> p2(x)
    ensures Route(start, end, path, p1) ==> Route(start, end, path, p2)
    ensures Unreachable(start, end, p1) ==> Unreachable(start, end, p2)
  {
    forall ds
      ensures Allowed(start, ds, 1, Onto(p1)) <==> Allowed(start, ds, 1, Onto(p2))
    {
      forall k | 0 <= k < |ds|
        ensures Onto(p1)(Trace(start, ds, 1)[k], ds[k]) <==> Onto(p2)(Trace(start, ds, 1)[k], ds[k])
      {
        var x := Step(Trace(start, ds, 1)[k], ds[k], 1);
        assert p1(x) <==> p2(x);
      }
    }
  }
}

=== FILE: dfs_solver.dfy ===
/**
 The package's depth-first solver (class `DFS` of mazegen/dfs_path.py). It
 walks the fine grid one cell at a time, recolours cells as it explores, and
 returns the moves of the route it finds as compass letters.
 */
module DfsSolver {
  import opened Results
  import opened Grids
  import opened Walks
  import opened DfsCore

  /** A solver holds its endpoints in fine coordinates. */
  datatype Dfs = Dfs(start: Pos, end: Pos)

  /** The constructor: a logical (a, b) becomes the fine cell (2b+1, 2a+1),
      the same swap the generator makes. */
  function NewDfs(start: (int, int), end: (int, int)): (s: Dfs)
    ensures (s.start.col - 1) / 2 == start.0 && (s.start.row - 1) / 2 == start.1
    ensures (s.end.col - 1) / 2 == end.0 && (s.end.row - 1) / 2 == end.1
    ensures IsLogical(s.start) && IsLogical(s.end)
  {
    Dfs(FineSwapped(start.0, start.1), FineSwapped(end.0, end.1))
  }

  function MarkOne(g: Grid, q: Pos): (r: Grid)
    requires InBounds(g, q)
    ensures SameShape(g, r)
    ensures forall p :: InBounds(g, p) ==>
              At(r, p) == (if p == q && (At(g, p) == EMPTY || At(g, p) == FIND) then PATH else At(g, p))
  {
    if At(g, q) == EMPTY || At(g, q) == FIND then Put(g, q, PATH) else g
  }

  /** The recolouring a popped cell causes: each of its four neighbours that
      is EMPTY or FIND becomes PATH. */
  function MarkNeighbours(g: Grid, c: Pos): (r: Grid)
    requires |g| >= 1 && IsRect(g, |g|, |g[0]|) && Interior(g, c)
    ensures SameShape(g, r)
    ensures forall p :: InBounds(g, p) ==>
              At(r, p) == (if Adjacent(c, p) && (At(g, p) == EMPTY || At(g, p) == FIND) then PATH else At(g, p))
  {
    var n, s, w, e := Step(c, N, 1), Step(c, S, 1), Step(c, W, 1), Step(c, E, 1);
    assert InBounds(g, n) && InBounds(g, s) && InBounds(g, w) && InBounds(g, e);
    assert forall p :: Adjacent(c, p) <==> p == n || p == s || p == w || p == e;
    var g1 := MarkOne(g, n);
    var g2 := MarkOne(g1, s);
    var g3 := MarkOne(g2, w);
    MarkOne(g3, e)
  }

  ghost predicate Touched(p: Pos, nodes: seq<Pos>) {
    exists i :: 0 <= i < |nodes| && Adjacent(nodes[i], p)
  }

  lemma TouchedCons(p: Pos, nodes: seq<Pos>)
    requires nodes != []
    ensures Touched(p, nodes) <==> Adjacent(nodes[0], p) || Touched(p, nodes[1..])
  {
    if Touched(p, nodes) && !Adjacent(nodes[0], p) {
      var i :| 0 <= i < |nodes| && Adjacent(nodes[i], p);
      assert nodes[1..][i - 1] == nodes[i];
    }
    if Touched(p, nodes[1..]) {
      var i :| 0 <= i < |nodes| - 1 && Adjacent(nodes[1..][i], p);
      assert nodes[i + 1] == nodes[1..][i];
    }
  }

  /** Every cell of `nodes` lies strictly inside a `h` by `w` grid. */
  predicate AllInside(nodes: seq<Pos>, h: int, w: int) {
    forall i :: 0 <= i < |nodes| ==> 0 < nodes[i].row < h - 1 && 0 < nodes[i].col < w - 1
  }

  /** The recolouring of a whole search: every EMPTY or FIND neighbour of an
      expanded cell becomes PATH, and nothing else changes. */
  function MarkAround(g: Grid, nodes: seq<Pos>): (r: Grid)
    requires |g| >= 1 && IsRect(g, |g|, |g[0]|)
    requires AllInside(nodes, |g|, |g[0]|)
    ensures SameShape(g, r)
    ensures forall p :: InBounds(g, p) ==>
              At(r, p) == (if Touched(p, nodes) && (At(g, p) == EMPTY || At(g, p) == FIND) then PATH else At(g, p))
    decreases |nodes|
  {
    if nodes == [] then g
    else
      var g1 := MarkNeighbours(g, nodes[0]);
      assert |g1[0]| == |g[0]|;
      var r := MarkAround(g1, nodes[1..]);
      assert forall p :: Touched(p, nodes) <==> Adjacent(nodes[0], p) || Touched(p, nodes[1..]) by {
        forall p
          ensures Touched(p, nodes) <==> Adjacent(nodes[0], p) || Touched(p, nodes[1..])
        {
          TouchedCons(p, nodes);
        }
      }
      r
  }

  /** The replay after a successful search: every PATH cell among `cells`
      becomes FIND. */
  function MarkFound(g: Grid, cells: seq<Pos>): (r: Grid)
    requires forall i :: 0 <= i < |cells| ==> InBounds(g, cells[i])
    ensures SameShape(g, r)
    ensures forall p :: InBounds(g, p) ==>
              At(r, p) == (if p in cells && At(g, p) == PATH then FIND else At(g, p))
    decreases |cells|
  {
    if cells == [] then g
    else
      var c := cells[0];
      var g1 := if At(g, c) == PATH then Put(g, c, FIND) else g;
      assert forall p :: p in cells <==> p == c || p in cells[1..];
      MarkFound(g1, cells[1..])
  }

  /** `find_path_dfs`: the shared search over the in-bounds non-WALL cells,
      followed by the recolouring it performs along the way. Marking only turns
      non-WALL cells into other non-WALL cells, so it never changes which cells
      the search may enter. */
  method FindPathDfs(s: Dfs, g: Grid) returns (g': Grid, path: seq<Dir>)
    requires Framed(g) && Interior(g, s.start)
    ensures SameShape(g, g')
    ensures forall p :: InBounds(g, p) ==>
              At(g', p) == At(g, p) || ((At(g, p) == EMPTY || At(g, p) == FIND) && At(g', p) == PATH)
    ensures path != [] ==> Route(s.start, s.end, path, NonWall(g))
    ensures path == [] && s.start != s.end ==> Unreachable(s.start, s.end, NonWall(g))
    ensures s.start == s.end ==> path == [] && g' == g
  {
    var expanded;
    path, expanded := Search(s.start, s.end, NonWall(g), Cells(|g|, |g[0]|));
    forall i | 0 <= i < |expanded|
      ensures 0 < expanded[i].row < |g| - 1 && 0 < expanded[i].col < |g[0]| - 1
    {
      if expanded[i] != s.start {
        assert NonWall(g)(expanded[i]);
      }
    }
    g' := MarkAround(g, expanded);
  }

  /** The replay loop of `solve`: walk the route from the start and turn each
      PATH cell it stands on before a move into FIND. */
  method Replay(s: Dfs, g2: Grid, g3: Grid, path: seq<Dir>) returns (g': Grid)
    requires SameShape(g2, g3)
    requires forall p :: InBounds(g2, p) ==> (At(g3, p) == WALL <==> At(g2, p) == WALL)
    requires InBounds(g2, s.start)
    requires path != [] ==> Route(s.start, s.end, path, NonWall(g2))
    requires path == [] && s.start != s.end ==> Unreachable(s.start, s.end, NonWall(g2))
    ensures SameShape(g3, g')
    ensures forall p :: InBounds(g3, p) ==>
              At(g', p) == (if p in Trace(s.start, path, 1)[..|path|] && At(g3, p) == PATH then FIND else At(g3, p))
    ensures path != [] ==> Route(s.start, s.end, path, NonWall(g'))
    ensures path == [] && s.start != s.end ==> Unreachable(s.start, s.end, NonWall(g'))
  {
    var cells := Trace(s.start, path, 1)[..|path|];
    RouteInBounds(s.start, s.end, path, g2, g3);
    g' := MarkFound(g3, cells);
    assert forall p :: NonWall(g2)(p) <==> NonWall(g')(p);
    SamePassable(s.start, s.end, path, NonWall(g2), NonWall(g'));
  }

  /** Every cell a route over non-WALL cells stands on is in bounds. */
  lemma RouteInBounds(start: Pos, end: Pos, path: seq<Dir>, g2: Grid, g3: Grid)
    requires SameShape(g2, g3) && InBounds(g2, start)
    requires path != [] ==> Route(start, end, path, NonWall(g2))
    ensures forall i :: 0 <= i < |path| ==> InBounds(g3, Trace(start, path, 1)[i])
  {
    forall i | 0 <= i < |path|
      ensures InBounds(g3, Trace(start, path, 1)[i])
    {
      if i > 0 {
        TraceSteps(start, path, 1);
        assert Onto(NonWall(g2))(Trace(start, path, 1)[i - 1], path[i - 1]);
      }
    }
  }

  /** The search and the replay together, on a grid already stamped. Only
      EMPTY, FIND and PATH cells are recoloured, and only into PATH or FIND. */
  method SearchAndReplay(s: Dfs, g: Grid) returns (g': Grid, path: seq<Dir>)
    requires Framed(g) && Interior(g, s.start) && s.start != s.end
    ensures SameShape(g, g')
    ensures forall p :: InBounds(g, p) ==>
              || At(g', p) == At(g, p)
              || ((At(g, p) == EMPTY || At(g, p) == FIND || At(g, p) == PATH) && (At(g', p) == PATH || At(g', p) == FIND))
    ensures path != [] ==> Route(s.start, s.end, path, NonWall(g'))
    ensures path == [] ==> Unreachable(s.start, s.end, NonWall(g'))
  {
    var g3;
    g3, path := FindPathDfs(s, g);
    g' := Replay(s, g, g3, path);
  }

  /** `solve`: stamp the start START, validate the end, stamp it EXIT, search,
      then replay the route turning its PATH cells into FIND. The replay visits
      the cells the route stands on before each move, so the end keeps EXIT. */
  method Solve(s: Dfs, g: Grid) returns (g': Grid, r: Result<seq<Dir>>)
    requires Framed(g) && Interior(g, s.start)
    requires s.end.row >= 0 && s.end.col >= 0
    ensures r.Err? <==> (|| s.end.row >= |g| || s.end.col >= |g[0]|
                         || s.end == s.start
                         || (At(g, s.end) != EMPTY && At(g, s.end) != EXIT))
    ensures r.Err? ==> r.failure == InvalidEndCoordinate
    ensures r.Err? ==> g' == Put(g, s.start, START)
    ensures SameShape(g, g') && At(g', s.start) == START
    ensures r.Ok? ==> At(g', s.end) == EXIT
    ensures forall p :: InBounds(g, p) && p != s.start ==> (At(g', p) == WALL <==> At(g, p) == WALL)
    ensures forall p :: InBounds(g, p) && p != s.start && p != s.end ==>
              || At(g', p) == At(g, p)
              || ((At(g, p) == EMPTY || At(g, p) == FIND || At(g, p) == PATH) && (At(g', p) == PATH || At(g', p) == FIND))
    ensures r.Ok? && r.value != [] ==> Route(s.start, s.end, r.value, NonWall(g'))
    ensures r.Ok? && r.value == [] ==> Unreachable(s.start, s.end, NonWall(g'))
  {
    var g1 := Put(g, s.start, START);
    if s.end.row >= |g1| || s.end.col >= |g1[0]| {
      return g1, Err(InvalidEndCoordinate);
    }
    if At(g1, s.end) != EMPTY && At(g1, s.end) != EXIT {
      return g1, Err(InvalidEndCoordinate);
    }
    var g2 := Put(g1, s.end, EXIT);
    assert Framed(g2) by {
      forall p | InBounds(g2, p) && OnFrame(g2, p)
        ensures At(g2, p) == WALL
      {
        assert At(g, p) == WALL;
      }
    }
    var path;
    g', path := SearchAndReplay(s, g2);
    r := Ok(path);
  }
}

=== FILE: generator.dfy ===
/**
 `maze_gen` (mazegen/__init__.py): validate the endpoints, stamp the "42",
 carve a spanning tree from the start, braid and clean it up in imperfect
 mode, then mark the start and the exit.
 */
module Generator {
  import opened Results
  import opened Grids
  import opened Walks
  import opened Stamp
  import opened Carver
  import opened Braiding

  /** The smallest stamped grid: 6 by 8 logical cells, the pattern at the corner. */
  function Corner(): Grid {
    SetFortyTwo(Filled(13, 17, WALL), 6, 8)
  }

  /** A 13 by 17 grid holding OBSTACLE at the holes and WALL elsewhere. */
  ghost predicate LikeCorner(g: Grid) {
    && IsRect(g, 13, 17)
    && forall q :: InBounds(g, q) ==> At(g, q) == (if (q.row, q.col) in Holes then OBSTACLE else WALL)
  }

  lemma CornerCells()
    ensures LikeCorner(Corner())
  {
    StampedBlank(6, 8);
    assert Offset(6, PatternHeight) == 0 && Offset(8, PatternWidth) == 0;
  }

  /** The cells around (3, 9) and (3, 11) that the first two carve steps read. */
  predicate CornerLocal(g: Grid) {
    && IsRect(g, 13, 17)
    && g[1][9] == OBSTACLE && g[5][9] == OBSTACLE && g[1][11] == OBSTACLE && g[5][11] == OBSTACLE
    && g[3][13] == OBSTACLE && g[3][7] == WALL && g[3][11] == WALL
  }

  lemma CornerNear(g: Grid)
    requires LikeCorner(g)
    ensures CornerLocal(g)
  {
    assert At(g, Pos(1, 9)) == OBSTACLE && At(g, Pos(5, 9)) == OBSTACLE;
    assert At(g, Pos(1, 11)) == OBSTACLE && At(g, Pos(5, 11)) == OBSTACLE && At(g, Pos(3, 13)) == OBSTACLE;
    assert At(g, Pos(3, 7)) == WALL && At(g, Pos(3, 11)) == WALL;
  }

  /** With the start (3, 9) opened, such a grid is one the carver may start from. */
  lemma CornerBase(g: Grid)
    requires LikeCorner(g)
    ensures Base(Put(g, Pos(3, 9), EMPTY), Pos(3, 9))
  {
    assert forall i, j :: (i, j) in Holes ==> i % 2 == 1 && j % 2 == 1;
  }

  /** The carve from (3, 9) may go west or east. */
  lemma CornerFirst(g: Grid)
    requires CornerLocal(g)
    ensures Candidates(Put(g, Pos(3, 9), EMPTY), Pos(3, 9)) == [W, E]
  {
    var s := Pos(3, 9);
    var g0 := Put(g, s, EMPTY);
    assert At(g0, Pos(1, 9)) == OBSTACLE && At(g0, Pos(5, 9)) == OBSTACLE;
    assert At(g0, Pos(3, 7)) == WALL && At(g0, Pos(3, 11)) == WALL;
    assert Carvable(g0, s, W) && Carvable(g0, s, E) && !Carvable(g0, s, N) && !Carvable(g0, s, S);
  }

  /** After going east there is nothing left to carve at (3, 11). */
  lemma CornerSecond(g: Grid)
    requires CornerLocal(g)
    ensures var g0 := Put(g, Pos(3, 9), EMPTY);
            Candidates(BreakWall(g0, Pos(3, 9), E).0, Pos(3, 11)) == []
  {
    var s := Pos(3, 9);
    var g0 := Put(g, s, EMPTY);
    var g1 := BreakWall(g0, s, E).0;
    assert At(g1, Pos(1, 11)) == OBSTACLE && At(g1, Pos(5, 11)) == OBSTACLE;
    assert At(g1, Pos(3, 13)) == OBSTACLE && At(g1, s) == EMPTY;
    assert !Carvable(g1, Pos(3, 11), N) && !Carvable(g1, Pos(3, 11), S);
    assert !Carvable(g1, Pos(3, 11), W) && !Carvable(g1, Pos(3, 11), E);
  }

  /** The loop as written on such a grid, first draw east: it breaks the
      east wall and carries on from (3, 11) with the start on the stack. */
  lemma CornerEast(g0: Grid, draws: nat -> nat)
    requires draws(0) == 1
    requires Base(g0, Pos(3, 9)) && Candidates(g0, Pos(3, 9)) == [W, E]
    ensures var st1 := Carving(BreakWall(g0, Pos(3, 9), E).0, Pos(3, 11), [Pos(3, 9)]);
            && Inv(g0, Pos(3, 9), Carving(g0, Pos(3, 9), []))
            && Inv(g0, Pos(3, 9), st1)
            && CarveAsWritten(g0, Pos(3, 9), Carving(g0, Pos(3, 9), []), draws, 0)
               == CarveAsWritten(g0, Pos(3, 9), st1, draws, 1)
  {
    var s := Pos(3, 9);
    Initial(g0, s);
    var st := Carving(g0, s, []);
    assert Choose(Candidates(g0, s), draws(0)) == E;
    FirstMove(g0, s, st, draws, 0, E);
    assert [] + [s] == [s] && Step(s, E, 2) == Pos(3, 11);
  }

  /** The loop as written on such a grid, first draw east: it carves (3, 11),
      pops back to the start and stops, (3, 7) still WALL. */
  lemma CornerStops(g0: Grid, draws: nat -> nat)
    requires draws(0) == 1
    requires Base(g0, Pos(3, 9)) && Candidates(g0, Pos(3, 9)) == [W, E]
    requires InBounds(g0, Pos(3, 11)) && Candidates(BreakWall(g0, Pos(3, 9), E).0, Pos(3, 11)) == []
    ensures && Inv(g0, Pos(3, 9), Carving(g0, Pos(3, 9), []))
            && CarveAsWritten(g0, Pos(3, 9), Carving(g0, Pos(3, 9), []), draws, 0) == Ok((BreakWall(g0, Pos(3, 9), E).0, 1))
  {
    CornerEast(g0, draws);
    LastPop(g0, Pos(3, 9), Carving(BreakWall(g0, Pos(3, 9), E).0, Pos(3, 11), [Pos(3, 9)]), draws, 1);
  }

  /** The loop as written, at a cell with something to carve, breaks the
      wall the draw picks and carries on from the cell behind it. */
  lemma FirstMove(g0: Grid, start: Pos, st: Carving, draws: nat -> nat, k: nat, d: Dir)
    requires Inv(g0, start, st) && Candidates(st.maze, st.curr) != []
    requires d == Choose(Candidates(st.maze, st.curr), draws(k))
    ensures InBounds(st.maze, Step(st.curr, d, 1)) && InBounds(st.maze, Step(st.curr, d, 2))
    ensures Inv(g0, start, Carving(BreakWall(st.maze, st.curr, d).0, Step(st.curr, d, 2), st.prev + [st.curr]))
    ensures CarveAsWritten(g0, start, st, draws, k)
            == CarveAsWritten(g0, start, Carving(BreakWall(st.maze, st.curr, d).0, Step(st.curr, d, 2), st.prev + [st.curr]), draws, k + 1)
  {
    CarveStep(g0, start, st, d);
  }

  /** The loop as written, at a cell with nothing to carve and only the
      start on the stack, pops the start and stops. */
  lemma LastPop(g0: Grid, start: Pos, st: Carving, draws: nat -> nat, k: nat)
    requires Inv(g0, start, st) && |st.prev| == 1 && Candidates(st.maze, st.curr) == []
    ensures CarveAsWritten(g0, start, st, draws, k) == Ok((st.maze, k))
  {
    PopStep(g0, start, st);
  }

  /** From (3, 9), one free move west reaches (3, 7). */
  lemma CornerWest(g: Grid)
    requires CornerLocal(g)
    ensures var g0 := Put(g, Pos(3, 9), EMPTY);
            Allowed(Pos(3, 9), [W], 2, Free(g0)) && Dest(Pos(3, 9), [W], 2) == Pos(3, 7)
  {
    var s := Pos(3, 9);
    var g0 := Put(g, s, EMPTY);
    assert At(g0, Pos(3, 7)) == WALL;
    TraceAppend(s, [], W, 2);
    assert Trace(s, [W], 2) == [s, Pos(3, 7)];
  }

  lemma CornerReady()
    ensures CornerLocal(Corner()) && Base(Put(Corner(), Pos(3, 9), EMPTY), Pos(3, 9))
  {
    CornerCells();
    CornerNear(Corner());
    CornerBase(Corner());
  }

  /** The run of the loop as written on any grid with the corner's cells
      around (3, 9). */
  lemma CornerRun(g: Grid)
    requires CornerLocal(g) && Base(Put(g, Pos(3, 9), EMPTY), Pos(3, 9))
    ensures var g0 := Put(g, Pos(3, 9), EMPTY);
            && Inv(g0, Pos(3, 9), Carving(g0, Pos(3, 9), []))
            && Allowed(Pos(3, 9), [W], 2, Free(g0)) && Dest(Pos(3, 9), [W], 2) == Pos(3, 7)
            && var r := CarveAsWritten(g0, Pos(3, 9), Carving(g0, Pos(3, 9), []), _ => 1, 0);
               r.Ok? && Pos(3, 7) !in RoomSet(r.value.0)
  {
    CornerFirst(g);
    CornerSecond(g);
    var g0 := Put(g, Pos(3, 9), EMPTY);
    CornerStops(g0, _ => 1);
    CornerWest(g);
    assert At(BreakWall(g0, Pos(3, 9), E).0, Pos(3, 7)) == WALL;
  }

  /** On a 13 by 17 grid with the stamp at the corner, a carve started at
      (3, 9) whose first draw picks east carves (3, 11), finds nothing left
      there, pops back to the start and stops with the stack empty. The room
      (3, 7), one free move west of the start, is never carved. */
  lemma StopsEarly()
    ensures var g0 := Put(Corner(), Pos(3, 9), EMPTY);
            && Inv(g0, Pos(3, 9), Carving(g0, Pos(3, 9), []))
            && Allowed(Pos(3, 9), [W], 2, Free(g0)) && Dest(Pos(3, 9), [W], 2) == Pos(3, 7)
            && var r := CarveAsWritten(g0, Pos(3, 9), Carving(g0, Pos(3, 9), []), _ => 1, 0);
               r.Ok? && Pos(3, 7) !in RoomSet(r.value.0)
  {
    CornerReady();
    CornerRun(Corner());
  }

  // ---------------------------------------------------------------------------
  // maze_gen

  /** The generator's settings: the size in logical cells, the endpoints as
      logical (column, row) pairs, and whether the maze must stay perfect.
      The seed is replaced by the `draws` oracle. */
  datatype MazeGenerator = MazeGenerator(height: int, width: int, startPos: (int, int), endPos: (int, int), perfect: bool)

  /** The `start` property: the fine cell of the start pair, row and column swapped. */
  function StartCell(m: MazeGenerator): (p: Pos)
    ensures IsLogical(p)
    ensures (p.col - 1) / 2 == m.startPos.0 && (p.row - 1) / 2 == m.startPos.1
  {
    FineSwapped(m.startPos.0, m.startPos.1)
  }

  /** The `end` property, read the same way. */
  function EndCell(m: MazeGenerator): (p: Pos)
    ensures IsLogical(p)
    ensures (p.col - 1) / 2 == m.endPos.0 && (p.row - 1) / 2 == m.endPos.1
  {
    FineSwapped(m.endPos.0, m.endPos.1)
  }

  /** `maze_gen`'s bounds test on a fine cell of a grid of `h` by `w` logical cells. */
  predicate Outside(p: Pos, h: int, w: int) {
    p.row >= 2 * h + 1 || p.col >= 2 * w + 1 || p.row < 0 || p.col < 0
  }

  /** The all-WALL grid of the generator's size with the "42" stamped on it. */
  function Stamped(h: nat, w: nat): Grid {
    SetFortyTwo(Filled(2 * h + 1, 2 * w + 1, WALL), h, w)
  }

  /** The end is reached from the start by moves of two cells that stay in
      the grid, off row and column 0, and off the obstacles. */
  ghost predicate Reaches(g: Grid, start: Pos, end: Pos) {
    exists ds :: Allowed(start, ds, 2, Free(g)) && Dest(start, ds, 2) == end
  }

  /** A logical cell that passes the bounds test is off the frame. */
  lemma LogicalInside(g: Grid, h: int, w: int)
    requires IsRect(g, 2 * h + 1, 2 * w + 1)
    ensures forall p :: IsLogical(p) && !Outside(p, h, w) ==> Interior(g, p)
  {
  }

  /** Every cell is WALL or an OBSTACLE on a logical cell off the frame. */
  ghost predicate Blank(g: Grid) {
    forall q :: InBounds(g, q) ==> At(g, q) == WALL || (At(g, q) == OBSTACLE && IsLogical(q) && Interior(g, q))
  }

  lemma StampedIsBlank(h: nat, w: nat)
    ensures IsRect(Stamped(h, w), 2 * h + 1, 2 * w + 1) && Blank(Stamped(h, w))
  {
    StampedBlank(h, w);
  }

  /** A rectangle of odd sides of at least three cells. */
  predicate OddRect(g: Grid) {
    |g| >= 3 && |g| % 2 == 1 && IsRect(g, |g|, |g[0]|) && |g[0]| >= 3 && |g[0]| % 2 == 1
  }

  /** Two endpoints that pass the bounds checks are interior cells of a
      blank grid of the generator's shape, and that shape has odd sides. */
  lemma BlankReady(g0: Grid, h: nat, w: nat, s: Pos, e: Pos)
    requires IsRect(g0, 2 * h + 1, 2 * w + 1) && Blank(g0)
    requires h >= 1 && w >= 1 && IsLogical(s) && IsLogical(e)
    requires !Outside(s, h, w) && !Outside(e, h, w)
    ensures OddRect(g0) && Interior(g0, s) && Interior(g0, e)
  {
    LogicalInside(g0, h, w);
  }

  /** The same for the stamped grid `maze_gen` carves. */
  lemma StampedReady(h: nat, w: nat, s: Pos, e: Pos)
    requires h >= 1 && w >= 1 && IsLogical(s) && IsLogical(e)
    requires !Outside(s, h, w) && !Outside(e, h, w)
    ensures var g0 := Stamped(h, w);
            && IsRect(g0, 2 * h + 1, 2 * w + 1) && OddRect(g0) && Blank(g0)
            && Interior(g0, s) && Interior(g0, e)
  {
    StampedIsBlank(h, w);
    BlankReady(Stamped(h, w), h, w, s, e);
  }

  /** A blank grid of odd sides with a logical cell opened is a carver's base. */
  lemma BlankBase(g: Grid, s: Pos)
    requires OddRect(g) && Blank(g) && IsLogical(s) && InBounds(g, s) && At(g, s) != OBSTACLE
    ensures Base(Put(g, s, EMPTY), s) && Framed(g) && Interior(g, s)
  {
    var g1 := Put(g, s, EMPTY);
    forall q | InBounds(g1, q) && q != s
      ensures At(g1, q) == WALL || (At(g1, q) == OBSTACLE && IsLogical(q))
    {
      assert InBounds(g, q);
    }
  }

  /** Moves free in the stamped grid stay free once the start is opened. */
  lemma FreeAfterOpening(g: Grid, s: Pos, ds: seq<Dir>)
    requires InBounds(g, s) && At(g, s) != OBSTACLE
    requires Allowed(s, ds, 2, Free(g))
    ensures Allowed(s, ds, 2, Free(Put(g, s, EMPTY)))
  {
    var g1 := Put(g, s, EMPTY);
    forall q, d | Free(g)(q, d)
      ensures Free(g1)(q, d)
    {
    }
    AllowedWeaken(s, ds, 2, Free(g), Free(g1));
  }

  /** From a logical cell, a walk through open doors stays open in any grid
      of the same shape that keeps every EMPTY cell off the logical cells. */
  lemma ThroughKept(g: Grid, g': Grid, p: Pos, ds: seq<Dir>)
    requires SameShape(g, g') && IsLogical(p) && Allowed(p, ds, 2, Through(g))
    requires forall q :: InBounds(g, q) && !IsLogical(q) && At(g, q) == EMPTY ==> At(g', q) == EMPTY
    ensures Allowed(p, ds, 2, Through(g'))
  {
    TraceLogical(p, ds);
    forall k | 0 <= k < |ds|
      ensures Through(g')(Trace(p, ds, 2)[k], ds[k])
    {
      MoveParity(Trace(p, ds, 2)[k], ds[k]);
    }
  }

  lemma OpenedTrans(a: Grid, b: Grid, c: Grid)
    requires Opened(a, b) && Opened(b, c)
    ensures Opened(a, c)
  {
    forall q | InBounds(a, q)
      ensures At(c, q) == At(a, q) || (At(a, q) == WALL && At(c, q) == EMPTY && Interior(a, q))
    {
      assert InBounds(b, q);
    }
  }

  /** On a grid whose cells off the logical cells are WALL or EMPTY, a braid only opens. */
  lemma BraidOpens(g: Grid, g': Grid)
    requires Braided(g, g')
    requires forall q :: InBounds(g, q) && !IsLogical(q) ==> At(g, q) == WALL || At(g, q) == EMPTY
    ensures Opened(g, g')
  {
  }

  /** A cleanup only opens. */
  lemma CleanupOpens(g: Grid, g': Grid)
    requires Cleaned(g, g')
    ensures Opened(g, g')
  {
  }

  /** Imperfect mode: the braid pass, then the cleanup pass. */
  method Loosen(g: Grid, draws: nat -> nat, k: nat) returns (g': Grid)
    requires |g| >= 1 && IsRect(g, |g|, |g[0]|)
    requires forall q :: InBounds(g, q) && !IsLogical(q) ==> At(g, q) == WALL || At(g, q) == EMPTY
    ensures Opened(g, g')
  {
    var gb, _ := Braid(g, draws, k);
    BraidOpens(g, gb);
    g' := Cleanup(gb);
    CleanupOpens(gb, g');
    OpenedTrans(g, gb, g');
  }

  /** The carved maze, loosened in imperfect mode, before the endpoints are
      marked: the base with cells opened, every free walk's end reached
      through open doors, and in perfect mode a tree: every door joins two
      rooms, every room is reached from the start through open doors, and
      there is one room more than doors. */
  method Layout(g0: Grid, s: Pos, perfect: bool, draws: nat -> nat) returns (g: Grid)
    requires OddRect(g0) && Blank(g0) && IsLogical(s) && InBounds(g0, s) && At(g0, s) != OBSTACLE
    ensures Opened(Put(g0, s, EMPTY), g)
    ensures forall ds :: Allowed(s, ds, 2, Free(g0)) ==>
              exists ds' :: Allowed(s, ds', 2, Through(g)) && Dest(s, ds', 2) == Dest(s, ds, 2)
    ensures perfect ==> Rooms(g) == Doors(g) + 1 && Room(g, s) && Joined(g)
    ensures perfect ==> forall q :: q in RoomSet(g) ==>
              exists ds :: Allowed(s, ds, 2, Through(g)) && Dest(s, ds, 2) == q
    ensures perfect ==> forall ds :: Allowed(s, ds, 2, Free(g0)) ==> Room(g, Dest(s, ds, 2))
  {
    var g1 := Put(g0, s, EMPTY);
    BlankBase(g0, s);
    var g2, k := Carve(g1, s, draws, 0);
    if perfect {
      g := g2;
    } else {
      g := Loosen(g2, draws, k);
      OpenedTrans(g1, g2, g);
    }
    if perfect {
      OpenedSelf(g2);
    }
    CarvedWalks(g0, g2, g, s);
    if perfect {
      assert Trace(s, [], 2) == [s];
      assert Allowed(s, [], 2, Free(g0));
    }
  }

  lemma OpenedSelf(g: Grid)
    ensures Opened(g, g)
  {
  }

  /** Every free walk from the start of a carved maze ends in a room, reached
      through open doors, and still reached so once more cells are opened. */
  lemma CarvedWalks(g0: Grid, g2: Grid, g: Grid, s: Pos)
    requires InBounds(g0, s) && At(g0, s) != OBSTACLE && IsLogical(s)
    requires forall ds :: Allowed(s, ds, 2, Free(Put(g0, s, EMPTY))) ==> Dest(s, ds, 2) in RoomSet(g2)
    requires forall q :: q in RoomSet(g2) ==> exists ds :: Allowed(s, ds, 2, Through(g2)) && Dest(s, ds, 2) == q
    requires Opened(g2, g)
    ensures forall ds :: Allowed(s, ds, 2, Free(g0)) ==>
              && Room(g2, Dest(s, ds, 2))
              && exists ds' :: Allowed(s, ds', 2, Through(g)) && Dest(s, ds', 2) == Dest(s, ds, 2)
  {
    forall ds | Allowed(s, ds, 2, Free(g0))
      ensures Room(g2, Dest(s, ds, 2))
      ensures exists ds' :: Allowed(s, ds', 2, Through(g)) && Dest(s, ds', 2) == Dest(s, ds, 2)
    {
      FreeAfterOpening(g0, s, ds);
      var q := Dest(s, ds, 2);
      assert q in RoomSet(g2);
      var ds' :| Allowed(s, ds', 2, Through(g2)) && Dest(s, ds', 2) == q;
      ThroughKept(g2, g, s, ds');
    }
  }

  /** Marking the endpoints of a laid-out maze keeps its walls, its doors and
      its obstacles. In perfect mode, when the end is a room, the rooms left
      EMPTY plus the start and the exit are one more than the doors. */
  lemma MarkEnds(g1: Grid, g: Grid, s: Pos, e: Pos)
    requires Opened(g1, g) && InBounds(g1, s) && InBounds(g1, e) && IsLogical(s) && IsLogical(e)
    ensures var r := Put(Put(g, s, START), e, EXIT);
            && SameShape(g1, r)
            && forall q :: InBounds(g1, q) && !IsLogical(q) ==> At(r, q) == At(g, q)
    ensures Rooms(g) == Doors(g) + 1 && Room(g, s) && Room(g, e) ==>
              var r := Put(Put(g, s, START), e, EXIT);
              Rooms(r) + |{s, e}| == Doors(r) + 1
  {
    var g4 := Put(g, s, START);
    var r := Put(g4, e, EXIT);
    if Rooms(g) == Doors(g) + 1 && Room(g, s) && Room(g, e) {
      GridSumUpdate(g, s, START, RoomWeight);
      GridSumUpdate(g, s, START, DoorWeight);
      GridSumUpdate(g4, e, EXIT, RoomWeight);
      GridSumUpdate(g4, e, EXIT, DoorWeight);
      if s == e {
        assert {s, e} == {s};
      }
    }
  }

  /** An open logical cell of the marked maze: a room, the start or the exit. */
  predicate Lit(r: Grid, q: Pos) {
    InBounds(r, q) && IsLogical(q) && (At(r, q) == EMPTY || At(r, q) == START || At(r, q) == EXIT)
  }

  /** The marked maze is a tree grown from `s`: every open door leads from a
      logical cell to an open logical cell, and every open logical cell other
      than the exit is reached from `s` through open doors. */
  ghost predicate MarkedTree(r: Grid, s: Pos, e: Pos) {
    && (forall c, d ::
          (&& IsLogical(c) && InBounds(r, c) && InBounds(r, Step(c, d, 1)) && InBounds(r, Step(c, d, 2))
           && At(r, Step(c, d, 1)) == EMPTY)
          ==> Lit(r, Step(c, d, 2)))
    && (forall q :: Lit(r, q) && q != e ==> exists ds :: Allowed(s, ds, 2, Through(r)) && Dest(s, ds, 2) == q)
  }

  /** Marking the endpoints of a tree of rooms grown from the start keeps it a
      tree: doors still lead to open cells, and walks through doors survive. */
  lemma MarkTree(g: Grid, s: Pos, e: Pos)
    requires InBounds(g, s) && InBounds(g, e) && IsLogical(s) && IsLogical(e)
    requires Joined(g) && forall q :: InBounds(g, q) ==> At(g, q) != START && At(g, q) != EXIT
    requires forall q :: q in RoomSet(g) ==> exists ds :: Allowed(s, ds, 2, Through(g)) && Dest(s, ds, 2) == q
    ensures MarkedTree(Put(Put(g, s, START), e, EXIT), s, e)
  {
    var r := Put(Put(g, s, START), e, EXIT);
    assert forall q :: InBounds(g, q) && !IsLogical(q) ==> At(r, q) == At(g, q);
    forall c, d | && IsLogical(c) && InBounds(r, c) && InBounds(r, Step(c, d, 1)) && InBounds(r, Step(c, d, 2))
                  && At(r, Step(c, d, 1)) == EMPTY
      ensures Lit(r, Step(c, d, 2))
    {
      MoveParity(c, d);
      assert At(g, Step(c, d, 1)) == EMPTY;
    }
    forall q | Lit(r, q) && q != e
      ensures exists ds :: Allowed(s, ds, 2, Through(r)) && Dest(s, ds, 2) == q
    {
      if q == s {
        assert Trace(s, [], 2) == [s];
        assert Allowed(s, [], 2, Through(r)) && Dest(s, [], 2) == s;
      } else {
        assert q in RoomSet(g);
        var ds :| Allowed(s, ds, 2, Through(g)) && Dest(s, ds, 2) == q;
        ThroughKept(g, r, s, ds);
      }
    }
  }

  /** One cell of the marked maze: on the frame it is WALL when the stamped
      grid was, and it is OBSTACLE exactly when the stamped grid was. */
  lemma MarkedCell(g0: Grid, g: Grid, s: Pos, e: Pos, q: Pos)
    requires InBounds(g0, s) && InBounds(g0, e) && InBounds(g0, q)
    requires At(g0, s) != OBSTACLE && At(g0, e) != OBSTACLE
    requires Opened(Put(g0, s, EMPTY), g)
    ensures var r := Put(Put(g, s, START), e, EXIT);
            && InBounds(r, q)
            && (At(r, q) == OBSTACLE <==> At(g0, q) == OBSTACLE)
            && (q != s && q != e && !Interior(g0, q) ==> At(r, q) == At(g0, q))
  {
    var g1 := Put(g0, s, EMPTY);
    assert InBounds(g1, q);
  }

  /** The frame and the obstacles of the marked maze are those of the stamped grid. */
  lemma MarkedCells(g0: Grid, g: Grid, s: Pos, e: Pos)
    requires Framed(g0) && Interior(g0, s) && Interior(g0, e)
    requires At(g0, s) != OBSTACLE && At(g0, e) != OBSTACLE
    requires Opened(Put(g0, s, EMPTY), g)
    ensures var r := Put(Put(g, s, START), e, EXIT);
            && IsRect(r, |g0|, |g0[0]|)
            && (forall q :: InBounds(r, q) && OnFrame(r, q) ==> At(r, q) == WALL)
            && (forall q :: InBounds(r, q) ==> (At(r, q) == OBSTACLE <==> At(g0, q) == OBSTACLE))
  {
    var r := Put(Put(g, s, START), e, EXIT);
    forall q | InBounds(r, q)
      ensures OnFrame(r, q) ==> At(r, q) == WALL
      ensures At(r, q) == OBSTACLE <==> At(g0, q) == OBSTACLE
    {
      MarkedCell(g0, g, s, e, q);
    }
  }

  /** The success path of `maze_gen` on the stamped grid `g0`, once both
      endpoints are valid: lay the maze out from `s`, then mark `s` START and
      `e` EXIT. */
  method Build(g0: Grid, s: Pos, e: Pos, perfect: bool, draws: nat -> nat) returns (r: Grid)
    requires OddRect(g0) && Blank(g0) && IsLogical(s) && IsLogical(e)
    requires Interior(g0, s) && Interior(g0, e) && At(g0, s) != OBSTACLE && At(g0, e) != OBSTACLE
    ensures IsRect(r, |g0|, |g0[0]|)
    ensures At(r, e) == EXIT
    ensures s != e ==> At(r, s) == START
    ensures forall q :: InBounds(r, q) && OnFrame(r, q) ==> At(r, q) == WALL
    ensures forall q :: InBounds(r, q) ==> (At(r, q) == OBSTACLE <==> At(g0, q) == OBSTACLE)
    ensures forall ds :: Allowed(s, ds, 2, Free(g0)) ==>
              exists ds' :: Allowed(s, ds', 2, Through(r)) && Dest(s, ds', 2) == Dest(s, ds, 2)
    ensures perfect ==> MarkedTree(r, s, e)
    ensures perfect && Reaches(g0, s, e) ==> Rooms(r) + |{s, e}| == Doors(r) + 1
  {
    BlankBase(g0, s);
    var g := Layout(g0, s, perfect, draws);
    var g1 := Put(g0, s, EMPTY);
    if perfect {
      assert forall q :: InBounds(g, q) ==> At(g, q) != START && At(g, q) != EXIT by {
        forall q | InBounds(g, q)
          ensures At(g, q) != START && At(g, q) != EXIT
        {
          assert InBounds(g1, q);
        }
      }
      MarkTree(g, s, e);
    }
    MarkEnds(g1, g, s, e);
    MarkedCells(g0, g, s, e);
    r := Put(Put(g, s, START), e, EXIT);
    EndsKeepWalks(g0, g, r, s);
    if perfect && Reaches(g0, s, e) {
      ReachedRoom(g0, g, s, e);
    }
  }

  /** Walks through open doors survive marking the endpoints. */
  lemma EndsKeepWalks(g0: Grid, g: Grid, r: Grid, s: Pos)
    requires IsLogical(s) && SameShape(g, r)
    requires forall q :: InBounds(g, q) && !IsLogical(q) ==> At(r, q) == At(g, q)
    requires forall ds :: Allowed(s, ds, 2, Free(g0)) ==>
               exists ds' :: Allowed(s, ds', 2, Through(g)) && Dest(s, ds', 2) == Dest(s, ds, 2)
    ensures forall ds :: Allowed(s, ds, 2, Free(g0)) ==>
              exists ds' :: Allowed(s, ds', 2, Through(r)) && Dest(s, ds', 2) == Dest(s, ds, 2)
  {
    forall ds | Allowed(s, ds, 2, Free(g0))
      ensures exists ds' :: Allowed(s, ds', 2, Through(r)) && Dest(s, ds', 2) == Dest(s, ds, 2)
    {
      var ds' :| Allowed(s, ds', 2, Through(g)) && Dest(s, ds', 2) == Dest(s, ds, 2);
      ThroughKept(g, r, s, ds');
    }
  }

  /** A reachable end is a room of a maze in which every free walk ends in a room. */
  lemma ReachedRoom(g0: Grid, g: Grid, s: Pos, e: Pos)
    requires Reaches(g0, s, e)
    requires forall ds :: Allowed(s, ds, 2, Free(g0)) ==> Room(g, Dest(s, ds, 2))
    ensures Room(g, e)
  {
    var ds :| Allowed(s, ds, 2, Free(g0)) && Dest(s, ds, 2) == e;
  }

  /** The four checks `maze_gen` makes before it carves, in its order: the
      end against the bounds, the start against the bounds, then the start and
      the end against the stamp's obstacles. */
  method Validate(m: MazeGenerator) returns (f: Option<Failure>)
    requires m.height >= 2 && m.width >= 2
    ensures var s, e := StartCell(m), EndCell(m);
            f.Some? <==> (|| Outside(e, m.height, m.width) || Outside(s, m.height, m.width)
                          || At(Stamped(m.height, m.width), s) == OBSTACLE
                          || At(Stamped(m.height, m.width), e) == OBSTACLE)
    ensures var s, e := StartCell(m), EndCell(m);
            f.Some? ==> f.value == (if Outside(e, m.height, m.width) then InvalidEndCoordinate
                                    else if Outside(s, m.height, m.width) then InvalidStartCoordinate
                                    else if At(Stamped(m.height, m.width), s) == OBSTACLE then InvalidStartCoordinate
                                    else InvalidEndCoordinate)
  {
    var h, w := m.height, m.width;
    var s, e := StartCell(m), EndCell(m);
    if Outside(e, h, w) {
      return Some(InvalidEndCoordinate);
    }
    if Outside(s, h, w) {
      return Some(InvalidStartCoordinate);
    }
    var g0 := Stamped(h, w);
    if At(g0, s) == OBSTACLE {
      return Some(InvalidStartCoordinate);
    }
    if At(g0, e) == OBSTACLE {
      return Some(InvalidEndCoordinate);
    }
    return None;
  }

  /** `maze_gen`. The end is checked against the bounds before the start,
      both before the stamp; then the start, then the end, must miss the
      obstacles. The start is opened, the tree carved from it (braided and
      cleaned up in imperfect mode), and the start marked START and the end
      EXIT. The frame stays WALL, the obstacles are exactly the stamp's, every
      cell a free walk from the start reaches is reached through open doors,
      and a perfect maze is a tree grown from the start, which counts one
      open logical cell more than doors when its end is reachable. */
  method MazeGen(m: MazeGenerator, draws: nat -> nat) returns (r: Result<Grid>)
    requires m.height >= 2 && m.width >= 2
    ensures var s, e := StartCell(m), EndCell(m);
            r.Err? <==> (|| Outside(e, m.height, m.width) || Outside(s, m.height, m.width)
                         || At(Stamped(m.height, m.width), s) == OBSTACLE
                         || At(Stamped(m.height, m.width), e) == OBSTACLE)
    ensures var s, e := StartCell(m), EndCell(m);
            r.Err? ==> r.failure == (if Outside(e, m.height, m.width) then InvalidEndCoordinate
                                     else if Outside(s, m.height, m.width) then InvalidStartCoordinate
                                     else if At(Stamped(m.height, m.width), s) == OBSTACLE then InvalidStartCoordinate
                                     else InvalidEndCoordinate)
    ensures r.Ok? ==> IsRect(r.value, 2 * m.height + 1, 2 * m.width + 1)
    ensures r.Ok? ==> At(r.value, EndCell(m)) == EXIT
    ensures r.Ok? && StartCell(m) != EndCell(m) ==> At(r.value, StartCell(m)) == START
    ensures r.Ok? ==> forall q :: InBounds(r.value, q) && OnFrame(r.value, q) ==> At(r.value, q) == WALL
    ensures r.Ok? ==> forall q :: InBounds(r.value, q) ==>
              (At(r.value, q) == OBSTACLE <==> At(Stamped(m.height, m.width), q) == OBSTACLE)
    ensures r.Ok? ==> forall ds :: Allowed(StartCell(m), ds, 2, Free(Stamped(m.height, m.width))) ==>
              exists ds' :: && Allowed(StartCell(m), ds', 2, Through(r.value))
                            && Dest(StartCell(m), ds', 2) == Dest(StartCell(m), ds, 2)
    ensures r.Ok? && m.perfect ==> MarkedTree(r.value, StartCell(m), EndCell(m))
    ensures r.Ok? && m.perfect && Reaches(Stamped(m.height, m.width), StartCell(m), EndCell(m)) ==>
              Rooms(r.value) + |{StartCell(m), EndCell(m)}| == Doors(r.value) + 1
  {
    var f := Validate(m);
    if f.Some? {
      return Err(f.value);
    }
    StampedReady(m.height, m.width, StartCell(m), EndCell(m));
    var g := Build(Stamped(m.height, m.width), StartCell(m), EndCell(m), m.perfect, draws);
    r := Ok(g);
  }
}

=== FILE: grid.dfy ===
/** Failures the maze code raises as `ValueError` or `IndexError`. */
module Results {

  datatype Failure =
    | InvalidEndCoordinate
    | InvalidStartCoordinate
    | PopFromEmptyList

  datatype Result<+T> = Ok(value: T) | Err(failure: Failure)

  datatype Option<+T> = None | Some(value: T)
}

/**
 The shared fine grid: a rectangle of integer cell codes. Logical cells sit at
 odd/odd coordinates, the cells between them are walls or passages.
 */
module Grids {

  const WALL: int := 0
  const EMPTY: int := 1
  const FIND: int := 3
  const PATH: int := 4
  /** The obstacle code of the "42" stamp; it has no name in the cell enumeration. */
  const OBSTACLE: int := 5
  const START: int := 6
  const EXIT: int := 7

  type Grid = seq<seq<int>>

  datatype Pos = Pos(row: int, col: int)

  predicate IsRect<T>(g: seq<seq<T>>, h: int, w: int) {
    |g| == h && forall r :: 0 <= r < |g| ==> |g[r]| == w
  }

  predicate SameShape<T, U>(g: seq<seq<T>>, g': seq<seq<U>>) {
    |g'| == |g| && forall r :: 0 <= r < |g| ==> |g'[r]| == |g[r]|
  }

  predicate InBounds<T>(g: seq<seq<T>>, p: Pos) {
    0 <= p.row < |g| && 0 <= p.col < |g[p.row]|
  }

  function At<T>(g: seq<seq<T>>, p: Pos): T
    requires InBounds(g, p)
  {
    g[p.row][p.col]
  }

  /** The grid with the one cell `p` overwritten by `v`. */
  function Put<T>(g: seq<seq<T>>, p: Pos, v: T): (g': seq<seq<T>>)
    requires InBounds(g, p)
    ensures SameShape(g, g')
    ensures At(g', p) == v
    ensures forall q :: InBounds(g, q) && q != p ==> At(g', q) == At(g, q)
  {
    g[p.row := g[p.row][p.col := v]]
  }

  /** A `h` by `w` grid holding `v` everywhere. */
  function Filled<T>(h: nat, w: nat, v: T): (g: seq<seq<T>>)
    ensures IsRect(g, h, w)
    ensures forall q :: InBounds(g, q) ==> At(g, q) == v
  {
    seq(h, _ => seq(w, _ => v))
  }

  /** Every position of an `h` by `w` grid. */
  function Cells(h: int, w: int): (s: set<Pos>)
    ensures forall p :: p in s <==> 0 <= p.row < h && 0 <= p.col < w
  {
    set r, c | 0 <= r < h && 0 <= c < w :: Pos(r, c)
  }

  predicate IsLogical(p: Pos) {
    p.row % 2 == 1 && p.col % 2 == 1
  }

  predicate OnFrame<T>(g: seq<seq<T>>, p: Pos)
    requires InBounds(g, p)
  {
    p.row == 0 || p.row == |g| - 1 || p.col == 0 || p.col == |g[p.row]| - 1
  }

  predicate Interior<T>(g: seq<seq<T>>, p: Pos) {
    0 < p.row < |g| - 1 && 0 < p.col < |g[p.row]| - 1
  }

  /** A non-empty rectangular grid whose outer frame is all WALL. */
  ghost predicate Framed(g: Grid) {
    && |g| >= 1
    && IsRect(g, |g|, |g[0]|)
    && forall p :: InBounds(g, p) && OnFrame(g, p) ==> At(g, p) == WALL
  }

  /** The cells a solver may stand on: in bounds and not WALL. */
  function NonWall(g: Grid): Pos -> bool {
    (p: Pos) => InBounds(g, p) && At(g, p) != WALL
  }

  /** Orthogonal neighbours. */
  predicate Adjacent(a: Pos, b: Pos) {
    || (a.row == b.row && (a.col == b.col + 1 || a.col + 1 == b.col))
    || (a.col == b.col && (a.row == b.row + 1 || a.row + 1 == b.row))
  }

  /** Logical (row, col) to fine coordinates with the row and column swapped,
      as the generator and the package's DFS solver read their tuples. */
  function FineSwapped(a: int, b: int): (p: Pos)
    ensures IsLogical(p)
    ensures a >= 0 && b >= 0 ==> p.row >= 1 && p.col >= 1
    ensures (p.col - 1) / 2 == a && (p.row - 1) / 2 == b
  {
    Pos(2 * b + 1, 2 * a + 1)
  }

  /** Logical (row, col) to fine coordinates without a swap, as A* reads its tuples. */
  function FineDirect(a: int, b: int): (p: Pos)
    ensures IsLogical(p)
    ensures a >= 0 && b >= 0 ==> p.row >= 1 && p.col >= 1
    ensures (p.row - 1) / 2 == a && (p.col - 1) / 2 == b
  {
    Pos(2 * a + 1, 2 * b + 1)
  }

  /** Two grids of one shape that agree on which cells outside the logical
      cells are WALL: they have the same walls and passages. */
  ghost predicate SamePassages(g: Grid, g': Grid) {
    && SameShape(g, g')
    && forall q :: InBounds(g, q) && !IsLogical(q) ==> (At(g', q) == WALL <==> At(g, q) == WALL)
  }

  // ---------------------------------------------------------------------------
  // Weighted counting over a grid, used for termination measures and for the
  // edge/vertex count of a carved maze.

  function RowSum<T>(row: seq<T>, r: int, w: (int, int, T) -> nat): nat
    decreases |row|
  {
    if |row| == 0 then 0
    else RowSum(row[..|row| - 1], r, w) + w(r, |row| - 1, row[|row| - 1])
  }

  function GridSum<T>(g: seq<seq<T>>, w: (int, int, T) -> nat): nat
    decreases |g|
  {
    if |g| == 0 then 0
    else GridSum(g[..|g| - 1], w) + RowSum(g[|g| - 1], |g| - 1, w)
  }

  lemma {:induction false} RowSumUpdate<T>(row: seq<T>, r: int, c: int, x: T, w: (int, int, T) -> nat)
    requires 0 <= c < |row|
    ensures RowSum(row[c := x], r, w) + w(r, c, row[c]) == RowSum(row, r, w) + w(r, c, x)
    decreases |row|
  {
    var n := |row| - 1;
    if c == n {
      assert row[c := x][..n] == row[..n];
    } else {
      assert row[c := x][..n] == row[..n][c := x];
      RowSumUpdate(row[..n], r, c, x, w);
    }
  }

  /** Overwriting one cell moves the sum by exactly the change in that cell's weight. */
  lemma {:induction false} GridSumUpdate<T>(g: seq<seq<T>>, p: Pos, x: T, w: (int, int, T) -> nat)
    requires InBounds(g, p)
    ensures GridSum(Put(g, p, x), w) + w(p.row, p.col, At(g, p)) == GridSum(g, w) + w(p.row, p.col, x)
    decreases |g|
  {
    var n := |g| - 1;
    var g' := Put(g, p, x);
    if p.row == n {
      assert g'[..n] == g[..n];
      RowSumUpdate(g[n], n, p.col, x, w);
    } else {
      assert g'[..n] == Put(g[..n], p, x);
      GridSumUpdate(g[..n], p, x, w);
    }
  }

  lemma {:induction false} RowSumZero<T>(row: seq<T>, r: int, w: (int, int, T) -> nat)
    requires forall c :: 0 <= c < |row| ==> w(r, c, row[c]) == 0
    ensures RowSum(row, r, w) == 0
    decreases |row|
  {
    if |row| > 0 {
      RowSumZero(row[..|row| - 1], r, w);
    }
  }

  /** A grid on which every cell weighs nothing sums to zero. */
  lemma {:induction false} GridSumZero<T>(g: seq<seq<T>>, w: (int, int, T) -> nat)
    requires forall q :: InBounds(g, q) ==> w(q.row, q.col, At(g, q)) == 0
    ensures GridSum(g, w) == 0
    decreases |g|
  {
    if |g| > 0 {
      var n := |g| - 1;
      forall c | 0 <= c < |g[n]|
        ensures w(n, c, g[n][c]) == 0
      {
        assert InBounds(g, Pos(n, c));
      }
      RowSumZero(g[n], n, w);
      forall q | InBounds(g[..n], q)
        ensures w(q.row, q.col, At(g[..n], q)) == 0
      {
        assert InBounds(g, q);
      }
      GridSumZero(g[..n], w);
    }
  }
}

=== FILE: hex.dfy ===
/**
 The hexadecimal export of a maze (`convert_hex_maze` in mazegen/__init__.py):
 one upper-case hex digit per logical cell, one line per logical row. Bit 1
 marks a wall to the north, 2 to the east, 4 to the south and 8 to the west.
 */
module HexCodec {
  import opened Grids
  import opened Walks

  const HexDigits: string := "0123456789ABCDEF"

  /** The weight of the wall on side `d` of a cell. */
  function SideBit(d: Dir): nat {
    match d
    case N => 1
    case E => 2
    case S => 4
    case W => 8
  }

  /** Whether the code `v` carries the wall bit of side `d`. */
  predicate HasBit(v: int, d: Dir) {
    (v / SideBit(d)) % 2 == 1
  }

  /** `format(value, "X")` for a value below 16. */
  function Digit(v: nat): char
    requires v < 16
  {
    HexDigits[v]
  }

  /** The value of an upper-case hex digit, or -1 for any other character. */
  function DigitValue(c: char): (v: int)
    ensures -1 <= v < 16
    ensures v >= 0 ==> HexDigits[v] == c
  {
    if '0' <= c <= '9' then c as int - '0' as int
    else if 'A' <= c <= 'F' then c as int - 'A' as int + 10
    else -1
  }

  /** Reading back a written digit gives the value written. */
  lemma DigitRoundTrip(v: nat)
    requires v < 16
    ensures DigitValue(Digit(v)) == v
  {
  }

  /** The four sides of a logical cell lie inside the grid. */
  predicate SidesInside(g: Grid, p: Pos) {
    0 < p.row < |g| - 1 && 0 < p.col && p.col + 1 < |g[p.row]| && |g[p.row - 1]| > p.col && |g[p.row + 1]| > p.col
  }

  function Wall(g: Grid, p: Pos, d: Dir): bool
    requires SidesInside(g, p)
  {
    At(g, Step(p, d, 1)) == WALL
  }

  function Weight(b: bool, bit: nat): nat {
    if b then bit else 0
  }

  /** The code of one cell: its wall bits, OR-ed together. */
  function CellCode(g: Grid, p: Pos): (v: nat)
    requires SidesInside(g, p)
    ensures v < 16
    ensures forall d :: HasBit(v, d) <==> Wall(g, p, d)
  {
    var n, e, s, w := Wall(g, p, N), Wall(g, p, E), Wall(g, p, S), Wall(g, p, W);
    var v := Weight(n, 1) + Weight(e, 2) + Weight(s, 4) + Weight(w, 8);
    assert forall d :: HasBit(v, d) <==> Wall(g, p, d) by {
      forall d
        ensures HasBit(v, d) <==> Wall(g, p, d)
      {
        BitsOfCode(n, e, s, w);
      }
    }
    v
  }

  /** The four wall weights sum to a code whose bits are exactly the four walls. */
  lemma BitsOfCode(n: bool, e: bool, s: bool, w: bool)
    ensures var v := Weight(n, 1) + Weight(e, 2) + Weight(s, 4) + Weight(w, 8);
            && (HasBit(v, N) <==> n) && (HasBit(v, E) <==> e)
            && (HasBit(v, S) <==> s) && (HasBit(v, W) <==> w)
  {
  }

  /** The `h` by `w` maze whose fine grid this is. */
  predicate Encodable(g: Grid, h: nat, w: nat) {
    IsRect(g, 2 * h + 1, 2 * w + 1)
  }

  lemma EncodableSides(g: Grid, h: nat, w: nat, i: int, j: int)
    requires Encodable(g, h, w) && 0 <= i < h && 0 <= j < w
    ensures SidesInside(g, FineDirect(i, j))
  {
  }

  /** One output line: the digits of logical row `i`. */
  function EncodeRow(g: Grid, h: nat, w: nat, i: nat): (line: string)
    requires Encodable(g, h, w) && i < h
    ensures |line| == w
    ensures forall j :: 0 <= j < w ==> line[j] in HexDigits
    ensures forall j, d :: 0 <= j < w ==>
              (HasBit(DigitValue(line[j]), d) <==> (EncodableSides(g, h, w, i, j); Wall(g, FineDirect(i, j), d)))
  {
    var line := seq(w, j requires 0 <= j < w => (EncodableSides(g, h, w, i, j); Digit(CellCode(g, FineDirect(i, j)))));
    assert forall j :: 0 <= j < w ==> DigitValue(line[j]) == (EncodableSides(g, h, w, i, j); CellCode(g, FineDirect(i, j))) by {
      forall j | 0 <= j < w
        ensures DigitValue(line[j]) == (EncodableSides(g, h, w, i, j); CellCode(g, FineDirect(i, j)))
      {
        EncodableSides(g, h, w, i, j);
        DigitRoundTrip(CellCode(g, FineDirect(i, j)));
      }
    }
    line
  }

  /** `convert_hex_maze`: one line per logical row, one digit per logical cell. */
  function ConvertHexMaze(g: Grid, h: nat, w: nat): (lines: seq<string>)
    requires Encodable(g, h, w)
    ensures |lines| == h
    ensures forall i :: 0 <= i < h ==> |lines[i]| == w
    ensures forall i, j :: 0 <= i < h && 0 <= j < w ==> lines[i][j] in HexDigits
    ensures forall i, j, d :: 0 <= i < h && 0 <= j < w ==>
              (HasBit(DigitValue(lines[i][j]), d) <==> (EncodableSides(g, h, w, i, j); Wall(g, FineDirect(i, j), d)))
  {
    seq(h, i requires 0 <= i < h => EncodeRow(g, h, w, i))
  }

  /** Neighbouring cells agree on the wall they share: a cell's east bit is the
      west bit of the cell to its right, and its south bit the north bit of the
      cell below. */
  lemma SharedWalls(g: Grid, h: nat, w: nat, i: nat, j: nat)
    requires Encodable(g, h, w) && i < h && j < w
    ensures j + 1 < w ==> (HasBit(DigitValue(ConvertHexMaze(g, h, w)[i][j]), E) <==> HasBit(DigitValue(ConvertHexMaze(g, h, w)[i][j + 1]), W))
    ensures i + 1 < h ==> (HasBit(DigitValue(ConvertHexMaze(g, h, w)[i][j]), S) <==> HasBit(DigitValue(ConvertHexMaze(g, h, w)[i + 1][j]), N))
  {
    EncodableSides(g, h, w, i, j);
    if j + 1 < w {
      EncodableSides(g, h, w, i, j + 1);
      assert Step(FineDirect(i, j), E, 1) == Step(FineDirect(i, j + 1), W, 1);
    }
    if i + 1 < h {
      EncodableSides(g, h, w, i + 1, j);
      assert Step(FineDirect(i, j), S, 1) == Step(FineDirect(i + 1, j), N, 1);
    }
  }

  /** Two fine grids with the same wall cells around every logical cell. */
  ghost predicate SameSides(g: Grid, g': Grid, h: nat, w: nat)
    requires Encodable(g, h, w) && Encodable(g', h, w)
  {
    forall i, j, d :: 0 <= i < h && 0 <= j < w ==>
      (EncodableSides(g, h, w, i, j); EncodableSides(g', h, w, i, j); Wall(g, FineDirect(i, j), d) == Wall(g', FineDirect(i, j), d))
  }

  /** The encoding loses exactly the markers: two grids encode alike if and
      only if they have the same walls around every logical cell. */
  lemma {:induction false} EncodingIffSameSides(g: Grid, g': Grid, h: nat, w: nat)
    requires Encodable(g, h, w) && Encodable(g', h, w)
    ensures ConvertHexMaze(g, h, w) == ConvertHexMaze(g', h, w) <==> SameSides(g, g', h, w)
  {
    var a, b := ConvertHexMaze(g, h, w), ConvertHexMaze(g', h, w);
    if SameSides(g, g', h, w) {
      forall i | 0 <= i < h
        ensures a[i] == b[i]
      {
        forall j | 0 <= j < w
          ensures a[i][j] == b[i][j]
        {
          EncodableSides(g, h, w, i, j);
          EncodableSides(g', h, w, i, j);
          var p := FineDirect(i, j);
          assert forall d :: Wall(g, p, d) == Wall(g', p, d);
          assert CellCode(g, p) == CellCode(g', p);
        }
      }
    }
  }

  /** Markers never reach the encoding: grids with the same passages encode alike. */
  lemma SamePassagesSameEncoding(g: Grid, g': Grid, h: nat, w: nat)
    requires Encodable(g, h, w) && SamePassages(g, g')
    ensures Encodable(g', h, w)
    ensures ConvertHexMaze(g', h, w) == ConvertHexMaze(g, h, w)
  {
    assert |g'[0]| == |g[0]|;
    forall i, j, d | 0 <= i < h && 0 <= j < w
      ensures (EncodableSides(g, h, w, i, j); EncodableSides(g', h, w, i, j); Wall(g, FineDirect(i, j), d) == Wall(g', FineDirect(i, j), d))
    {
      EncodableSides(g, h, w, i, j);
      var q := Step(FineDirect(i, j), d, 1);
      assert InBounds(g, q) && !IsLogical(q);
    }
    EncodingIffSameSides(g, g', h, w);
  }

  /** The wall cell on side `d` of logical cell (i, j) as rebuilt from the
      digits: north and west sides come from the cell itself, and the last row
      and column also supply the south and east border. */
  function DecodedCell(lines: seq<string>, h: nat, w: nat, r: int, c: int): int
    requires h >= 1 && w >= 1 && |lines| == h && forall i :: 0 <= i < h ==> |lines[i]| == w
    requires 0 <= r <= 2 * h && 0 <= c <= 2 * w
  {
    if r % 2 == 1 && c % 2 == 1 then EMPTY
    else if r % 2 == 0 && c % 2 == 0 then WALL
    else if r % 2 == 0 then
      var j := (c - 1) / 2;
      var bit := if r < 2 * h then HasBit(DigitValue(lines[r / 2][j]), N) else HasBit(DigitValue(lines[h - 1][j]), S);
      if bit then WALL else EMPTY
    else
      var i := (r - 1) / 2;
      var bit := if c < 2 * w then HasBit(DigitValue(lines[i][c / 2]), W) else HasBit(DigitValue(lines[i][w - 1]), E);
      if bit then WALL else EMPTY
  }

  /** The reading of the digit stream back into a fine grid: logical cells
      EMPTY, corners WALL, and each side cell WALL exactly when its bit is set. */
  function Decode(lines: seq<string>, h: nat, w: nat): (g: Grid)
    requires h >= 1 && w >= 1 && |lines| == h && forall i :: 0 <= i < h ==> |lines[i]| == w
    ensures Encodable(g, h, w)
    ensures forall i, j :: 0 <= i < h && 0 <= j < w ==> At(g, FineDirect(i, j)) == EMPTY
  {
    seq(2 * h + 1, r requires 0 <= r <= 2 * h => seq(2 * w + 1, c requires 0 <= c <= 2 * w => DecodedCell(lines, h, w, r, c)))
  }

  /** Decoding the encoding rebuilds every wall around every logical cell. */
  lemma DecodeRoundTrip(g: Grid, h: nat, w: nat)
    requires Encodable(g, h, w) && h >= 1 && w >= 1
    ensures SameSides(Decode(ConvertHexMaze(g, h, w), h, w), g, h, w)
    ensures ConvertHexMaze(Decode(ConvertHexMaze(g, h, w), h, w), h, w) == ConvertHexMaze(g, h, w)
  {
    var lines := ConvertHexMaze(g, h, w);
    var g' := Decode(lines, h, w);
    forall i, j, d | 0 <= i < h && 0 <= j < w
      ensures (EncodableSides(g', h, w, i, j); EncodableSides(g, h, w, i, j); Wall(g', FineDirect(i, j), d) == Wall(g, FineDirect(i, j), d))
    {
      EncodableSides(g', h, w, i, j);
      EncodableSides(g, h, w, i, j);
      SideRoundTrip(g, h, w, i, j, d);
    }
    EncodingIffSameSides(g', g, h, w);
  }

  /** Well-formed digit lines: `h` rows of `w` digits. */
  predicate Lines(lines: seq<string>, h: nat, w: nat) {
    h >= 1 && w >= 1 && |lines| == h && forall k :: 0 <= k < h ==> |lines[k]| == w
  }

  /** The cell (r, c) of the decoded grid is the one `DecodedCell` rebuilds. */
  lemma DecodeAt(lines: seq<string>, h: nat, w: nat, r: int, c: int)
    requires Lines(lines, h, w) && 0 <= r <= 2 * h && 0 <= c <= 2 * w
    ensures InBounds(Decode(lines, h, w), Pos(r, c))
    ensures At(Decode(lines, h, w), Pos(r, c)) == DecodedCell(lines, h, w, r, c)
  {
  }

  lemma DecodedNorth(lines: seq<string>, h: nat, w: nat, i: nat, j: nat)
    requires Lines(lines, h, w) && i < h && j < w
    ensures InBounds(Decode(lines, h, w), Pos(2 * i, 2 * j + 1))
    ensures At(Decode(lines, h, w), Pos(2 * i, 2 * j + 1)) == WALL <==> HasBit(DigitValue(lines[i][j]), N)
  {
    DecodeAt(lines, h, w, 2 * i, 2 * j + 1);
    assert (2 * i) / 2 == i && (2 * j + 1 - 1) / 2 == j;
  }

  lemma DecodedWest(lines: seq<string>, h: nat, w: nat, i: nat, j: nat)
    requires Lines(lines, h, w) && i < h && j < w
    ensures InBounds(Decode(lines, h, w), Pos(2 * i + 1, 2 * j))
    ensures At(Decode(lines, h, w), Pos(2 * i + 1, 2 * j)) == WALL <==> HasBit(DigitValue(lines[i][j]), W)
  {
    DecodeAt(lines, h, w, 2 * i + 1, 2 * j);
    assert (2 * j) / 2 == j && (2 * i + 1 - 1) / 2 == i;
  }

  lemma DecodedSouth(lines: seq<string>, h: nat, w: nat, i: nat, j: nat)
    requires Lines(lines, h, w) && i < h && j < w
    ensures InBounds(Decode(lines, h, w), Pos(2 * i + 2, 2 * j + 1))
    ensures At(Decode(lines, h, w), Pos(2 * i + 2, 2 * j + 1)) == WALL <==>
              if i + 1 < h then HasBit(DigitValue(lines[i + 1][j]), N) else HasBit(DigitValue(lines[i][j]), S)
  {
    DecodeAt(lines, h, w, 2 * i + 2, 2 * j + 1);
    assert (2 * i + 2) / 2 == i + 1 && (2 * j + 1 - 1) / 2 == j;
  }

  lemma DecodedEast(lines: seq<string>, h: nat, w: nat, i: nat, j: nat)
    requires Lines(lines, h, w) && i < h && j < w
    ensures InBounds(Decode(lines, h, w), Pos(2 * i + 1, 2 * j + 2))
    ensures At(Decode(lines, h, w), Pos(2 * i + 1, 2 * j + 2)) == WALL <==>
              if j + 1 < w then HasBit(DigitValue(lines[i][j + 1]), W) else HasBit(DigitValue(lines[i][j]), E)
  {
    DecodeAt(lines, h, w, 2 * i + 1, 2 * j + 2);
    assert (2 * j + 2) / 2 == j + 1 && (2 * i + 1 - 1) / 2 == i;
  }

  /** A decoded side cell is WALL exactly when the digit it is read from carries
      the bit of side `d`. */
  lemma DecodedSide(lines: seq<string>, h: nat, w: nat, i: nat, j: nat, d: Dir)
    requires Lines(lines, h, w) && i < h && j < w
    ensures var q := Step(FineDirect(i, j), d, 1);
            var g' := Decode(lines, h, w);
            && InBounds(g', q)
            && (At(g', q) == WALL <==>
                  if d == S && i + 1 < h then HasBit(DigitValue(lines[i + 1][j]), N)
                  else if d == E && j + 1 < w then HasBit(DigitValue(lines[i][j + 1]), W)
                  else HasBit(DigitValue(lines[i][j]), d))
  {
    var p := FineDirect(i, j);
    match d
    case N =>
      assert Step(p, d, 1) == Pos(2 * i, 2 * j + 1);
      DecodedNorth(lines, h, w, i, j);
    case W =>
      assert Step(p, d, 1) == Pos(2 * i + 1, 2 * j);
      DecodedWest(lines, h, w, i, j);
    case S =>
      assert Step(p, d, 1) == Pos(2 * i + 2, 2 * j + 1);
      DecodedSouth(lines, h, w, i, j);
    case E =>
      assert Step(p, d, 1) == Pos(2 * i + 1, 2 * j + 2);
      DecodedEast(lines, h, w, i, j);
  }

  /** `lines` carries, digit by digit, exactly the walls of `g`. */
  ghost predicate Encodes(lines: seq<string>, g: Grid, h: nat, w: nat) {
    && Encodable(g, h, w) && Lines(lines, h, w)
    && forall i, j, d :: 0 <= i < h && 0 <= j < w ==>
         (HasBit(DigitValue(lines[i][j]), d) <==> (EncodableSides(g, h, w, i, j); Wall(g, FineDirect(i, j), d)))
  }

  /** Decoding digits that carry the walls of `g` rebuilds the wall on side
      `d` of every logical cell. */
  lemma DecodedWall(lines: seq<string>, g: Grid, h: nat, w: nat, i: nat, j: nat, d: Dir)
    requires Encodes(lines, g, h, w) && i < h && j < w
    ensures (EncodableSides(g, h, w, i, j); EncodableSides(Decode(lines, h, w), h, w, i, j);
             Wall(Decode(lines, h, w), FineDirect(i, j), d) == Wall(g, FineDirect(i, j), d))
  {
    var q := Step(FineDirect(i, j), d, 1);
    EncodableSides(g, h, w, i, j);
    DecodedSide(lines, h, w, i, j, d);
    if d == S && i + 1 < h {
      EncodableSides(g, h, w, i + 1, j);
      assert q == Pos(2 * i + 2, 2 * j + 1) == Step(FineDirect(i + 1, j), N, 1);
      assert HasBit(DigitValue(lines[i + 1][j]), N) <==> Wall(g, FineDirect(i + 1, j), N);
    } else if d == E && j + 1 < w {
      EncodableSides(g, h, w, i, j + 1);
      assert q == Pos(2 * i + 1, 2 * j + 2) == Step(FineDirect(i, j + 1), W, 1);
      assert HasBit(DigitValue(lines[i][j + 1]), W) <==> Wall(g, FineDirect(i, j + 1), W);
    } else {
      assert HasBit(DigitValue(lines[i][j]), d) <==> Wall(g, FineDirect(i, j), d);
    }
  }

  lemma SideRoundTrip(g: Grid, h: nat, w: nat, i: nat, j: nat, d: Dir)
    requires Encodable(g, h, w) && h >= 1 && w >= 1 && i < h && j < w
    ensures (EncodableSides(g, h, w, i, j); EncodableSides(Decode(ConvertHexMaze(g, h, w), h, w), h, w, i, j);
             Wall(Decode(ConvertHexMaze(g, h, w), h, w), FineDirect(i, j), d) == Wall(g, FineDirect(i, j), d))
  {
    var lines := ConvertHexMaze(g, h, w);
    assert Encodes(lines, g, h, w);
    DecodedWall(lines, g, h, w, i, j, d);
  }
}

=== FILE: markers.dfy ===
/**
 Resetting the solver's markers (`clear_all` and `clear_path` in
 mazegen/__init__.py): cell rewrites that leave walls, obstacles and the two
 endpoint markers alone.
 */
module Markers {
  import opened Grids
  import opened HexCodec

  /** The code a cell keeps after `clear_all`. */
  function ClearedAll(v: int): int {
    if v == FIND || v == PATH then EMPTY else v
  }

  /** The code a cell keeps after `clear_path`. */
  function ClearedPath(v: int): int {
    if v == PATH then EMPTY else v
  }

  function MapCells(g: Grid, f: int -> int): (r: Grid)
    ensures SameShape(g, r)
    ensures forall p :: InBounds(g, p) ==> At(r, p) == f(At(g, p))
  {
    seq(|g|, i requires 0 <= i < |g| => seq(|g[i]|, j requires 0 <= j < |g[i]| => f(g[i][j])))
  }

  /** `clear_all`: every FIND and PATH cell becomes EMPTY. */
  function ClearAll(g: Grid): (r: Grid)
    ensures SameShape(g, r)
    ensures forall p :: InBounds(g, p) ==> At(r, p) != FIND && At(r, p) != PATH
    ensures forall p :: InBounds(g, p) && At(g, p) != FIND && At(g, p) != PATH ==> At(r, p) == At(g, p)
    ensures forall p :: InBounds(g, p) && (At(g, p) == FIND || At(g, p) == PATH) ==> At(r, p) == EMPTY
  {
    MapCells(g, ClearedAll)
  }

  /** `clear_path`: every PATH cell becomes EMPTY; FIND cells stay. */
  function ClearPath(g: Grid): (r: Grid)
    ensures SameShape(g, r)
    ensures forall p :: InBounds(g, p) ==> At(r, p) != PATH
    ensures forall p :: InBounds(g, p) && At(g, p) != PATH ==> At(r, p) == At(g, p)
    ensures forall p :: InBounds(g, p) && At(g, p) == PATH ==> At(r, p) == EMPTY
  {
    MapCells(g, ClearedPath)
  }

  /** Grids of one shape that agree on every cell are equal. */
  lemma {:induction false} SameCells(a: Grid, b: Grid)
    requires SameShape(a, b)
    requires forall p :: InBounds(a, p) ==> At(a, p) == At(b, p)
    ensures a == b
  {
    forall i | 0 <= i < |a|
      ensures a[i] == b[i]
    {
      forall j | 0 <= j < |a[i]|
        ensures a[i][j] == b[i][j]
      {
        assert InBounds(a, Pos(i, j));
      }
    }
  }

  lemma ClearAllIdempotent(g: Grid)
    ensures ClearAll(ClearAll(g)) == ClearAll(g)
  {
    SameCells(ClearAll(ClearAll(g)), ClearAll(g));
  }

  lemma ClearPathIdempotent(g: Grid)
    ensures ClearPath(ClearPath(g)) == ClearPath(g)
  {
    SameCells(ClearPath(ClearPath(g)), ClearPath(g));
  }

  /** Clearing the path first changes nothing `clear_all` would not do anyway. */
  lemma ClearAllAbsorbsClearPath(g: Grid)
    ensures ClearAll(ClearPath(g)) == ClearAll(g)
    ensures ClearPath(ClearAll(g)) == ClearAll(g)
  {
    SameCells(ClearAll(ClearPath(g)), ClearAll(g));
    SameCells(ClearPath(ClearAll(g)), ClearAll(g));
  }

  /** Neither reset touches a WALL cell, nor creates one, so the hex encoding
      of the maze is the same before and after. */
  lemma ResetKeepsEncoding(g: Grid, h: nat, w: nat)
    requires Encodable(g, h, w)
    ensures Encodable(ClearAll(g), h, w) && ConvertHexMaze(ClearAll(g), h, w) == ConvertHexMaze(g, h, w)
    ensures Encodable(ClearPath(g), h, w) && ConvertHexMaze(ClearPath(g), h, w) == ConvertHexMaze(g, h, w)
  {
    SamePassagesSameEncoding(g, ClearAll(g), h, w);
    SamePassagesSameEncoding(g, ClearPath(g), h, w);
  }
}

=== FILE: proto_dfs.dfy ===
/**
 The stand-alone prototype of the depth-first solver (root dfs_path.py). It
 works on a grid of cell glyphs, enters only white-square cells, never
 recolours anything and returns the moves of the route it finds.
 */
module ProtoDfs {
  import opened Grids
  import opened Walks
  import opened DfsCore

  /** The glyph of an open cell, U+2B1C WHITE LARGE SQUARE. */
  const OPEN: string := "\U{2B1C}"

  type GlyphGrid = seq<seq<string>>

  /** Every row is as long as the first one, which is the row the bounds test reads. */
  predicate Rectangular(g: GlyphGrid) {
    forall r :: 0 <= r < |g| ==> |g[r]| == |g[0]|
  }

  /** The cells the prototype may step onto: inside the grid and showing the open glyph. */
  function Open(g: GlyphGrid): Pos -> bool
    requires Rectangular(g)
  {
    (p: Pos) => 0 <= p.row < |g| && 0 <= p.col < |g[0]| && g[p.row][p.col] == OPEN
  }

  /** `solve`: a depth-first search from `start` that stops at the first
      popped `end`. The route returned walks open cells only, without repeats;
      an empty route from a start other than the end means the end is out of reach. */
  method Solve(g: GlyphGrid, start: Pos, end: Pos) returns (path: seq<Dir>)
    requires Rectangular(g)
    ensures start == end ==> path == []
    ensures path != [] ==> Route(start, end, path, Open(g))
    ensures path == [] && start != end ==> Unreachable(start, end, Open(g))
  {
    var h := |g|;
    var w := if h == 0 then 0 else |g[0]|;
    var expanded;
    path, expanded := Search(start, end, Open(g), Cells(h, w));
  }
}

=== FILE: stamp.dfy ===
/**
 The "42" obstacle stamp of the generator (`set_fourty_two` in
 mazegen/__init__.py): an 11 by 15 pattern of WALL and OBSTACLE cells written
 over the middle of grids large enough to hold it.
 */
module Stamp {
  import opened Grids

  /** The pattern, row by row, as the generator lists it. */
  const FortyTwo: seq<seq<int>> := [
    [0, 0, 0, 0, 0, 0, 0, 0, 0, 0, 0, 0, 0, 0, 0],
    [0, 5, 0, 0, 0, 0, 0, 0, 0, 5, 0, 5, 0, 5, 0],
    [0, 0, 0, 0, 0, 0, 0, 0, 0, 0, 0, 0, 0, 0, 0],
    [0, 5, 0, 0, 0, 0, 0, 0, 0, 0, 0, 0, 0, 5, 0],
    [0, 0, 0, 0, 0, 0, 0, 0, 0, 0, 0, 0, 0, 0, 0],
    [0, 5, 0, 5, 0, 5, 0, 0, 0, 5, 0, 5, 0, 5, 0],
    [0, 0, 0, 0, 0, 0, 0, 0, 0, 0, 0, 0, 0, 0, 0],
    [0, 0, 0, 0, 0, 5, 0, 0, 0, 5, 0, 0, 0, 0, 0],
    [0, 0, 0, 0, 0, 0, 0, 0, 0, 0, 0, 0, 0, 0, 0],
    [0, 0, 0, 0, 0, 5, 0, 0, 0, 5, 0, 5, 0, 5, 0],
    [0, 0, 0, 0, 0, 0, 0, 0, 0, 0, 0, 0, 0, 0, 0]
  ]

  const PatternHeight: int := 11
  const PatternWidth: int := 15

  /** The obstacles of the pattern as (row, column) pairs: a "4" on the left
      and a "2" on the right, each drawn with logical cells. */
  const Holes: set<(int, int)> := {
    (1, 1), (1, 9), (1, 11), (1, 13),
    (3, 1), (3, 13),
    (5, 1), (5, 3), (5, 5), (5, 9), (5, 11), (5, 13),
    (7, 5), (7, 9),
    (9, 5), (9, 9), (9, 11), (9, 13)
  }

  /** The pattern holds OBSTACLE exactly at the listed holes, WALL everywhere
      else, and every hole sits at odd/odd pattern coordinates. */
  lemma PatternCells()
    ensures |FortyTwo| == PatternHeight
    ensures forall i :: 0 <= i < PatternHeight ==> |FortyTwo[i]| == PatternWidth
    ensures forall i, j :: 0 <= i < PatternHeight && 0 <= j < PatternWidth ==>
              FortyTwo[i][j] == (if (i, j) in Holes then OBSTACLE else WALL)
    ensures forall i, j :: (i, j) in Holes ==>
              0 < i < PatternHeight - 1 && 0 < j < PatternWidth - 1 && i % 2 == 1 && j % 2 == 1
  {
    PatternRows(0, 4);
    PatternRows(4, 8);
    PatternRows(8, PatternHeight);
  }

  lemma PatternRows(lo: int, hi: int)
    requires 0 <= lo <= hi <= PatternHeight && hi - lo <= 4
    ensures forall i, j :: lo <= i < hi && 0 <= j < PatternWidth ==>
              FortyTwo[i][j] == (if (i, j) in Holes then OBSTACLE else WALL)
  {
    forall i, j | lo <= i < hi && 0 <= j < PatternWidth
      ensures FortyTwo[i][j] == (if (i, j) in Holes then OBSTACLE else WALL)
    {
    }
  }

  lemma PatternShape()
    ensures IsRect(FortyTwo, PatternHeight, PatternWidth)
  {
  }

  /** The offset `int(n - (size - n % 2) / 2)`: a true division of the
      difference by two, truncated toward zero. */
  function Offset(n: int, size: int): int {
    var twice := 2 * n - (size - n % 2);
    if twice >= 0 then twice / 2 else -((-twice) / 2)
  }

  /** On a side that holds the pattern, the offset is even and the pattern
      fits between it and the far edge of the fine grid. */
  lemma OffsetFits(n: int, size: int)
    requires size == PatternHeight || size == PatternWidth
    requires 2 * n + 1 > size
    ensures Offset(n, size) >= 0 && Offset(n, size) % 2 == 0
    ensures Offset(n, size) + size <= 2 * n + 1
  {
  }

  /** Whether the pattern is stamped into a grid of `h` by `w` logical cells. */
  predicate Fits(h: int, w: int) {
    2 * w + 1 > PatternWidth && 2 * h + 1 > PatternHeight
  }

  /** `g` with the window of `p` whose corner is (`r0`, `c0`) written over it. */
  function Overlay(g: Grid, p: seq<seq<int>>, r0: int, c0: int): (r: Grid)
    ensures SameShape(g, r)
    ensures forall q :: InBounds(g, q) ==>
              At(r, q) == (if 0 <= q.row - r0 < |p| && 0 <= q.col - c0 < |p[q.row - r0]|
                           then p[q.row - r0][q.col - c0] else At(g, q))
  {
    seq(|g|, r requires 0 <= r < |g| =>
      seq(|g[r]|, c requires 0 <= c < |g[r]| =>
        if 0 <= r - r0 < |p| && 0 <= c - c0 < |p[r - r0]| then p[r - r0][c - c0] else g[r][c]))
  }

  /** `set_fourty_two`: when the fine grid is wider than 15 and taller than 11,
      overwrite the window at the two offsets with the pattern, WALL cells
      included; otherwise leave the grid alone. */
  function SetFortyTwo(g: Grid, h: int, w: int): (r: Grid)
    requires IsRect(g, 2 * h + 1, 2 * w + 1)
    ensures SameShape(g, r)
    ensures !Fits(h, w) ==> r == g
  {
    if !Fits(h, w) then g
    else Overlay(g, FortyTwo, Offset(h, PatternHeight), Offset(w, PatternWidth))
  }

  /** A pattern with the shape and the holes of the "42". */
  ghost predicate LikeFortyTwo(p: seq<seq<int>>) {
    && IsRect(p, PatternHeight, PatternWidth)
    && (forall i, j :: 0 <= i < PatternHeight && 0 <= j < PatternWidth ==>
          p[i][j] == (if (i, j) in Holes then OBSTACLE else WALL))
    && (forall i, j :: (i, j) in Holes ==>
          0 < i < PatternHeight - 1 && 0 < j < PatternWidth - 1 && i % 2 == 1 && j % 2 == 1)
  }

  /** One cell of the stamped all-WALL grid. */
  lemma OverlayCell(h: int, w: int, p: seq<seq<int>>, q: Pos)
    requires h >= 0 && w >= 0 && Fits(h, w) && LikeFortyTwo(p)
    requires InBounds(Filled(2 * h + 1, 2 * w + 1, WALL), q)
    ensures var g := Overlay(Filled(2 * h + 1, 2 * w + 1, WALL), p, Offset(h, PatternHeight), Offset(w, PatternWidth));
            && (At(g, q) == WALL || At(g, q) == OBSTACLE)
            && (At(g, q) == OBSTACLE <==> (q.row - Offset(h, PatternHeight), q.col - Offset(w, PatternWidth)) in Holes)
            && (At(g, q) == OBSTACLE ==> IsLogical(q) && Interior(g, q))
  {
    var b := Filled(2 * h + 1, 2 * w + 1, WALL);
    var r0, c0 := Offset(h, PatternHeight), Offset(w, PatternWidth);
    var g := Overlay(b, p, r0, c0);
    var i, j := q.row - r0, q.col - c0;
    OffsetFits(h, PatternHeight);
    OffsetFits(w, PatternWidth);
    if 0 <= i < PatternHeight && 0 <= j < PatternWidth {
      OverlayInside(b, p, r0, c0, q);
      if (i, j) in Holes {
        OddShift(r0, i);
        OddShift(c0, j);
      }
    } else {
      assert At(g, q) == WALL;
      assert (i, j) !in Holes;
    }
  }

  lemma OverlayBlank(h: int, w: int, p: seq<seq<int>>)
    requires h >= 0 && w >= 0 && Fits(h, w) && LikeFortyTwo(p)
    ensures var g := Overlay(Filled(2 * h + 1, 2 * w + 1, WALL), p, Offset(h, PatternHeight), Offset(w, PatternWidth));
            forall q :: InBounds(g, q) ==>
              && (At(g, q) == WALL || At(g, q) == OBSTACLE)
              && (At(g, q) == OBSTACLE <==> (q.row - Offset(h, PatternHeight), q.col - Offset(w, PatternWidth)) in Holes)
              && (At(g, q) == OBSTACLE ==> IsLogical(q) && Interior(g, q))
  {
    var b := Filled(2 * h + 1, 2 * w + 1, WALL);
    forall q | InBounds(b, q) {
      OverlayCell(h, w, p, q);
    }
  }

  lemma OverlayInside(g: Grid, p: seq<seq<int>>, r0: int, c0: int, q: Pos)
    requires InBounds(g, q) && IsRect(p, PatternHeight, PatternWidth)
    requires 0 <= q.row - r0 < PatternHeight && 0 <= q.col - c0 < PatternWidth
    ensures At(Overlay(g, p, r0, c0), q) == p[q.row - r0][q.col - c0]
  {
  }

  lemma OddShift(a: int, b: int)
    requires a % 2 == 0 && b % 2 == 1
    ensures (a + b) % 2 == 1
  {
  }

  /** The all-WALL grid of `h` by `w` logical cells after the stamp: every
      cell is WALL or OBSTACLE, the obstacles are exactly the holes shifted by
      the offsets, and each of them is a logical cell off the frame. */
  lemma StampedBlank(h: int, w: int)
    requires h >= 0 && w >= 0
    ensures var g := SetFortyTwo(Filled(2 * h + 1, 2 * w + 1, WALL), h, w);
            && IsRect(g, 2 * h + 1, 2 * w + 1)
            && forall q :: InBounds(g, q) ==>
                 && (At(g, q) == WALL || At(g, q) == OBSTACLE)
                 && (At(g, q) == OBSTACLE <==>
                       Fits(h, w) && (q.row - Offset(h, PatternHeight), q.col - Offset(w, PatternWidth)) in Holes)
                 && (At(g, q) == OBSTACLE ==> IsLogical(q) && Interior(g, q))
  {
    if Fits(h, w) {
      PatternCells();
      OverlayBlank(h, w, FortyTwo);
    }
  }
}

=== FILE: walk.dfy ===
/**
 Compass moves and the walks they trace on the fine grid. The depth-first
 solver moves one cell per step (stride 1); A* and the carver move from
 logical cell to logical cell (stride 2).
 */
module Walks {
  import opened Grids

  datatype Dir = N | S | W | E

  /** The neighbour order every scan of the program uses: north, south, west, east. */
  const Order: seq<Dir> := [N, S, W, E]

  function Letter(d: Dir): char {
    match d
    case N => 'N'
    case S => 'S'
    case W => 'W'
    case E => 'E'
  }

  function DRow(d: Dir): int {
    match d
    case N => -1
    case S => 1
    case _ => 0
  }

  function DCol(d: Dir): int {
    match d
    case W => -1
    case E => 1
    case _ => 0
  }

  function Opposite(d: Dir): Dir {
    match d
    case N => S
    case S => N
    case W => E
    case E => W
  }

  function Step(p: Pos, d: Dir, stride: int): Pos {
    Pos(p.row + stride * DRow(d), p.col + stride * DCol(d))
  }

  lemma OrderListsEveryDir(d: Dir)
    ensures d in Order
  {
    match d
    case N => assert Order[0] == d;
    case S => assert Order[1] == d;
    case W => assert Order[2] == d;
    case E => assert Order[3] == d;
  }

  /** The cells a walk of `ds` from `p` stands on, `p` first. */
  function Trace(p: Pos, ds: seq<Dir>, stride: int): (t: seq<Pos>)
    ensures |t| == |ds| + 1 && t[0] == p
    decreases |ds|
  {
    if ds == [] then [p]
    else
      var t := Trace(p, ds[..|ds| - 1], stride);
      t + [Step(t[|t| - 1], ds[|ds| - 1], stride)]
  }

  /** Where a walk of `ds` from `p` ends. */
  function Dest(p: Pos, ds: seq<Dir>, stride: int): Pos {
    Trace(p, ds, stride)[|ds|]
  }

  lemma TraceAppend(p: Pos, ds: seq<Dir>, d: Dir, stride: int)
    ensures Trace(p, ds + [d], stride) == Trace(p, ds, stride) + [Step(Dest(p, ds, stride), d, stride)]
  {
    assert (ds + [d])[..|ds|] == ds;
  }

  /** Each cell of a trace is one step from the cell before it. */
  lemma {:induction false} TraceSteps(p: Pos, ds: seq<Dir>, stride: int)
    ensures forall k :: 0 <= k < |ds| ==>
              Trace(p, ds, stride)[k + 1] == Step(Trace(p, ds, stride)[k], ds[k], stride)
    decreases |ds|
  {
    if ds != [] {
      var n := |ds| - 1;
      TraceSteps(p, ds[..n], stride);
      TraceAppend(p, ds[..n], ds[n], stride);
      assert ds[..n] + [ds[n]] == ds;
    }
  }

  /** The trace of a prefix is a prefix of the trace. */
  lemma {:induction false} TracePrefix(p: Pos, ds: seq<Dir>, n: nat, stride: int)
    requires n <= |ds|
    ensures Trace(p, ds[..n], stride) == Trace(p, ds, stride)[..n + 1]
    decreases |ds|
  {
    if n < |ds| {
      var m := |ds| - 1;
      assert ds[..m][..n] == ds[..n];
      TracePrefix(p, ds[..m], n, stride);
      assert Trace(p, ds, stride)[..m + 1] == Trace(p, ds[..m], stride);
    } else {
      assert ds[..n] == ds;
    }
  }

  /** Every step of the walk of `ds` from `p` is allowed by `ok`. */
  ghost predicate Allowed(p: Pos, ds: seq<Dir>, stride: int, ok: (Pos, Dir) -> bool) {
    forall k :: 0 <= k < |ds| ==> ok(Trace(p, ds, stride)[k], ds[k])
  }

  /** An allowed walk extended by one allowed step is allowed. */
  lemma AllowedAppend(p: Pos, ds: seq<Dir>, d: Dir, stride: int, ok: (Pos, Dir) -> bool)
    requires Allowed(p, ds, stride, ok) && ok(Dest(p, ds, stride), d)
    ensures Allowed(p, ds + [d], stride, ok)
  {
    TraceAppend(p, ds, d, stride);
    var t, t' := Trace(p, ds, stride), Trace(p, ds + [d], stride);
    forall k | 0 <= k < |ds| + 1
      ensures ok(t'[k], (ds + [d])[k])
    {
      if k < |ds| {
        assert t'[k] == t[k];
      }
    }
  }

  /** A walk allowed by `ok` is allowed by anything `ok` implies. */
  lemma AllowedWeaken(p: Pos, ds: seq<Dir>, stride: int, ok: (Pos, Dir) -> bool, ok': (Pos, Dir) -> bool)
    requires Allowed(p, ds, stride, ok)
    requires forall q, d :: ok(q, d) ==> ok'(q, d)
    ensures Allowed(p, ds, stride, ok')
  {
  }

  /** No allowed step leads out of `s`. */
  ghost predicate Closed(s: set<Pos>, stride: int, ok: (Pos, Dir) -> bool) {
    forall p, d :: p in s && ok(p, d) ==> Step(p, d, stride) in s
  }

  predicate Distinct(t: seq<Pos>) {
    forall i, j :: 0 <= i < j < |t| ==> t[i] != t[j]
  }

  /** An allowed walk that starts inside a closed region never leaves it. */
  lemma {:induction false} WalkStaysInside(s: set<Pos>, p: Pos, ds: seq<Dir>, stride: int, ok: (Pos, Dir) -> bool)
    requires Closed(s, stride, ok) && p in s && Allowed(p, ds, stride, ok)
    ensures forall k :: 0 <= k <= |ds| ==> Trace(p, ds, stride)[k] in s
    decreases |ds|
  {
    if ds != [] {
      var n := |ds| - 1;
      var t := Trace(p, ds, stride);
      TracePrefix(p, ds, n, stride);
      assert Allowed(p, ds[..n], stride, ok) by {
        forall k | 0 <= k < n
          ensures ok(Trace(p, ds[..n], stride)[k], ds[..n][k])
        {
          assert Trace(p, ds[..n], stride)[k] == t[k];
        }
      }
      WalkStaysInside(s, p, ds[..n], stride, ok);
      TraceSteps(p, ds, stride);
      assert t[n] == Trace(p, ds[..n], stride)[n];
      assert ok(t[n], ds[n]);
    }
  }

  /** A two-cell move from a logical cell lands on a logical cell and crosses
      a cell that is not logical. */
  lemma MoveParity(c: Pos, d: Dir)
    requires IsLogical(c)
    ensures IsLogical(Step(c, d, 2)) && !IsLogical(Step(c, d, 1))
  {
  }

  /** Every cell of a walk of two-cell moves from a logical cell is logical. */
  lemma {:induction false} TraceLogical(p: Pos, ds: seq<Dir>)
    requires IsLogical(p)
    ensures forall k :: 0 <= k <= |ds| ==> IsLogical(Trace(p, ds, 2)[k])
    decreases |ds|
  {
    if ds != [] {
      var n := |ds| - 1;
      TraceLogical(p, ds[..n]);
      TracePrefix(p, ds, n, 2);
      TraceSteps(p, ds, 2);
      MoveParity(Trace(p, ds, 2)[n], ds[n]);
    }
  }
}
